=== FILE: README.md ===
# cdk-common helpers, modelled in Dafny

cdk-common is a Java library of AWS CDK constructs. Most of its code copies configuration
records into CDK builders. This project models the parts that decide something:

- the right-biased map merge `Common.Maps.from`, which every tag, annotation and
  template-variable merge goes through;
- the short resource id `Common.id`, including the Base32 encoding (RFC 4648, section 6)
  of the digest it starts from;
- the id, name, description and export-prefix formatting of `Format`;
- the front half of `Template`: resource path, missing-resource error, the 20 default
  variables, and the override-wins merge of caller values;
- the case-insensitive enum codecs `Environment`, `Version`, `Owner`, `BuildStep.value`, the
  endpoint-access selector of `EksNestedStack` and the OAuth-scope selector of
  `UserPoolClientConstruct`;
- the translation of a `Principal` tree into an IAM (composite) principal, and the OIDC
  web-identity principal;
- the DynamoDB table decisions (sort key, encryption, billing, streams, secondary indexes)
  as steps on one mutable table builder;
- the EKS tenant lists read from the context, and the creation order and declared
  dependencies of the EKS nested stack;
- the all-or-nothing Grafana settings lookup;
- the de-duplication of CodePipeline variables;
- the CodeBuild environment-variable mapping.

Java `null` is `Option.None`, a thrown exception is `Result.Err` carrying the exception kind
and message, and the CDK construct context is a map from key to a JSON-shaped `Context.Value`.
`Node.getContext` on an unset key fails with `MissingContext(key)`; `tryGetContext` gives
`None`.

The modules are:

| module | file | Java source |
|---|---|---|
| `Wrappers` | `wrappers.dfy` | Option, Result, exception kinds |
| `Text` | `text.dfy` | ASCII case mapping, join, split, replace |
| `Context` | `context.dfy` | CDK context values and lookups |
| `JavaEnum` | `java_enum.dfy` | `Enum.valueOf` |
| `Common` | `common.dfy` | `Common.java` |
| `Base32` | `base32.dfy` | the Base32 step of `Common.id` |
| `Format` | `format.dfy` | `Format.java` |
| `Template` | `template.dfy` | `Template.java` |
| `Environments`, `Versions`, `Owners` | `environment.dfy`, `version.dfy`, `owner.dfy` | the three enums |
| `BuildSteps` | `buildstep.dfy` | `BuildStep.java` |
| `Principals` | `principal.dfy` | `Principal.java` |
| `DynamoDb` | `dynamodb.dfy` | `DynamoDbConstruct.java` |
| `Eks` | `eks.dfy` | `EksNestedStack.java` |
| `Cognito` | `cognito.dfy` | `UserPoolClientConstruct.java` |
| `Grafana` | `grafana.dfy` | `GrafanaBaseConstruct.java` |
| `Pipelines` | `pipeline.dfy` | `PipelineConstruct.java` |
| `CodeBuildEnvironment` | `codebuild_environment.dfy` | `model/aws/codebuild/Environment.java` |

Functions and lemmas model the code that is written as expressions and streams. Code that
updates state step by step is modelled with methods:

- `DynamoDb.TableBuilder` is a class. Its setters are `modifies` methods, and each construct
  step is proved against a function from the old settings to the new ones.
- `Eks.EksStack` is a class. Its constructor creates the constructs and declares their
  dependencies in the source's order.
- `Eks.Tenants` is the source's loop.
- `Common.Id` reassigns the encoded string as the source does.

## Model

| member | source | states |
|---|---|---|
| Common.From | src/main/java/io/stxkxs/model/_main/Common.java:73-80 | two nulls give an empty map; one null gives the other map itself. With two maps: the key set is the union; the second map's value wins on a shared key; first-only keys keep their value; a null value in either map is a NullPointerException, and only then does the merge fail |
| Common.From3 | src/main/java/io/stxkxs/model/_main/Common.java:69-71 | on success, the right-biased union of the non-null maps (c over b over a); it never fails when no map holds a null value, and a failure is a NullPointerException |
| Common.From3Precedence | src/main/java/io/stxkxs/model/_main/Common.java:69-71 | with null-free maps, the three-way merge succeeds, holds the keys of all three, and gives each key its value from c, else b, else a |
| Common.FromAssociative | src/main/java/io/stxkxs/model/_main/Common.java:69-80 | with null-free maps, `from(from(a, b), c)` equals `from(a, from(b, c))` |
| Common.JavaRem | src/main/java/io/stxkxs/model/_main/Common.java:64 | Java's truncating `%`: strictly inside (-b, b), equal to the Euclidean remainder for a non-negative dividend, never positive for a negative one |
| Common.HashCode | src/main/java/io/stxkxs/model/_main/Common.java:64 | `String.hashCode()` is always a 32-bit `int` |
| Common.HashCodePoly | src/main/java/io/stxkxs/model/_main/Common.java:64 | `String.hashCode()` is the documented polynomial `s[0]*31^(n-1) + ... + s[n-1]` reduced modulo 2^32 |
| Common.ReplaceIndex | src/main/java/io/stxkxs/model/_main/Common.java:63-66 | `abs(hashCode % 26)` is always a valid index into the 26-letter alphabet |
| Common.Replacement | src/main/java/io/stxkxs/model/_main/Common.java:63-66 | the replacement character is a lower-case ASCII letter |
| Common.Id | src/main/java/io/stxkxs/model/_main/Common.java:38-45 | an empty encoding fails at `charAt(0)`. Otherwise the id has min(15, length) characters; the first is lower case (the input's own letter lower-cased, or the hash-picked replacement of a non-letter); the rest are the input's characters lower-cased. Given 15 Base32 characters, the id is exactly 15 characters from a-z and 2-7 |
| Base32.EncodeQuantum | src/main/java/io/stxkxs/model/_main/Common.java:58-61 | one quantum of 1-5 bytes gives 8 characters: the data characters (2, 4, 5, 7 or 8 of them) are alphabet characters and the rest are `=` padding |
| Base32.Encode | src/main/java/io/stxkxs/model/_main/Common.java:58-61 | the encoding has 8 characters per started 5-byte group; `Base32.DecodeEncode` shows it loses nothing |
| Base32.Digits01 | src/main/java/io/stxkxs/model/_main/Common.java:58-61 | digits 0 and 1 of a quantum are the top 5 bits of byte 0, then its low 3 bits and the top 2 bits of byte 1 |
| Base32.Digits23 | src/main/java/io/stxkxs/model/_main/Common.java:58-61 | digits 2 and 3 are bits 6-2 of byte 1, then its low bit and the top 4 bits of byte 2 |
| Base32.Digits45 | src/main/java/io/stxkxs/model/_main/Common.java:58-61 | digits 4 and 5 are the low 4 bits of byte 2 and the top bit of byte 3, then bits 6-2 of byte 3 |
| Base32.Digits67 | src/main/java/io/stxkxs/model/_main/Common.java:58-61 | digits 6 and 7 are the low 2 bits of byte 3 and the top 3 bits of byte 4, then the low 5 bits of byte 4 |
| Base32.CharValue | src/main/java/io/stxkxs/model/_main/Common.java:58-61 | an alphabet character's value is below 32 |
| Base32.DataLength | src/main/java/io/stxkxs/model/_main/Common.java:58-61 | the length of the leading run of alphabet characters: all before it are alphabet characters, the one at it is not |
| Base32.DecodeQuantum | src/main/java/io/stxkxs/model/_main/Common.java:58-61 | a decoded group holds 1 to 5 bytes |
| Base32.CombineSplit | src/main/java/io/stxkxs/model/_main/Common.java:58-61 | five bytes cut into eight 5-bit digits recombine to the same five bytes |
| Base32.CombineDigits | src/main/java/io/stxkxs/model/_main/Common.java:58-61 | a quantum's digits recombine to its bytes, missing bytes as zero |
| Base32.PaddedDigitsZero | src/main/java/io/stxkxs/model/_main/Common.java:58-61 | the digits in padded positions are zero |
| Base32.EncodedGroup | src/main/java/io/stxkxs/model/_main/Common.java:58-61 | an encoded quantum has exactly its data characters before the padding, each standing for the quantum's digit at that position |
| Base32.DecodeEncodeQuantum | src/main/java/io/stxkxs/model/_main/Common.java:58-61 | an encoded quantum decodes to the bytes it was made from |
| Base32.DecodeWholeGroups | src/main/java/io/stxkxs/model/_main/Common.java:58-61 | only texts made of whole 8-character groups decode |
| Base32.DecodeEncode | src/main/java/io/stxkxs/model/_main/Common.java:58-61 | decoding the encoding of any bytes gives those bytes back: the encoding is injective |
| Base32.EncodeChars | src/main/java/io/stxkxs/model/_main/Common.java:58-61 | every encoded character is an alphabet character or padding; all characters of complete quanta are alphabet characters |
| Base32.DigestEncoding | src/main/java/io/stxkxs/model/_main/Common.java:34-38 | a 32-byte SHA-256 digest encodes to 56 characters whose first 15 are alphabet characters, the precondition `Common.Id` needs for a full 15-character id |
| Base32.TestVectorsOneQuantum | src/main/java/io/stxkxs/model/_main/Common.java:58-61 | "f" encodes to "MY======" and "fooba" to "MZXW6YTB", as the RFC 4648 test vectors give |
| Base32.TestVectorTwoQuanta | src/main/java/io/stxkxs/model/_main/Common.java:58-61 | "foobar" encodes to "MZXW6YTBOI======" |
| Format.Id | src/main/java/io/stxkxs/execute/serialization/Format.java:86-89 | the id holds no "-"; for n >= 1 segments its length is the sum of the segment lengths plus n - 1; no segments give "" |
| Format.Name | src/main/java/io/stxkxs/execute/serialization/Format.java:91-93 | the name holds no "."; it has the id's length; it has "-" exactly where the id has "."; it agrees with the id everywhere else |
| Format.NameIdempotent | src/main/java/io/stxkxs/execute/serialization/Format.java:91-93 | applying the name's "." to "-" replacement to a name changes nothing |
| Format.IdSplit | src/main/java/io/stxkxs/execute/serialization/Format.java:86-89 | segments free of "." and "-" are recovered by splitting their id on "." |
| Format.NameSplit | src/main/java/io/stxkxs/execute/serialization/Format.java:86-93 | segments free of "." and "-" are recovered by splitting their name on "-" |
| Format.Describe | src/main/java/io/stxkxs/execute/serialization/Format.java:95-99 | with segments, the organization, environment and segments joined by single spaces; without, organization and environment each followed by a space (a null one prints as "null") |
| Format.DescribeSplit | src/main/java/io/stxkxs/execute/serialization/Format.java:95-99 | a description splits on " " into organization, environment and the segments, when none of them holds a space |
| Format.Prefix | src/main/java/io/stxkxs/execute/serialization/Format.java:102-105 | the synthesizer name when the context sets it; else the host id; else a missing-context error naming `host:id` |
| Format.Exported | src/main/java/io/stxkxs/execute/serialization/Format.java:101-109 | succeeds exactly when the prefix resolves and `hosted:id` is set, and is then prefix + hosted id + suffix with no separator; each failure names the missing key |
| Format.Named | src/main/java/io/stxkxs/execute/serialization/Format.java:111-119 | succeeds under the same conditions as `exported`, and is then the three parts joined with "-"; each failure names the missing key |
| Format.NamedMatchesExported | src/main/java/io/stxkxs/execute/serialization/Format.java:101-119 | `named` and `exported` fail alike with the same error. When no part holds "-", the name splits into three parts whose concatenation is the exported name |
| Template.Execute | src/main/java/io/stxkxs/execute/serialization/Template.java:141-159 | succeeds exactly when a resource exists at `<environment>/<version>/<file>`, and then renders that resource against the values; otherwise fails with "error parsing template! can not find <path>." |
| Template.ResourcePath | src/main/java/io/stxkxs/execute/serialization/Template.java:146-147 | for a file name without "/", the path splits on "/" into exactly the environment's text, the version's text and the file name |
| Template.Required | src/main/java/io/stxkxs/execute/serialization/Template.java:175-192 | succeeds exactly when every required key is set. On success, each key maps to its value's text. On failure, the error names the first unset key in reading order |
| Template.WithDefaults | src/main/java/io/stxkxs/execute/serialization/Template.java:172-174 | adds `home` and `synthesizer:name` to the required entries and keeps the required entries unchanged |
| Template.Defaults | src/main/java/io/stxkxs/execute/serialization/Template.java:161-198 | fails, naming the first unset one, exactly when a `host:*`/`hosted:*` key is missing. On success: the keys are exactly the 20 default keys; `home` is the context value or "/"; `synthesizer:name` is the hosted synthesizer name or the fresh id; every other entry is the context value's text; no value is null |
| Template.DefaultKeyCount | src/main/java/io/stxkxs/execute/serialization/Template.java:172-193 | the default variables hold exactly 20 distinct keys |
| Template.Target | src/main/java/io/stxkxs/execute/serialization/Template.java:128-129 | on success both `host:version` and `host:environment` are set, and the version and environment are what the case-insensitive `of` parsers give for their texts |
| Template.Parse | src/main/java/io/stxkxs/execute/serialization/Template.java:127-131 | succeeds only when environment, version and defaults resolve, and then renders the resolved file against exactly the defaults |
| Template.ParseWith | src/main/java/io/stxkxs/execute/serialization/Template.java:134-138 | succeeds only when environment, version and defaults resolve |
| Template.ParseWithOverrides | src/main/java/io/stxkxs/execute/serialization/Template.java:137 | with null-free caller values, renders against the defaults overridden by the caller's values (`d + values`): caller values win, un-overridden defaults survive |
| Template.ParseWithNull | src/main/java/io/stxkxs/execute/serialization/Template.java:134-138 | a null caller map makes the two-argument parse identical to the one-argument parse |
| Template.TargetFailsFirst | src/main/java/io/stxkxs/execute/serialization/Template.java:127-138 | a missing or unknown environment or version fails both parses with that error, whatever the resources and the renderer |
| Template.UnknownVersion | src/main/java/io/stxkxs/execute/serialization/Template.java:128 | a version text that is not v1/v2/v3 in any case fails with `No enum constant ...Version.<TEXT>` |
| Template.ParseDeterministic | src/main/java/io/stxkxs/execute/serialization/Template.java:167-170 | when `hosted:synthesizer:name` is set, the result does not depend on the random id |
| Template.ProductionV2Path | src/main/java/io/stxkxs/execute/serialization/Template.java:146-147 | production, v2, "network.yaml" resolves to "production/v2/network.yaml" |
| Template.MissingResourceNamesPath | src/main/java/io/stxkxs/execute/serialization/Template.java:146-153 | a missing production/v2 resource fails with the message naming exactly that path |
| JavaEnum.ValueOf | src/main/java/io/stxkxs/model/_main/Environment.java:7 | `Enum.valueOf`: a found member has exactly that name; it fails exactly when no member has the name, with "No enum constant <class>.<name>" |
| JavaEnum.UpperCaseLookup | src/main/java/io/stxkxs/model/_main/Environment.java:6-8 | over distinct upper-case names, `valueOf(s.toUpperCase())` finds a member exactly when `s` equals its name ignoring case; every `of` parser instantiates this |
| JavaEnum.UpperCaseRejects | src/main/java/io/stxkxs/model/_main/Environment.java:6-8 | over upper-case names, `valueOf(s.toUpperCase())` fails exactly when `s` equals no name ignoring case |
| JavaEnum.ValueOfName | src/main/java/io/stxkxs/model/_main/Environment.java:7 | with distinct names, every member is found by its own name |
| Environments.ToString | src/main/java/io/stxkxs/model/_main/Environment.java:10-13 | the lower-cased constant name |
| Environments.Of | src/main/java/io/stxkxs/model/_main/Environment.java:6-8 | a failure is the IllegalArgumentException for the upper-cased text |
| Environments.OfToString | src/main/java/io/stxkxs/model/_main/Environment.java:6-13 | `of(e.toString()) == e` for every member |
| Environments.OfIgnoresCase | src/main/java/io/stxkxs/model/_main/Environment.java:6-8 | `of(s)` gives `e` exactly when `s` equals `e`'s text ignoring case |
| Environments.OfRejects | src/main/java/io/stxkxs/model/_main/Environment.java:6-8 | any other text fails with the IllegalArgumentException |
| Environments.ToStringInjective | src/main/java/io/stxkxs/model/_main/Environment.java:3-13 | distinct members print differently |
| Versions.ToString | src/main/java/io/stxkxs/model/_main/Version.java:10-13 | the lower-cased constant name ("v1", "v2", "v3") |
| Versions.Of | src/main/java/io/stxkxs/model/_main/Version.java:6-8 | a failure is the IllegalArgumentException for the upper-cased text |
| Versions.OfToString | src/main/java/io/stxkxs/model/_main/Version.java:6-13 | `of(v.toString()) == v` for every member |
| Versions.OfIgnoresCase | src/main/java/io/stxkxs/model/_main/Version.java:6-8 | `of(s)` gives `v` exactly when `s` equals `v`'s text ignoring case |
| Versions.OfRejects | src/main/java/io/stxkxs/model/_main/Version.java:6-8 | any other text fails with the IllegalArgumentException |
| Versions.ToStringInjective | src/main/java/io/stxkxs/model/_main/Version.java:3-13 | distinct members print differently |
| Owners.ToString | src/main/java/io/stxkxs/model/aws/dynamodb/Owner.java:10-13 | the lower-cased constant name ("aws", "dynamodb", "self") |
| Owners.Of | src/main/java/io/stxkxs/model/aws/dynamodb/Owner.java:6-8 | a failure is the IllegalArgumentException for the upper-cased text |
| Owners.OfToString | src/main/java/io/stxkxs/model/aws/dynamodb/Owner.java:6-13 | `of(o.toString()) == o` for every member |
| Owners.OfIgnoresCase | src/main/java/io/stxkxs/model/aws/dynamodb/Owner.java:6-8 | `of(s)` gives `o` exactly when `s` equals `o`'s text ignoring case |
| Owners.OfRejects | src/main/java/io/stxkxs/model/aws/dynamodb/Owner.java:6-8 | any other text fails with the IllegalArgumentException |
| Owners.ToStringInjective | src/main/java/io/stxkxs/model/aws/dynamodb/Owner.java:3-13 | distinct members print differently |
| BuildSteps.CapitalizeFully | src/main/java/io/stxkxs/model/aws/codebuild/BuildStep.java:20 | `capitalizeFully` of one word keeps its length, upper-cases its first character and lower-cases every other one, and so equals the word ignoring case |
| BuildSteps.Value | src/main/java/io/stxkxs/model/aws/codebuild/BuildStep.java:16-21 | `value()` equals the member name ignoring case |
| BuildSteps.Values | src/main/java/io/stxkxs/model/aws/codebuild/BuildStep.java:17-20 | BUILD gives "build", ASSETS "Assets", DEPLOY "Deploy" |
| BuildSteps.ValueInjective | src/main/java/io/stxkxs/model/aws/codebuild/BuildStep.java:8-21 | distinct steps have distinct values |
| Principals.Base | src/main/java/io/stxkxs/model/aws/iam/Principal.java:117-136 | AWS and ACCOUNT give an account principal, FEDERATED a federated one (action, session tags), and ARN and SERVICE their own kinds, each for `value`; STAR gives a star principal. All carry the record's conditions. A null conditions map is a NullPointerException for every one of these but FEDERATED. Any other type fails with "unknown principal type <value>" |
| Principals.Translate | src/main/java/io/stxkxs/model/aws/iam/Principal.java:117-151 | fails exactly when the own translation of some principal of the tree fails (an unknown type, or a null conditions map on a type other than FEDERATED), with the first one's error. With no nested principals the result is the base principal. Otherwise it is a composite of 1 + |composite| members: the base, then the nested translations |
| Principals.TranslateAll | src/main/java/io/stxkxs/model/aws/iam/Principal.java:143 | the nested list fails exactly when one of its trees holds a principal whose own translation fails, with the first one's error; on success one member per nested principal |
| Principals.TranslateAllPointwise | src/main/java/io/stxkxs/model/aws/iam/Principal.java:143 | each nested principal translates on its own into the member at its position |
| Principals.TranslateComposite | src/main/java/io/stxkxs/model/aws/iam/Principal.java:143-145 | member i + 1 of a composite is the translation of nested principal i |
| Principals.NestedNullConditionsFail | src/main/java/io/stxkxs/model/aws/iam/Principal.java:119-143 | a nested principal of a type other than FEDERATED with a null conditions map makes the whole translation fail |
| Principals.AwsIsAccount | src/main/java/io/stxkxs/model/aws/iam/Principal.java:118-120 | AWS and ACCOUNT translate identically |
| Principals.OidcPrincipal | src/main/java/io/stxkxs/model/aws/iam/Principal.java:153-169 | a web-identity principal for the provider ARN whose single StringEquals condition has exactly the two claims `<issuer>:aud` and `<issuer>:sub` |
| Principals.OidcSubject | src/main/java/io/stxkxs/model/aws/iam/Principal.java:153-169 | the audience is "sts.amazonaws.com"; the subject splits on ":" into "system", "serviceaccount", the namespace and the name |
| DynamoDb.TableBuilder.constructor | src/main/java/io/stxkxs/execute/aws/dynamodb/DynamoDbConstruct.java:112-132 | the chained settings are stored; sort key, encryption, billing and streams are unset |
| DynamoDb.KeyAttribute | src/main/java/io/stxkxs/execute/aws/dynamodb/DynamoDbConstruct.java:115-118 | an `Attribute` exactly when the key's name and type are both non-null, carrying that name and type; otherwise a NullPointerException |
| DynamoDb.SecondaryIndex | src/main/java/io/stxkxs/execute/aws/dynamodb/DynamoDbConstruct.java:142-174 | fails with a NullPointerException exactly when the index has a sort key with a null name or type. Otherwise: name and projection copied; the sort key's name and type exactly when it has one; the non-key attributes exactly when the list is non-empty |
| DynamoDb.SecondaryIndexes | src/main/java/io/stxkxs/execute/aws/dynamodb/DynamoDbConstruct.java:119-124 | succeeds exactly when every index builds, with one index property per index, in order, each as `SecondaryIndex` describes; otherwise a NullPointerException |
| DynamoDb.SortKeyStep | src/main/java/io/stxkxs/execute/aws/dynamodb/DynamoDbConstruct.java:259-265 | the sort key is set exactly when key, name and type are all non-null, to an attribute with that name and type; no other setting changes |
| DynamoDb.ApplySortKey | src/main/java/io/stxkxs/execute/aws/dynamodb/DynamoDbConstruct.java:259-265 | the builder's settings become `SortKeyStep` of the old ones; its chained settings are unchanged |
| DynamoDb.KeyFor | src/main/java/io/stxkxs/execute/aws/dynamodb/DynamoDbConstruct.java:246-255 | AWS gives the AWS-managed key and DYNAMODB the DynamoDB-owned key. SELF with kms gives the customer-managed key for that kms. SELF without kms gives no key |
| DynamoDb.EncryptionStep | src/main/java/io/stxkxs/execute/aws/dynamodb/DynamoDbConstruct.java:243-257 | disabled changes nothing. Enabled with a null owner is a NullPointerException. Otherwise it fails exactly when `Owner.of` rejects the owner, with its message, and else sets the owner's key when there is one; only the encryption changes |
| DynamoDb.ApplyEncryption | src/main/java/io/stxkxs/execute/aws/dynamodb/DynamoDbConstruct.java:243-257 | the builder follows `EncryptionStep`, and is left unchanged on the error |
| DynamoDb.EncryptionIgnoresCase | src/main/java/io/stxkxs/execute/aws/dynamodb/DynamoDbConstruct.java:245 | owner texts equal up to case configure the same encryption |
| DynamoDb.EncryptionOfOwner | src/main/java/io/stxkxs/execute/aws/dynamodb/DynamoDbConstruct.java:244-252 | an owner given as "aws", "dynamodb" or "self" selects that owner's key |
| DynamoDb.OneHotCases | src/main/java/io/stxkxs/execute/aws/dynamodb/DynamoDbConstruct.java:201-204 | the one-hot check holds exactly when only on-demand, only fixed, or only provisioned is selected |
| DynamoDb.FixedBranchUnreachable | src/main/java/io/stxkxs/execute/aws/dynamodb/DynamoDbConstruct.java:229-235 | the code as written never sets fixed capacity |
| DynamoDb.BillingAsWritten | src/main/java/io/stxkxs/execute/aws/dynamodb/DynamoDbConstruct.java:200-241 | the billing as written: on-demand when the one-hot check fails; on-demand for on-demand only; autoscaled read and write capacity for provisioned only; the previous billing, untouched, for fixed only |
| DynamoDb.AutoscaledOf | src/main/java/io/stxkxs/execute/aws/dynamodb/DynamoDbConstruct.java:212-226 | an autoscaled capacity with the direction's minimum, maximum, seed and target utilisation |
| DynamoDb.FixedOnlyIgnored | src/main/java/io/stxkxs/execute/aws/dynamodb/DynamoDbConstruct.java:206-236 | a fixed-only configuration sets no billing at all under the code as written |
| DynamoDb.BillingFor | src/main/java/io/stxkxs/execute/aws/dynamodb/DynamoDbConstruct.java:200-241 | the corrected decision: zero or several options give on-demand; only on-demand gives on-demand; only fixed gives fixed read/write capacity; only provisioned gives autoscaled read/write capacity with min, max, seed and target copied |
| DynamoDb.BillingAgrees | src/main/java/io/stxkxs/execute/aws/dynamodb/DynamoDbConstruct.java:200-241 | outside the fixed-only case, the code as written sets exactly `BillingFor` |
| DynamoDb.ApplyBillingAsWritten | src/main/java/io/stxkxs/execute/aws/dynamodb/DynamoDbConstruct.java:200-241 | the builder's billing becomes what the code as written decides; nothing else changes |
| DynamoDb.ApplyBilling | src/main/java/io/stxkxs/execute/aws/dynamodb/DynamoDbConstruct.java:200-241 | the corrected step: the builder's billing becomes `BillingFor`; nothing else changes |
| DynamoDb.Position | src/main/java/io/stxkxs/execute/aws/dynamodb/DynamoDbConstruct.java:196 | every view type sits in the declared list of view types |
| DynamoDb.ParseStreamViewType | src/main/java/io/stxkxs/execute/aws/dynamodb/DynamoDbConstruct.java:196 | a found view type's name is the upper-cased text; it fails exactly when no view type has that name, with the `valueOf` IllegalArgumentException |
| DynamoDb.ParseStreamViewTypeName | src/main/java/io/stxkxs/execute/aws/dynamodb/DynamoDbConstruct.java:196 | every view type is found by its own name |
| DynamoDb.ParseStreamViewTypeIgnoresCase | src/main/java/io/stxkxs/execute/aws/dynamodb/DynamoDbConstruct.java:196 | the text selects view type t exactly when it equals t's name ignoring case |
| DynamoDb.StreamsStep | src/main/java/io/stxkxs/execute/aws/dynamodb/DynamoDbConstruct.java:176-198 | a Kinesis stream is set only when configured and enabled. A DynamoDB stream is set only when configured and enabled, and fails exactly when its view type is unknown. Nothing else changes |
| DynamoDb.ApplyStreams | src/main/java/io/stxkxs/execute/aws/dynamodb/DynamoDbConstruct.java:176-198 | the builder follows `StreamsStep`, and the error is returned |
| DynamoDb.Configured | src/main/java/io/stxkxs/execute/aws/dynamodb/DynamoDbConstruct.java:134-137 | the four steps in order from unset settings. The sort key is what `sortKey` decides; no encryption when disabled, and when enabled the key `EncryptionStep` selects; billing is what the code as written decides (`BillingFor` outside the fixed-only case, unset for fixed only); the Kinesis stream exactly when enabled; the DynamoDB stream, exactly when enabled, is the view type its `type` names. It fails exactly when encryption or streams fail, with the streams' error when encryption succeeded |
| DynamoDb.CfnTags | src/main/java/io/stxkxs/execute/aws/dynamodb/DynamoDbConstruct.java:130-132 | one tag per merged entry with its value; a null value is a NullPointerException, and only then does it fail |
| DynamoDb.MergedTags | src/main/java/io/stxkxs/execute/aws/dynamodb/DynamoDbConstruct.java:130 | fails with a NullPointerException exactly when both tag maps are non-null and one holds a null value. Otherwise the keys are those of both maps; the table's own tags win on a shared key, and the common tags fill the rest |
| DynamoDb.Create | src/main/java/io/stxkxs/execute/aws/dynamodb/DynamoDbConstruct.java:107-140 | a NullPointerException when the partition key is incomplete, an index has an incomplete sort key, or the tags merge to a null value. Otherwise it succeeds exactly when the steps do, failing with their error. A fresh builder then holds the configured settings, the table name, the partition key's name and type, the merged tags, and per index its name, projection, sort key and non-key attributes, in order |
| Eks.EndpointAccessOf | src/main/java/io/stxkxs/execute/aws/eks/EksNestedStack.java:75-86 | accepts exactly "public_and_private", "private" and "public" in any case, and gives PUBLIC exactly for "public"; anything else is the InvalidParameterException |
| Eks.NeverPrivateOnly | src/main/java/io/stxkxs/execute/aws/eks/EksNestedStack.java:79-80 | no text selects PRIVATE; "private" gives PUBLIC_AND_PRIVATE |
| Eks.CastToString | src/main/java/io/stxkxs/execute/aws/eks/EksNestedStack.java:176-178 | null stays null and a string is kept; anything else is a ClassCastException |
| Eks.TenantOf | src/main/java/io/stxkxs/execute/aws/eks/EksNestedStack.java:175-181 | a non-map element is skipped. A map gives the tenant of its "email", "role" and "username" entries (absent ones null), and fails exactly when one of them is not a string |
| Eks.TenantsOf | src/main/java/io/stxkxs/execute/aws/eks/EksNestedStack.java:173-183 | fails exactly when some element fails, with that element's error. On success: one tenant per map element, in order, never more than the list holds |
| Eks.Tenants | src/main/java/io/stxkxs/execute/aws/eks/EksNestedStack.java:170-186 | no tenants when the value is unset or not a list; otherwise the loop computes `TenantsOf` of the list |
| Eks.TenantsBound | src/main/java/io/stxkxs/execute/aws/eks/EksNestedStack.java:174-182 | at most as many tenants as elements; non-map elements give none |
| Eks.EksStack.constructor | src/main/java/io/stxkxs/execute/aws/eks/EksNestedStack.java:54-73 | creates cluster, queue, managed addons, node groups, addons, observability in that order. Declares node groups to queue, addons to managed addons and node groups, observability to all three. Every dependency points backward |
| Eks.DeclaredDependenciesPointBackward | src/main/java/io/stxkxs/execute/aws/eks/EksNestedStack.java:57-72 | each declared dependency names a construct created before its dependent |
| Eks.NoCycle | src/main/java/io/stxkxs/execute/aws/eks/EksNestedStack.java:66-72 | backward-pointing dependencies admit no cycle: along any dependency chain the creation position strictly falls |
| Cognito.ScopeOf | src/main/java/io/stxkxs/execute/aws/cognito/UserPoolClientConstruct.java:108-124 | a found scope's name equals the text ignoring case; fails exactly when no scope name matches, with the InvalidParameterException |
| Cognito.ScopeOfIgnoresCase | src/main/java/io/stxkxs/execute/aws/cognito/UserPoolClientConstruct.java:111-121 | the text selects scope s exactly when it equals s's name ignoring case |
| Cognito.LowerCaseScope | src/main/java/io/stxkxs/execute/aws/cognito/UserPoolClientConstruct.java:111-122 | "email", "phone", "cognito_admin", "profile", "openid" select their scopes |
| Cognito.Scopes | src/main/java/io/stxkxs/execute/aws/cognito/UserPoolClientConstruct.java:64-66 | succeeds exactly when every text is a scope, with as many scopes as texts; one bad text fails the list with the selector's error |
| Cognito.ScopesPointwise | src/main/java/io/stxkxs/execute/aws/cognito/UserPoolClientConstruct.java:64-66 | each text selects the scope at its own position: order is kept |
| Cognito.ScopesOfNames | src/main/java/io/stxkxs/execute/aws/cognito/UserPoolClientConstruct.java:64-66 | the names of a scope list, in any case, map back to that list |
| Cognito.Attributes | src/main/java/io/stxkxs/execute/aws/cognito/UserPoolClientConstruct.java:81-106 | the mask enables exactly the claims the configuration enables, `name` as fullname and `updated_at` as lastUpdateTime; the custom attributes pass through unchanged |
| Cognito.ConfFlagsInjective | src/main/java/io/stxkxs/model/aws/cognito/client/ClientAttributesConf.java:3-6 | configurations that enable the same claims are equal |
| Cognito.MaskFlagsInjective | src/main/java/io/stxkxs/execute/aws/cognito/UserPoolClientConstruct.java:84-104 | masks that enable the same claims are equal |
| Cognito.AttributesUnique | src/main/java/io/stxkxs/execute/aws/cognito/UserPoolClientConstruct.java:81-106 | the mask built is the only one enabling the configuration's claims |
| Grafana.GetContextValue | src/main/java/io/stxkxs/execute/aws/eks/addon/GrafanaBaseConstruct.java:82-88 | a value exactly when the context holds a non-empty string under the key, and then that string |
| Grafana.CreateSecretFromContext | src/main/java/io/stxkxs/execute/aws/eks/addon/GrafanaBaseConstruct.java:43-77 | a secret exactly when all nine settings are usable. Its arguments are, in constructor order, the strings under key, lokiHost, lokiUsername, prometheusHost, prometheusUsername, tempoHost, tempoUsername, instanceId and pyroscopeHost |
| Grafana.MissingSettingSkips | src/main/java/io/stxkxs/execute/aws/eks/addon/GrafanaBaseConstruct.java:55-60 | removing any one setting gives no secret |
| Grafana.EmptySettingSkips | src/main/java/io/stxkxs/execute/aws/eks/addon/GrafanaBaseConstruct.java:84 | an empty string under any setting gives no secret |
| Grafana.OnlySettingsMatter | src/main/java/io/stxkxs/execute/aws/eks/addon/GrafanaBaseConstruct.java:45-53 | contexts agreeing on the nine keys give the same result |
| Grafana.SecretFromSettings | src/main/java/io/stxkxs/execute/aws/eks/addon/GrafanaBaseConstruct.java:62-72 | nine non-empty settings give back exactly those nine strings |
| Pipelines.Insert | src/main/java/io/stxkxs/execute/aws/codebuild/PipelineConstruct.java:35 | the result is a permutation of the list with the one variable added |
| Pipelines.Sort | src/main/java/io/stxkxs/execute/aws/codebuild/PipelineConstruct.java:35 | the sorted list is a permutation of the configured one |
| Pipelines.SortSorted | src/main/java/io/stxkxs/execute/aws/codebuild/PipelineConstruct.java:35 | for a total preorder, the sorted list is ordered |
| Pipelines.Equivalents | src/main/java/io/stxkxs/execute/aws/codebuild/PipelineConstruct.java:35 | the variables picked are variables of the list that compare equal to the given one |
| Pipelines.EquivalentsAppend | src/main/java/io/stxkxs/execute/aws/codebuild/PipelineConstruct.java:35 | appending a variable adds it at the end of its comparison class and leaves other classes unchanged |
| Pipelines.InsertEquivalents | src/main/java/io/stxkxs/execute/aws/codebuild/PipelineConstruct.java:35 | inserting into a sorted list puts the variable last among those that compare equal to it |
| Pipelines.AboveNotEquivalent | src/main/java/io/stxkxs/execute/aws/codebuild/PipelineConstruct.java:35 | a sorted list starting above a variable holds nothing comparing equal to it |
| Pipelines.SortStable | src/main/java/io/stxkxs/execute/aws/codebuild/PipelineConstruct.java:35 | the sort is stable: variables that compare equal keep their configured order |
| Pipelines.KeepFirst | src/main/java/io/stxkxs/execute/aws/codebuild/PipelineConstruct.java:41 | keeps no name already seen, at most one variable per name, never more than given |
| Pipelines.KeepFirstNames | src/main/java/io/stxkxs/execute/aws/codebuild/PipelineConstruct.java:41 | the kept names are exactly the given names not yet seen |
| Pipelines.KeepFirstIsFirst | src/main/java/io/stxkxs/execute/aws/codebuild/PipelineConstruct.java:41 | each kept variable is the first one of its name in the list |
| Pipelines.KeepFirstOrder | src/main/java/io/stxkxs/execute/aws/codebuild/PipelineConstruct.java:35-41 | kept names come in the order of their first occurrence |
| Pipelines.Kept | src/main/java/io/stxkxs/execute/aws/codebuild/PipelineConstruct.java:32-41 | at most as many as configured, each one a configured variable, names distinct |
| Pipelines.PipelineVariables | src/main/java/io/stxkxs/execute/aws/codebuild/PipelineConstruct.java:32-45 | at most as many variables as configured, names distinct, each with the name and default value of a configured variable |
| Pipelines.Build | src/main/java/io/stxkxs/execute/aws/codebuild/PipelineConstruct.java:37-40 | the pipeline variable carries the configured variable's name and default value |
| Pipelines.VariablesCoverNames | src/main/java/io/stxkxs/execute/aws/codebuild/PipelineConstruct.java:32-41 | every configured name appears in the output, and no other |
| Pipelines.VariablesKeepFirst | src/main/java/io/stxkxs/execute/aws/codebuild/PipelineConstruct.java:35-41 | each output variable is built from the first variable of its name in sorted order, and the outputs follow first-occurrence order |
| Pipelines.VariablesSorted | src/main/java/io/stxkxs/execute/aws/codebuild/PipelineConstruct.java:35 | the list the variables come from is ordered by the comparison and is a permutation of the configured list |
| Pipelines.VariablesDistinct | src/main/java/io/stxkxs/execute/aws/codebuild/PipelineConstruct.java:32-41 | with distinct configured names, every variable is kept |
| CodeBuildEnvironment.EnvironmentVariables | src/main/java/io/stxkxs/model/aws/codebuild/Environment.java:22-31 | same key set; every entry PLAINTEXT; a null value is a NullPointerException, and only then does it fail |
| CodeBuildEnvironment.ValuesRoundTrip | src/main/java/io/stxkxs/model/aws/codebuild/Environment.java:26-29 | reading the values back gives the configured map: every value unchanged |
| CodeBuildEnvironment.EmptyEnvironment | src/main/java/io/stxkxs/model/aws/codebuild/Environment.java:22-31 | no variables give no build variables |
| Context.TryGet | src/main/java/io/stxkxs/execute/serialization/Format.java:103 | `tryGetContext`: the value exactly when the key is set, else null |
| Context.Show | src/main/java/io/stxkxs/execute/serialization/Template.java:175-181 | `toString()` of a context value: a string is itself, a list is bracketed by "[" and "]", a map by "{" and "}"; empty ones print as "[]" and "{}" |
| Context.ShowSmall | src/main/java/io/stxkxs/execute/serialization/Template.java:175-181 | a one-element list prints as `[x]`, a one-entry map as `{k=x}`, and a two-element list as `[x, y]` |
| Context.Get | src/main/java/io/stxkxs/execute/serialization/Format.java:107 | `getContext`: the value exactly when the key is set, else an error naming the key |
| Context.Lookup | src/main/java/io/stxkxs/execute/aws/eks/EksNestedStack.java:176-178 | `Map.get`: null exactly when no entry has the key; otherwise the value of an entry under the key |
| Text.Upper | src/main/java/io/stxkxs/model/_main/Environment.java:7 | `toUpperCase` on ASCII: same length, each character upper-cased |
| Text.Lower | src/main/java/io/stxkxs/model/_main/Environment.java:12 | `toLowerCase` on ASCII: same length, each character lower-cased |

## Left out

- SHA-256 and the commons-codec Base32 call of `Common.id` are not modelled as calls. The encoded digest is the input of `Common.Id`; the encoding is modelled from RFC 4648, section 6 in `Base32`.
- `Common.id_()` draws from `SecureRandom`. Its result is the parameter `freshId` of `Template.Defaults`.
- Mustache rendering (`Template.assemble`) is the function parameter `render`. Classpath loading is the map `loader` from path to contents. Closing the stream and debug logging are not modelled.
- Jackson (`Mapper`), every CDK builder body, Secrets Manager lookups and floating-point configuration fields are not modelled. They are external library or network behaviour.
- Case mapping is ASCII only. Java's locale-sensitive `toUpperCase`/`toLowerCase` and `Character.isLetter` on non-ASCII text are not modelled. The Base32 input of `Common.Id` is ASCII.
- Common.HashCode: `String.hashCode` is computed over Dafny characters (Unicode scalar values) rather than UTF-16 code units; the two agree on the ASCII text it is applied to.
- Common.From: a null key is not modelled; Dafny maps have no null key.
- Principals.Translate: the per-member fact "member i + 1 is the translation of nested principal i" is in `Principals.TranslateComposite` rather than in its own contract.
- Principals.TranslateAll: the per-position fact is in `Principals.TranslateAllPointwise` rather than in its own contract.
- A null `composite` list is modelled as the empty list; the source treats both alike. A null principal `type` is not modelled.
- `PrincipalType` is not part of this model. Any type other than the six the translation names is `Other`.
- The `withConditions` call on a composite (Principal.java:146-148) is modelled as having no effect, because its result is discarded and the composite is returned without conditions.
- Cognito.Scopes: the per-position fact is in `Cognito.ScopesPointwise` rather than in its own contract.
- Template.ParseWith: its own contract states only when it can succeed. The merged rendering is in `Template.ParseWithOverrides`, and the null-map case in `Template.ParseWithNull`. A caller map holding a null value fails with `Common.From`'s NullPointerException.
- The `Variable` record of the pipeline configuration is not part of this model. Its natural order (`compareTo`) is the parameter `le`, assumed a total preorder where orderedness or stability is stated; Java's stable `sorted()` is an insertion sort whose stability `Pipelines.SortStable` proves.
- DynamoDb.Create: `TableClass.valueOf`, `RemovalPolicy.valueOf`, contributor insights, deletion protection and point-in-time recovery (DynamoDbConstruct.java:125-129) are not modelled; they are pass-through or library enum parsing.
- DynamoDb.StreamsStep: the Kinesis stream is recorded by its name only. Its builder settings, its `valueOf` parses and its KMS key (DynamoDbConstruct.java:179-190) are CDK pass-through and not modelled.
- The KMS key construct of a customer-managed key is represented by its configuration (`Kms`), not by a created key.
- The EKS constructor's construct bodies (cluster, SQS queue, add-ons, node groups, observability), its template parsing and the aws-auth mapping are CDK pass-through. Only the creation order and declared dependencies are modelled.
- Grafana.CreateSecretFromContext: the `catch` of GrafanaBaseConstruct.java:73-76 is not modelled. No modelled lookup throws.
- The `GrafanaSecret` record shown has seven components while `GrafanaBaseConstruct` passes nine (GrafanaSecret.java:3-11). The model keeps the nine arguments in the order they are passed and does not model the record's constructor.
- Null inputs that are not modelled, each an exception in the source: a null principal `value` (Principal.java:119-128, a required CDK constructor argument), a null index `name` (DynamoDbConstruct.java:144 and :160, the required `indexName`), a null Cognito `customAttributes` list (UserPoolClientConstruct.java:105, `toArray`). A null segment passed to `Format.Id` is not modelled either; `String.join` would print it as "null".
- Format.Describe: the segments are never null in the model. `StringUtils.join` would print a null segment as "".
- A null `variables` map (model/aws/codebuild/Environment.java:23), a null stream view type (DynamoDbConstruct.java:196) and a null EKS `endpointAccess` (EksNestedStack.java:77) are not modelled; each would be a NullPointerException in the source.
- DynamoDb.Create: a null index list, a null non-key attribute list, a null encryption or billing record, and a null tag key are not modelled; each would be a NullPointerException in the source.
- Context.Show: `Object.toString` of a context value is modelled for strings, lists and maps. Numbers and booleans carry the text their `toString` gives.

## Findings

| source | as written | input that shows it | evidently intended | confidence | as-written member | corrected member |
|---|---|---|---|---|---|---|
| src/main/java/io/stxkxs/execute/aws/dynamodb/DynamoDbConstruct.java:229-235 | the fixed-capacity `table.billing(...)` call is nested inside `if (provisioned() != null)`, which the one-hot check excludes when fixed is set, so it never runs | billing with onDemand false, fixed read 5 / write 5, provisioned null: the one-hot check passes and no billing is set | a fixed-only configuration sets provisioned billing with fixed read and write capacity | not executed | DynamoDb.FixedOnlyIgnored, DynamoDb.BillingAsWritten | DynamoDb.BillingFor |

The constructor model (`DynamoDb.Configured`, `DynamoDb.Create`) follows the billing code as written, so a fixed-only table is left without billing there. `DynamoDb.ApplyBilling` is the corrected step, proved to set `DynamoDb.BillingFor`.

=== FILE: base32.dfy ===
/**
 * Base32 encoding as RFC 4648, section 6 defines it (the standard alphabet, `=` padding,
 * no line breaks): the step `Common.id` applies to the SHA-256 digest before it keeps the
 * first 15 characters.
 */
module Base32 {
  import opened Wrappers

  type Byte = x: int | 0 <= x < 256

  /** The 32-character alphabet of RFC 4648, section 6, table 3. */
  const Alphabet: string := "ABCDEFGHIJKLMNOPQRSTUVWXYZ234567"

  const Pad: char := '='

  predicate IsBase32Char(c: char) { 'A' <= c <= 'Z' || '2' <= c <= '7' }

  lemma AlphabetChars(i: nat)
    requires i < 32
    ensures IsBase32Char(Alphabet[i])
  {
  }

  /** The weight of the digit `n` places from the right in a quantum: 32 to the power `n`. */
  function Pow32(n: nat): (r: nat)
    requires n < 8
    ensures r > 0
  {
    [1, 0x20, 0x400, 0x8000, 0x10_0000, 0x200_0000, 0x4000_0000, 0x8_0000_0000][n]
  }

  /**
   * How many characters of a final quantum of `k` bytes carry data; the remaining
   * characters of its 8-character group are padding (RFC 4648, section 6, cases 1-5).
   */
  function DataChars(k: nat): (n: nat)
    requires 1 <= k <= 5
    ensures n <= 8 && (k == 5 <==> n == 8)
  {
    match k
    case 1 => 2
    case 2 => 4
    case 3 => 5
    case 4 => 7
    case 5 => 8
  }

  /** The 40-bit big-endian value of a quantum, missing bytes taken as zero. */
  function QuantumValue(g: seq<Byte>): nat
    requires 1 <= |g| <= 5
  {
    ByteAt(g, 0) * 0x1_0000_0000 + ByteAt(g, 1) * 0x100_0000 + ByteAt(g, 2) * 0x1_0000
      + ByteAt(g, 3) * 0x100 + ByteAt(g, 4)
  }

  function ByteAt(g: seq<Byte>, i: nat): nat
  {
    if i < |g| then g[i] else 0
  }

  /** Digit `j` (0 to 7, most significant first) of a quantum's 40-bit value. */
  function Digit(g: seq<Byte>, j: nat): nat
    requires 1 <= |g| <= 5 && j < 8
  {
    QuantumValue(g) / Pow32(7 - j) % 32
  }

  /** One 8-character output group: 5-bit digits of the quantum, most significant first, then padding. */
  function EncodeQuantum(g: seq<Byte>): (r: string)
    requires 1 <= |g| <= 5
    ensures |r| == 8
    ensures forall j :: 0 <= j < DataChars(|g|) ==> IsBase32Char(r[j])
    ensures forall j :: DataChars(|g|) <= j < 8 ==> r[j] == Pad
  {
    var n := DataChars(|g|);
    var r := seq(8, j requires 0 <= j < 8 => if j < n then Alphabet[Digit(g, j)] else Pad);
    assert forall j :: 0 <= j < n ==> IsBase32Char(r[j]) by {
      forall j | 0 <= j < n ensures IsBase32Char(r[j]) {
        AlphabetChars(Digit(g, j));
      }
    }
    r
  }

  /** `Base32.encodeAsString(bytes)`: one group per 5 input bytes, the last group padded. */
  function Encode(bytes: seq<Byte>): (r: string)
    ensures |r| == 8 * ((|bytes| + 4) / 5)
    decreases |bytes|
  {
    if |bytes| == 0 then ""
    else if |bytes| <= 5 then EncodeQuantum(bytes)
    else
      assert (|bytes| + 4) / 5 == 1 + (|bytes[5..]| + 4) / 5;
      EncodeQuantum(bytes[..5]) + Encode(bytes[5..])
  }

  /**
   * Every character of the encoding is an alphabet character or padding, and all
   * characters of the groups made from complete 5-byte quanta are alphabet characters.
   */
  lemma {:induction false} EncodeChars(bytes: seq<Byte>)
    ensures forall i :: 0 <= i < |Encode(bytes)| ==> IsBase32Char(Encode(bytes)[i]) || Encode(bytes)[i] == Pad
    ensures forall i :: 0 <= i < 8 * (|bytes| / 5) ==> IsBase32Char(Encode(bytes)[i])
    decreases |bytes|
  {
    if |bytes| > 5 {
      EncodeChars(bytes[5..]);
      var head := EncodeQuantum(bytes[..5]);
      var tail := Encode(bytes[5..]);
      assert Encode(bytes) == head + tail;
      assert |bytes| / 5 == 1 + |bytes[5..]| / 5;
      forall i | 0 <= i < |Encode(bytes)|
        ensures IsBase32Char(Encode(bytes)[i]) || Encode(bytes)[i] == Pad
        ensures i < 8 * (|bytes| / 5) ==> IsBase32Char(Encode(bytes)[i])
      {
        if i >= 8 {
          assert Encode(bytes)[i] == tail[i - 8];
        }
      }
    }
  }

  /**
   * A SHA-256 digest (32 bytes) encodes to 56 characters whose first 15 are alphabet
   * characters: the shape `Common.Id` relies on for a full-length, letters-and-digits id.
   */
  lemma DigestEncoding(digest: seq<Byte>)
    requires |digest| == 32
    ensures |Encode(digest)| == 56
    ensures forall i :: 0 <= i < 15 ==> IsBase32Char(Encode(digest)[i])
  {
    EncodeChars(digest);
  }

  /** The quantum of "f" (RFC 4648, section 10). */
  lemma QuantumF()
    ensures EncodeQuantum([0x66]) == "MY======"
  {
    var v := QuantumValue([0x66]);
    assert v == 0x6600000000;
    assert (v / Pow32(7)) % 32 == 12;
    assert (v / Pow32(6)) % 32 == 24;
    var r := EncodeQuantum([0x66]);
    assert r[0] == Alphabet[12] == 'M';
    assert r[1] == Alphabet[24] == 'Y';
  }

  /** The place values of a quantum's eight digits. */
  lemma PowersOf32()
    ensures Pow32(0) == 1 && Pow32(1) == 0x20 && Pow32(2) == 0x400 && Pow32(3) == 0x8000
    ensures Pow32(4) == 0x10_0000 && Pow32(5) == 0x200_0000 && Pow32(6) == 0x4000_0000 && Pow32(7) == 0x8_0000_0000
  {
  }

  /** The digits of the quantum of "fooba", most significant first. */
  lemma FoobaDigits()
    ensures var v := QuantumValue([0x66, 0x6f, 0x6f, 0x62, 0x61]);
      && v / Pow32(7) % 32 == 12 && v / Pow32(6) % 32 == 25 && v / Pow32(5) % 32 == 23
      && v / Pow32(4) % 32 == 22 && v / Pow32(3) % 32 == 30 && v / Pow32(2) % 32 == 24
      && v / Pow32(1) % 32 == 19 && v / Pow32(0) % 32 == 1
  {
    var v := QuantumValue([0x66, 0x6f, 0x6f, 0x62, 0x61]);
    assert v == 0x666f6f6261;
    PowersOf32();
    assert 0x666f6f6261 / 0x8_0000_0000 % 32 == 12;
    assert 0x666f6f6261 / 0x4000_0000 % 32 == 25;
    assert 0x666f6f6261 / 0x200_0000 % 32 == 23;
    assert 0x666f6f6261 / 0x10_0000 % 32 == 22;
    assert 0x666f6f6261 / 0x8000 % 32 == 30;
    assert 0x666f6f6261 / 0x400 % 32 == 24;
    assert 0x666f6f6261 / 0x20 % 32 == 19;
    assert 0x666f6f6261 / 1 % 32 == 1;
  }

  /** A complete quantum is the alphabet characters of its eight digits. */
  lemma FullQuantum(g: seq<Byte>, d0: nat, d1: nat, d2: nat, d3: nat, d4: nat, d5: nat, d6: nat, d7: nat)
    requires |g| == 5
    requires var v := QuantumValue(g);
      && v / Pow32(7) % 32 == d0 && v / Pow32(6) % 32 == d1 && v / Pow32(5) % 32 == d2
      && v / Pow32(4) % 32 == d3 && v / Pow32(3) % 32 == d4 && v / Pow32(2) % 32 == d5
      && v / Pow32(1) % 32 == d6 && v / Pow32(0) % 32 == d7
    ensures d0 < 32 && d1 < 32 && d2 < 32 && d3 < 32 && d4 < 32 && d5 < 32 && d6 < 32 && d7 < 32
    ensures EncodeQuantum(g) == [Alphabet[d0], Alphabet[d1], Alphabet[d2], Alphabet[d3],
                                 Alphabet[d4], Alphabet[d5], Alphabet[d6], Alphabet[d7]]
  {
  }

  /** The quantum of "fooba" (RFC 4648, section 10). */
  lemma QuantumFooba()
    ensures EncodeQuantum([0x66, 0x6f, 0x6f, 0x62, 0x61]) == "MZXW6YTB"
  {
    FoobaDigits();
    FullQuantum([0x66, 0x6f, 0x6f, 0x62, 0x61], 12, 25, 23, 22, 30, 24, 19, 1);
    assert [Alphabet[12], Alphabet[25], Alphabet[23], Alphabet[22], Alphabet[30], Alphabet[24], Alphabet[19], Alphabet[1]]
      == "MZXW6YTB";
  }

  /** The final quantum of "foobar" (RFC 4648, section 10). */
  lemma QuantumR()
    ensures EncodeQuantum([0x72]) == "OI======"
  {
    var v := QuantumValue([0x72]);
    assert v == 0x7200000000;
    assert (v / Pow32(7)) % 32 == 14;
    assert (v / Pow32(6)) % 32 == 8;
    var r := EncodeQuantum([0x72]);
    assert r[0] == Alphabet[14] == 'O';
    assert r[1] == Alphabet[8] == 'I';
  }

  /** Test vectors of RFC 4648, section 10: "f" and "fooba", one quantum each. */
  lemma TestVectorsOneQuantum()
    ensures Encode([0x66]) == "MY======"
    ensures Encode([0x66, 0x6f, 0x6f, 0x62, 0x61]) == "MZXW6YTB"
  {
    QuantumF();
    QuantumFooba();
  }

  /** Test vector of RFC 4648, section 10: "foobar", a full quantum and a padded one. */
  lemma TestVectorTwoQuanta()
    ensures Encode([0x66, 0x6f, 0x6f, 0x62, 0x61, 0x72]) == "MZXW6YTBOI======"
  {
    var b: seq<Byte> := [0x66, 0x6f, 0x6f, 0x62, 0x61, 0x72];
    assert b[..5] == [0x66, 0x6f, 0x6f, 0x62, 0x61] && b[5..] == [0x72];
    assert Encode(b) == EncodeQuantum(b[..5]) + Encode(b[5..]);
    assert Encode(b[5..]) == EncodeQuantum([0x72]);
    QuantumFooba();
    QuantumR();
    assert "MZXW6YTB" + "OI======" == "MZXW6YTBOI======";
  }

  // ---------------------------------------------------------------------------
  // Decoding, the inverse the encoding is checked against
  // ---------------------------------------------------------------------------

  lemma DivModUnique(v: int, a: int, q: int, r: int)
    requires a > 0 && v == q * a + r && 0 <= r < a
    ensures v / a == q && v % a == r
  {
    var q', r' := v / a, v % a;
    assert (q - q') * a == r' - r;
    if q > q' {
      MulAtLeast(q - q', a);
    } else if q < q' {
      MulAtLeast(q' - q, a);
    }
  }

  lemma {:induction false} MulAtLeast(x: int, a: int)
    requires x >= 1 && a > 0
    ensures x * a >= a
  {
    if x > 1 {
      MulAtLeast(x - 1, a);
      assert x * a == (x - 1) * a + a;
    }
  }

  /** The digits of a quantum in terms of its bytes: the bit slices RFC 4648, section 6 draws. */
  lemma Digits01(g: seq<Byte>)
    requires 1 <= |g| <= 5
    ensures Digit(g, 0) == ByteAt(g, 0) / 8
    ensures Digit(g, 1) == ByteAt(g, 0) % 8 * 4 + ByteAt(g, 1) / 64
  {
    var b0, b1, b2, b3, b4 := ByteAt(g, 0), ByteAt(g, 1), ByteAt(g, 2), ByteAt(g, 3), ByteAt(g, 4);
    var v := QuantumValue(g);
    var low := b2 * 0x1_0000 + b3 * 0x100 + b4;
    assert low < 0x100_0000;
    DivModUnique(v, 0x8_0000_0000, b0 / 8, b0 % 8 * 0x1_0000_0000 + b1 * 0x100_0000 + low);
    DivModUnique(b0 / 8, 32, 0, b0 / 8);
    DivModUnique(v, 0x4000_0000, b0 * 4 + b1 / 64, b1 % 64 * 0x100_0000 + low);
    DivModUnique(b0 * 4 + b1 / 64, 32, b0 / 8, b0 % 8 * 4 + b1 / 64);
  }

  lemma Digits23(g: seq<Byte>)
    requires 1 <= |g| <= 5
    ensures Digit(g, 2) == ByteAt(g, 1) / 2 % 32
    ensures Digit(g, 3) == ByteAt(g, 1) % 2 * 16 + ByteAt(g, 2) / 16
  {
    var b0, b1, b2, b3, b4 := ByteAt(g, 0), ByteAt(g, 1), ByteAt(g, 2), ByteAt(g, 3), ByteAt(g, 4);
    var v := QuantumValue(g);
    var low := b2 * 0x1_0000 + b3 * 0x100 + b4;
    DivModUnique(v, 0x200_0000, b0 * 128 + b1 / 2, b1 % 2 * 0x100_0000 + low);
    DivModUnique(b0 * 128 + b1 / 2, 32, b0 * 4 + b1 / 2 / 32, b1 / 2 % 32);
    DivModUnique(v, 0x10_0000, b0 * 0x1000 + b1 * 16 + b2 / 16, b2 % 16 * 0x1_0000 + b3 * 0x100 + b4);
    DivModUnique(b0 * 0x1000 + b1 * 16 + b2 / 16, 32, b0 * 128 + b1 / 2, b1 % 2 * 16 + b2 / 16);
  }

  lemma Digits45(g: seq<Byte>)
    requires 1 <= |g| <= 5
    ensures Digit(g, 4) == ByteAt(g, 2) % 16 * 2 + ByteAt(g, 3) / 128
    ensures Digit(g, 5) == ByteAt(g, 3) / 4 % 32
  {
    var b0, b1, b2, b3, b4 := ByteAt(g, 0), ByteAt(g, 1), ByteAt(g, 2), ByteAt(g, 3), ByteAt(g, 4);
    var v := QuantumValue(g);
    DivModUnique(v, 0x8000, b0 * 0x2_0000 + b1 * 0x200 + b2 * 2 + b3 / 128, b3 % 128 * 0x100 + b4);
    DivModUnique(b0 * 0x2_0000 + b1 * 0x200 + b2 * 2 + b3 / 128, 32, b0 * 0x1000 + b1 * 16 + b2 / 16, b2 % 16 * 2 + b3 / 128);
    DivModUnique(v, 0x400, b0 * 0x40_0000 + b1 * 0x4000 + b2 * 0x40 + b3 / 4, b3 % 4 * 0x100 + b4);
    DivModUnique(b0 * 0x40_0000 + b1 * 0x4000 + b2 * 0x40 + b3 / 4, 32,
                 b0 * 0x2_0000 + b1 * 0x200 + b2 * 2 + b3 / 4 / 32, b3 / 4 % 32);
  }

  lemma Digits67(g: seq<Byte>)
    requires 1 <= |g| <= 5
    ensures Digit(g, 6) == ByteAt(g, 3) % 4 * 8 + ByteAt(g, 4) / 32
    ensures Digit(g, 7) == ByteAt(g, 4) % 32
  {
    var b0, b1, b2, b3, b4 := ByteAt(g, 0), ByteAt(g, 1), ByteAt(g, 2), ByteAt(g, 3), ByteAt(g, 4);
    var v := QuantumValue(g);
    var q6 := b0 * 0x800_0000 + b1 * 0x8_0000 + b2 * 0x800 + b3 * 8 + b4 / 32;
    DivModUnique(v, 0x20, q6, b4 % 32);
    DivModUnique(q6, 32, b0 * 0x40_0000 + b1 * 0x4000 + b2 * 0x40 + b3 / 4, b3 % 4 * 8 + b4 / 32);
    DivModUnique(v, 1, v, 0);
    DivModUnique(v, 32, q6, b4 % 32);
  }

  /** The alphabet, character by character: the letters, then the digits 2 to 7. */
  lemma AlphabetAt(d: nat)
    requires d < 32
    ensures Alphabet[d] == if d < 26 then ('A' as int + d) as char else ('2' as int + d - 26) as char
  {
  }

  /** The value of one alphabet character, the inverse of indexing the alphabet. */
  function CharValue(c: char): (d: nat)
    requires IsBase32Char(c)
    ensures d < 32
  {
    if 'A' <= c <= 'Z' then c as int - 'A' as int else c as int - '2' as int + 26
  }

  /** How many leading characters of a group are alphabet characters. */
  function DataLength(q: string): (n: nat)
    ensures n <= |q|
    ensures forall j :: 0 <= j < n ==> IsBase32Char(q[j])
    ensures n < |q| ==> !IsBase32Char(q[n])
  {
    if q == [] || !IsBase32Char(q[0]) then 0 else 1 + DataLength(q[1..])
  }

  /** The number of bytes a group with `n` data characters carries; 0 for a count no quantum gives. */
  function BytesOf(n: nat): nat
  {
    match n
    case 2 => 1
    case 4 => 2
    case 5 => 3
    case 7 => 4
    case 8 => 5
    case _ => 0
  }

  function DigitAt(q: string, n: nat, j: nat): (d: nat)
    requires n <= |q| && forall i :: 0 <= i < n ==> IsBase32Char(q[i])
    ensures d < 32
  {
    if j < n then CharValue(q[j]) else 0
  }

  /** The five bytes whose 40 bits are the eight 5-bit digits, most significant first. */
  function Combine(d: seq<nat>): (r: seq<Byte>)
    requires |d| == 8 && forall j :: 0 <= j < 8 ==> d[j] < 32
    ensures |r| == 5
  {
    [d[0] * 8 + d[1] / 4,
     d[1] % 4 * 64 + d[2] * 2 + d[3] / 16,
     d[3] % 16 * 16 + d[4] / 2,
     d[4] % 2 * 128 + d[5] * 4 + d[6] / 8,
     d[6] % 8 * 32 + d[7]]
  }

  /**
   * One 8-character group back to its bytes: the data characters must be followed by
   * padding only, and their count must be one a quantum of 1 to 5 bytes gives.
   */
  function DecodeQuantum(q: string): (r: Option<seq<Byte>>)
    requires |q| == 8
    ensures r.Some? ==> 1 <= |r.value| <= 5
  {
    var n := DataLength(q);
    var k := BytesOf(n);
    if k == 0 || !PaddedFrom(q, n) then None
    else Some(Combine(GroupDigits(q, n))[..k])
  }

  /** Everything from position `n` on is padding. */
  predicate PaddedFrom(q: string, n: nat)
  {
    forall j :: n <= j < |q| ==> q[j] == Pad
  }

  /** The eight digits of a group with `n` data characters, padding read as zero. */
  function GroupDigits(q: string, n: nat): (d: seq<nat>)
    requires |q| == 8 && n <= 8 && forall i :: 0 <= i < n ==> IsBase32Char(q[i])
    ensures |d| == 8 && forall j :: 0 <= j < 8 ==> d[j] < 32
  {
    seq(8, j requires 0 <= j < 8 => DigitAt(q, n, j))
  }

  function Digits(g: seq<Byte>): (d: seq<nat>)
    requires 1 <= |g| <= 5
    ensures |d| == 8 && forall j :: 0 <= j < 8 ==> d[j] == Digit(g, j) && d[j] < 32
  {
    seq(8, j requires 0 <= j < 8 => Digit(g, j))
  }

  /** Bytes split into 5-bit digits, most significant first, recombine to the same bytes. */
  lemma CombineSplit(b0: nat, b1: nat, b2: nat, b3: nat, b4: nat, d: seq<nat>)
    requires b0 < 256 && b1 < 256 && b2 < 256 && b3 < 256 && b4 < 256
    requires |d| == 8
    requires d[0] == b0 / 8 && d[1] == b0 % 8 * 4 + b1 / 64 && d[2] == b1 / 2 % 32
    requires d[3] == b1 % 2 * 16 + b2 / 16 && d[4] == b2 % 16 * 2 + b3 / 128 && d[5] == b3 / 4 % 32
    requires d[6] == b3 % 4 * 8 + b4 / 32 && d[7] == b4 % 32
    ensures forall j :: 0 <= j < 8 ==> d[j] < 32
    ensures Combine(d) == [b0, b1, b2, b3, b4]
  {
    DivModUnique(d[1], 4, b0 % 8, b1 / 64);
    DivModUnique(d[3], 16, b1 % 2, b2 / 16);
    DivModUnique(d[4], 2, b2 % 16, b3 / 128);
    DivModUnique(d[6], 8, b3 % 4, b4 / 32);
    DivModUnique(b1 / 2, 32, b1 / 64, b1 / 2 % 32);
    DivModUnique(b3 / 4, 32, b3 / 128, b3 / 4 % 32);
  }

  /** Recombining the digits of a quantum gives its bytes back, missing bytes as zero. */
  lemma CombineDigits(g: seq<Byte>)
    requires 1 <= |g| <= 5
    ensures Combine(Digits(g)) == [ByteAt(g, 0), ByteAt(g, 1), ByteAt(g, 2), ByteAt(g, 3), ByteAt(g, 4)]
  {
    Digits01(g);
    Digits23(g);
    Digits45(g);
    Digits67(g);
    CombineSplit(ByteAt(g, 0), ByteAt(g, 1), ByteAt(g, 2), ByteAt(g, 3), ByteAt(g, 4), Digits(g));
  }

  /** The digits a quantum's padding stands for are zero. */
  lemma PaddedDigitsZero(g: seq<Byte>)
    requires 1 <= |g| <= 5
    ensures forall j :: DataChars(|g|) <= j < 8 ==> Digit(g, j) == 0
  {
    var b1, b2, b3, b4 := ByteAt(g, 1), ByteAt(g, 2), ByteAt(g, 3), ByteAt(g, 4);
    Digits23(g);
    Digits45(g);
    Digits67(g);
    assert |g| <= 1 ==> b1 == 0 && b2 == 0;
    assert |g| <= 3 ==> b3 == 0;
    assert |g| <= 4 ==> b4 == 0;
    assert |g| <= 1 ==> Digit(g, 2) == 0 && Digit(g, 3) == 0;
    assert |g| <= 2 ==> Digit(g, 4) == 0;
    assert |g| <= 3 ==> Digit(g, 5) == 0 && Digit(g, 6) == 0;
    assert |g| <= 4 ==> Digit(g, 7) == 0;
  }

  /** The data characters of an encoded quantum are its digits; the rest is padding. */
  lemma EncodedGroup(g: seq<Byte>)
    requires 1 <= |g| <= 5
    ensures var q, n := EncodeQuantum(g), DataChars(|g|);
      && DataLength(q) == n
      && (forall j :: n <= j < 8 ==> q[j] == Pad)
      && (forall j :: 0 <= j < n ==> IsBase32Char(q[j]) && CharValue(q[j]) == Digit(g, j))
  {
    var q, n := EncodeQuantum(g), DataChars(|g|);
    forall j | 0 <= j < n ensures IsBase32Char(q[j]) && CharValue(q[j]) == Digit(g, j) {
      AlphabetAt(Digit(g, j));
    }
    DataLengthIs(q, n);
  }

  /** An encoded quantum decodes to the bytes it was made from. */
  lemma DecodeEncodeQuantum(g: seq<Byte>)
    requires 1 <= |g| <= 5
    ensures DecodeQuantum(EncodeQuantum(g)) == Some(g)
  {
    var q, n := EncodeQuantum(g), DataChars(|g|);
    EncodedGroup(g);
    assert PaddedFrom(q, n);
    assert BytesOf(n) == |g|;
    EncodedDigits(g);
    CombineDigits(g);
    QuantumBytes(g);
  }

  /** The bytes of a quantum, padded with zeros to five, cut back to its length. */
  lemma QuantumBytes(g: seq<Byte>)
    requires 1 <= |g| <= 5
    ensures [ByteAt(g, 0), ByteAt(g, 1), ByteAt(g, 2), ByteAt(g, 3), ByteAt(g, 4)][..|g|] == g
  {
  }

  /** Reading back the digits of an encoded quantum gives the quantum's digits. */
  lemma EncodedDigits(g: seq<Byte>)
    requires 1 <= |g| <= 5
    ensures GroupDigits(EncodeQuantum(g), DataChars(|g|)) == Digits(g)
  {
    var q, n := EncodeQuantum(g), DataChars(|g|);
    EncodedGroup(g);
    PaddedDigitsZero(g);
    var d := GroupDigits(q, n);
    assert forall j :: 0 <= j < 8 ==> d[j] == Digit(g, j);
  }

  lemma {:induction false} DataLengthIs(q: string, n: nat)
    requires n <= |q| && forall j :: 0 <= j < n ==> IsBase32Char(q[j])
    requires n < |q| ==> !IsBase32Char(q[n])
    ensures DataLength(q) == n
  {
    if n > 0 {
      DataLengthIs(q[1..], n - 1);
    }
  }

  /**
   * Decoding: the groups of 8 characters back to bytes, in order. Only the last group may
   * carry fewer than 5 bytes; any other shape is rejected.
   */
  function Decode(s: string): Option<seq<Byte>>
    decreases |s|
  {
    if s == [] then Some([])
    else if |s| < 8 then None
    else
      match DecodeQuantum(s[..8])
      case None => None
      case Some(head) =>
        if |s| > 8 && |head| < 5 then None
        else
          match Decode(s[8..])
          case None => None
          case Some(tail) =>
            Some(head + tail)
  }

  /** Only texts made of whole 8-character groups decode. */
  lemma {:induction false} DecodeWholeGroups(s: string)
    ensures Decode(s).Some? ==> |s| % 8 == 0
    decreases |s|
  {
    if |s| >= 8 && Decode(s).Some? {
      DecodeWholeGroups(s[8..]);
      assert |s| == |s[8..]| + 8;
    }
  }

  /** One group decoded, followed by the decoding of the rest. */
  lemma DecodeGroup(s: string, head: seq<Byte>, tail: seq<Byte>)
    requires |s| >= 8 && DecodeQuantum(s[..8]) == Some(head)
    requires |s| == 8 || |head| == 5
    requires Decode(s[8..]) == Some(tail)
    ensures Decode(s) == Some(head + tail)
  {
  }

  /** Decoding inverts encoding: every byte string comes back from its Base32 text. */
  lemma {:induction false} DecodeEncode(bytes: seq<Byte>)
    ensures Decode(Encode(bytes)) == Some(bytes)
    decreases |bytes|
  {
    var s := Encode(bytes);
    if 0 < |bytes| <= 5 {
      DecodeEncodeQuantum(bytes);
      assert s[..8] == s && s[8..] == [];
      DecodeGroup(s, bytes, []);
      assert bytes + [] == bytes;
    } else if |bytes| > 5 {
      DecodeEncodeQuantum(bytes[..5]);
      DecodeEncode(bytes[5..]);
      assert s[..8] == EncodeQuantum(bytes[..5]);
      assert s[8..] == Encode(bytes[5..]);
      DecodeGroup(s, bytes[..5], bytes[5..]);
      assert bytes[..5] + bytes[5..] == bytes;
    }
  }
}

=== FILE: buildstep.dfy ===
/** The `BuildStep` enum (BuildStep.java): the CodeBuild pipeline steps and their display values. */
module BuildSteps {
  import Text

  datatype BuildStep = BUILD | ASSETS | DEPLOY

  /** `Enum.toString()`: the constant's declared name. */
  function Name(s: BuildStep): string
  {
    match s
    case BUILD => "BUILD"
    case ASSETS => "ASSETS"
    case DEPLOY => "DEPLOY"
  }

  /**
   * `WordUtils.capitalizeFully` on a single word: the first character upper case, the rest
   * lower case. The step names hold no whitespace, so they are single words.
   */
  function CapitalizeFully(word: string): (r: string)
    ensures |r| == |word|
    ensures word != [] ==> r[0] == Text.UpperChar(word[0])
    ensures forall i :: 1 <= i < |r| ==> r[i] == Text.LowerChar(word[i])
    ensures Text.EqualsIgnoreCase(r, word)
  {
    var lower := Text.Lower(word);
    if word == [] then []
    else
      var r := [Text.UpperChar(lower[0])] + lower[1..];
      assert r[0] == Text.UpperChar(word[0]) by {
        CaseChars(word[0]);
      }
      assert forall i :: 1 <= i < |r| ==> r[i] == Text.LowerChar(word[i]);
      assert Text.Upper(r) == Text.Upper(word) by {
        forall i | 0 <= i < |r| ensures Text.UpperChar(r[i]) == Text.UpperChar(word[i]) {
          CaseChars(word[i]);
        }
      }
      r
  }

  /** Upper-casing ignores an earlier lower- or upper-casing of the same character. */
  lemma CaseChars(c: char)
    ensures Text.UpperChar(Text.LowerChar(c)) == Text.UpperChar(c)
    ensures Text.UpperChar(Text.UpperChar(c)) == Text.UpperChar(c)
  {
  }

  /** `value()`: the lower-case name for BUILD, the capitalized name for the others. */
  function Value(s: BuildStep): (r: string)
    ensures Text.EqualsIgnoreCase(r, Name(s))
  {
    if s == BUILD then
      Text.UpperOfLower(Name(BUILD));
      Text.Lower(Name(BUILD))
    else CapitalizeFully(Name(s))
  }

  /** The values the pipeline stages are named with. */
  lemma Values()
    ensures Value(BUILD) == "build"
    ensures Value(ASSETS) == "Assets"
    ensures Value(DEPLOY) == "Deploy"
  {
    assert Text.Lower("BUILD") == "build";
    assert Text.Lower("ASSETS") == "assets";
    assert Text.Lower("DEPLOY") == "deploy";
  }

  /** Distinct steps have distinct values, so no two stages share a name. */
  lemma ValueInjective(a: BuildStep, b: BuildStep)
    requires Value(a) == Value(b)
    ensures a == b
  {
    Values();
    assert Value(a)[0] == Value(b)[0];
  }
}

=== FILE: codebuild_environment.dfy ===
/**
 * The CodeBuild `Environment` record (model/aws/codebuild/Environment.java): its
 * configured variables turned into the build environment variables of a CodeBuild project.
 */
module CodeBuildEnvironment {
  import opened Wrappers

  /** CDK `BuildEnvironmentVariableType`. */
  datatype VariableType = PLAINTEXT | PARAMETER_STORE | SECRETS_MANAGER

  /** CDK `BuildEnvironmentVariable`: a type and a value. */
  datatype BuildEnvironmentVariable = BuildEnvironmentVariable(kind: VariableType, value: string)

  /**
   * `environmentVariables()`: every configured variable becomes a plain-text build variable
   * under the same name with the same value. The CDK builder requires a value, so a null
   * value fails the whole map with a NullPointerException.
   */
  function EnvironmentVariables(variables: map<string, Option<string>>): (r: Result<map<string, BuildEnvironmentVariable>>)
    ensures r.Ok? <==> forall k :: k in variables ==> variables[k].Some?
    ensures r.Err? ==> r.error == NullPointer
    ensures r.Ok? ==> r.value.Keys == variables.Keys
    ensures r.Ok? ==> forall k :: k in r.value ==> r.value[k].kind == PLAINTEXT
  {
    if exists k :: k in variables && variables[k].None? then Err(NullPointer)
    else Ok(map k | k in variables :: BuildEnvironmentVariable(PLAINTEXT, variables[k].value))
  }

  /** The configured values, read back from the build variables. */
  function Values(env: map<string, BuildEnvironmentVariable>): (r: map<string, Option<string>>)
    ensures r.Keys == env.Keys
  {
    map k | k in env :: Some(env[k].value)
  }

  /** Reading the values back gives the configured map: no value is changed, added or lost. */
  lemma ValuesRoundTrip(variables: map<string, Option<string>>)
    requires EnvironmentVariables(variables).Ok?
    ensures Values(EnvironmentVariables(variables).value) == variables
  {
    var env := EnvironmentVariables(variables).value;
    assert forall k :: k in variables ==> Values(env)[k] == variables[k];
  }

  /** No variables give no build variables. */
  lemma EmptyEnvironment()
    ensures EnvironmentVariables(map[]) == Ok(map[])
  {
  }
}

=== FILE: cognito.dfy ===
/**
 * `UserPoolClientConstruct` (UserPoolClientConstruct.java): the OAuth scope selector, the
 * mapping of the configured scope list, and the translation of the read/write attribute
 * flags into the CDK standard-attribute mask.
 */
module Cognito {
  import opened Wrappers
  import Text

  // ---------------------------------------------------------------------------
  // scope(scope) and the scope list
  // ---------------------------------------------------------------------------

  /** CDK `OAuthScope`, restricted to the five scopes the selector produces. */
  datatype OAuthScope = EMAIL | PHONE | COGNITO_ADMIN | PROFILE | OPENID

  const ScopeError := InvalidParameter("error deciding oauth scope type for user pool client")

  /** The name of the selector's local enum constant for each scope. */
  function ScopeName(s: OAuthScope): string
  {
    match s
    case EMAIL => "EMAIL"
    case PHONE => "PHONE"
    case COGNITO_ADMIN => "COGNITO_ADMIN"
    case PROFILE => "PROFILE"
    case OPENID => "OPENID"
  }

  /**
   * `scope(scope)`: the scope whose name equals the text ignoring case, tried in the order
   * email, phone, cognito_admin, profile, openid; any other text is rejected.
   */
  function ScopeOf(text: string): (r: Result<OAuthScope>)
    ensures r.Ok? ==> Text.EqualsIgnoreCase(text, ScopeName(r.value))
    ensures r.Err? ==> r.error == ScopeError
    ensures r.Err? <==> forall s: OAuthScope :: !Text.EqualsIgnoreCase(text, ScopeName(s))
  {
    if Text.EqualsIgnoreCase(text, "EMAIL") then Ok(EMAIL)
    else if Text.EqualsIgnoreCase(text, "PHONE") then Ok(PHONE)
    else if Text.EqualsIgnoreCase(text, "COGNITO_ADMIN") then Ok(COGNITO_ADMIN)
    else if Text.EqualsIgnoreCase(text, "PROFILE") then Ok(PROFILE)
    else if Text.EqualsIgnoreCase(text, "OPENID") then Ok(OPENID)
    else Err(ScopeError)
  }

  /** The scope names are upper case and pairwise distinct. */
  lemma ScopeNamesUpperAndDistinct()
    ensures forall s: OAuthScope :: Text.Upper(ScopeName(s)) == ScopeName(s)
    ensures forall s, t: OAuthScope :: ScopeName(s) == ScopeName(t) ==> s == t
  {
    forall s: OAuthScope ensures Text.Upper(ScopeName(s)) == ScopeName(s) {
      Text.UpperUnchanged(ScopeName(s));
    }
    forall s, t: OAuthScope | ScopeName(s) == ScopeName(t) ensures s == t {
      assert ScopeName(s)[|ScopeName(s)| - 1] == ScopeName(t)[|ScopeName(t)| - 1];
      assert |ScopeName(s)| == |ScopeName(t)|;
    }
  }

  /** The selector picks a scope exactly when the text is that scope's name in some letter case. */
  lemma ScopeOfIgnoresCase(text: string, s: OAuthScope)
    ensures ScopeOf(text) == Ok(s) <==> Text.EqualsIgnoreCase(text, ScopeName(s))
  {
    ScopeNamesUpperAndDistinct();
    var r := ScopeOf(text);
    if r.Ok? && Text.EqualsIgnoreCase(text, ScopeName(s)) {
      assert Text.Upper(ScopeName(r.value)) == Text.Upper(ScopeName(s));
    }
  }

  /** The lower-case names used in configuration files ("email", "cognito_admin", ...) select their scopes. */
  lemma LowerCaseScope(s: OAuthScope)
    ensures ScopeOf(Text.Lower(ScopeName(s))) == Ok(s)
  {
    Text.UpperOfLower(ScopeName(s));
    ScopeOfIgnoresCase(Text.Lower(ScopeName(s)), s);
  }

  /**
   * `scopes().stream().map(scope).toList()`: one scope per text, in order; the first text
   * the selector rejects fails the whole list.
   */
  function Scopes(texts: seq<string>): (r: Result<seq<OAuthScope>>)
    ensures r.Ok? <==> forall i :: 0 <= i < |texts| ==> ScopeOf(texts[i]).Ok?
    ensures r.Ok? ==> |r.value| == |texts|
    ensures r.Err? ==> r.error == ScopeError
  {
    if texts == [] then Ok([])
    else
      var head :- ScopeOf(texts[0]);
      var tail :- Scopes(texts[1..]);
      assert forall i :: 1 <= i < |texts| ==> texts[i] == texts[1..][i - 1];
      Ok([head] + tail)
  }

  /** Each text of the list selects, on its own, the scope at its position. */
  lemma {:induction false} ScopesPointwise(texts: seq<string>, i: nat)
    requires Scopes(texts).Ok? && i < |texts|
    ensures ScopeOf(texts[i]) == Ok(Scopes(texts).value[i])
    decreases i
  {
    ScopesCons(texts);
    if i > 0 {
      ScopesPointwise(texts[1..], i - 1);
    }
  }

  /** A mapped list is the scope of its head followed by the scopes of its tail. */
  lemma ScopesCons(texts: seq<string>)
    requires Scopes(texts).Ok? && texts != []
    ensures ScopeOf(texts[0]).Ok? && Scopes(texts[1..]).Ok?
    ensures Scopes(texts).value == [ScopeOf(texts[0]).value] + Scopes(texts[1..]).value
  {
  }

  /** The names of a list of scopes, in any letter case, map back to that list. */
  lemma {:induction false} ScopesOfNames(scopes: seq<OAuthScope>, texts: seq<string>)
    requires |texts| == |scopes|
    requires forall i :: 0 <= i < |scopes| ==> Text.EqualsIgnoreCase(texts[i], ScopeName(scopes[i]))
    ensures Scopes(texts) == Ok(scopes)
  {
    if scopes != [] {
      ScopeOfIgnoresCase(texts[0], scopes[0]);
      ScopesOfNames(scopes[1..], texts[1..]);
      assert [scopes[0]] + scopes[1..] == scopes;
    }
  }

  // ---------------------------------------------------------------------------
  // attributes(conf, customAttributes)
  // ---------------------------------------------------------------------------

  /** `ClientAttributesConf`: one flag per OpenID Connect standard claim. */
  datatype ClientAttributesConf = ClientAttributesConf(
    address: bool, birthdate: bool, email: bool, emailVerified: bool, familyName: bool,
    name: bool, gender: bool, givenName: bool, updatedAt: bool, locale: bool, middleName: bool,
    nickname: bool, phoneNumber: bool, phoneNumberVerified: bool, preferredUsername: bool,
    profilePage: bool, profilePicture: bool, timezone: bool, website: bool)

  /** CDK `StandardAttributesMask`, whose field names differ for two of the claims. */
  datatype StandardAttributesMask = StandardAttributesMask(
    address: bool, birthdate: bool, email: bool, emailVerified: bool, familyName: bool,
    fullname: bool, gender: bool, givenName: bool, lastUpdateTime: bool, locale: bool, middleName: bool,
    nickname: bool, phoneNumber: bool, phoneNumberVerified: bool, preferredUsername: bool,
    profilePage: bool, profilePicture: bool, timezone: bool, website: bool)

  /** CDK `ClientAttributes`: the standard-attribute mask and the custom attribute names. */
  datatype ClientAttributes = ClientAttributes(standard: StandardAttributesMask, custom: seq<string>)

  /**
   * The OpenID Connect standard claims, in the order of the configuration's flags, each with
   * the claim name the flag at that position stands for.
   */
  const StandardClaims: seq<string> := [
    "address", "birthdate", "email", "email_verified", "family_name", "name", "gender",
    "given_name", "updated_at", "locale", "middle_name", "nickname", "phone_number",
    "phone_number_verified", "preferred_username", "profile", "picture", "zoneinfo", "website"]

  /** The flags of a configuration, in declaration order. */
  function ConfFlags(c: ClientAttributesConf): (r: seq<bool>)
    ensures |r| == |StandardClaims|
  {
    [c.address, c.birthdate, c.email, c.emailVerified, c.familyName, c.name, c.gender,
     c.givenName, c.updatedAt, c.locale, c.middleName, c.nickname, c.phoneNumber,
     c.phoneNumberVerified, c.preferredUsername, c.profilePage, c.profilePicture, c.timezone, c.website]
  }

  /**
   * The flags of a CDK mask, listed by the claim each controls: `fullname` is the "name"
   * claim and `lastUpdateTime` the "updated_at" claim.
   */
  function MaskFlags(m: StandardAttributesMask): (r: seq<bool>)
    ensures |r| == |StandardClaims|
  {
    [m.address, m.birthdate, m.email, m.emailVerified, m.familyName, m.fullname, m.gender,
     m.givenName, m.lastUpdateTime, m.locale, m.middleName, m.nickname, m.phoneNumber,
     m.phoneNumberVerified, m.preferredUsername, m.profilePage, m.profilePicture, m.timezone, m.website]
  }

  /**
   * `attributes(conf, customAttributes)`: every flag is copied into the mask, `name` into
   * `fullname` and `updated_at` into `lastUpdateTime`, so the mask enables exactly the claims
   * the configuration enables; the custom attribute names are passed through unchanged.
   */
  function Attributes(c: ClientAttributesConf, customAttributes: seq<string>): (r: ClientAttributes)
    ensures MaskFlags(r.standard) == ConfFlags(c)
    ensures r.custom == customAttributes
  {
    ClientAttributes(
      StandardAttributesMask(
        c.address, c.birthdate, c.email, c.emailVerified, c.familyName,
        c.name, c.gender, c.givenName, c.updatedAt, c.locale, c.middleName,
        c.nickname, c.phoneNumber, c.phoneNumberVerified, c.preferredUsername,
        c.profilePage, c.profilePicture, c.timezone, c.website),
      customAttributes)
  }

  /**
   * The mapping loses nothing: configurations that enable the same claims are the same
   * configuration, so every flag reaches the mask under the claim it stands for.
   */
  lemma ConfFlagsInjective(c1: ClientAttributesConf, c2: ClientAttributesConf)
    requires ConfFlags(c1) == ConfFlags(c2)
    ensures c1 == c2
  {
    var f1, f2 := ConfFlags(c1), ConfFlags(c2);
    assert f1[0] == f2[0] && f1[1] == f2[1] && f1[2] == f2[2] && f1[3] == f2[3] && f1[4] == f2[4];
    assert f1[5] == f2[5] && f1[6] == f2[6] && f1[7] == f2[7] && f1[8] == f2[8] && f1[9] == f2[9];
    assert f1[10] == f2[10] && f1[11] == f2[11] && f1[12] == f2[12] && f1[13] == f2[13];
    assert f1[14] == f2[14] && f1[15] == f2[15] && f1[16] == f2[16] && f1[17] == f2[17] && f1[18] == f2[18];
  }

  /** Likewise for masks. */
  lemma MaskFlagsInjective(m1: StandardAttributesMask, m2: StandardAttributesMask)
    requires MaskFlags(m1) == MaskFlags(m2)
    ensures m1 == m2
  {
    var f1, f2 := MaskFlags(m1), MaskFlags(m2);
    assert f1[0] == f2[0] && f1[1] == f2[1] && f1[2] == f2[2] && f1[3] == f2[3] && f1[4] == f2[4];
    assert f1[5] == f2[5] && f1[6] == f2[6] && f1[7] == f2[7] && f1[8] == f2[8] && f1[9] == f2[9];
    assert f1[10] == f2[10] && f1[11] == f2[11] && f1[12] == f2[12] && f1[13] == f2[13];
    assert f1[14] == f2[14] && f1[15] == f2[15] && f1[16] == f2[16] && f1[17] == f2[17] && f1[18] == f2[18];
  }

  /** The mask the mapping builds is the only one that enables the configuration's claims. */
  lemma AttributesUnique(c: ClientAttributesConf, m: StandardAttributesMask, custom: seq<string>)
    requires MaskFlags(m) == ConfFlags(c)
    ensures Attributes(c, custom).standard == m
  {
    MaskFlagsInjective(m, Attributes(c, custom).standard);
  }
}

=== FILE: common.dfy ===
/**
 * `Common` (Common.java): the right-biased map merge `Maps.from` used for every tag,
 * annotation and template-variable merge, and the short resource id derived from a
 * Base32-encoded SHA-256 digest.
 */
module Common {
  import opened Wrappers
  import Text
  import Base32

  // ---------------------------------------------------------------------------
  // Maps.from
  // ---------------------------------------------------------------------------

  /**
   * A Java map that may itself be null (`None`) and whose values may be null (`None`).
   */
  type JavaMap<K, V> = Option<map<K, Option<V>>>

  predicate HasNullValue<K, V>(m: map<K, Option<V>>)
  {
    exists k :: k in m && m[k].None?
  }

  /**
   * `Maps.from(a, b)`: two nulls give an empty map, one null gives the other map itself,
   * and two maps are concatenated through `Collectors.toMap` with the second map winning
   * on a shared key. `toMap` stores entries with `HashMap.merge`, which throws a
   * NullPointerException on a null value, so a null value in either map is an error then.
   */
  function From<K, V>(a: JavaMap<K, V>, b: JavaMap<K, V>): (r: Result<map<K, Option<V>>>)
    ensures a.None? && b.None? ==> r == Ok(map[])
    ensures a.Some? && b.None? ==> r == Ok(a.value)
    ensures a.None? && b.Some? ==> r == Ok(b.value)
    ensures a.Some? && b.Some? ==>
      (r.Ok? <==> !HasNullValue(a.value) && !HasNullValue(b.value))
    ensures a.Some? && b.Some? && r.Ok? ==>
      && r.value.Keys == a.value.Keys + b.value.Keys
      && (forall k :: k in b.value ==> r.value[k] == b.value[k])
      && (forall k :: k in a.value && k !in b.value ==> r.value[k] == a.value[k])
    ensures a.Some? && b.Some? && r.Err? ==> r.error == NullPointer
  {
    if a.None? && b.None? then Ok(map[])
    else if b.None? then Ok(a.value)
    else if a.None? then Ok(b.value)
    else if HasNullValue(a.value) || HasNullValue(b.value) then Err(NullPointer)
    else Ok(a.value + b.value)
  }

  /** The entries of a Java map, none for a null map. */
  function Entries<K, V>(m: JavaMap<K, V>): map<K, Option<V>>
  {
    if m.Some? then m.value else map[]
  }

  /** The map is null or holds no null value. */
  predicate NullFree<K, V>(m: JavaMap<K, V>)
  {
    m.None? || !HasNullValue(m.value)
  }

  /**
   * `Maps.from(a, b, c)`: `from(from(a, b), c)`. When it succeeds, the result is the
   * right-biased union of the non-null maps; it fails only with a NullPointerException,
   * and never when no map holds a null value.
   */
  function From3<K, V>(a: JavaMap<K, V>, b: JavaMap<K, V>, c: JavaMap<K, V>): (r: Result<map<K, Option<V>>>)
    ensures r.Ok? ==> r.value == Entries(a) + Entries(b) + Entries(c)
    ensures NullFree(a) && NullFree(b) && NullFree(c) ==> r.Ok?
    ensures r.Err? ==> r.error == NullPointer
  {
    var ab :- From(a, b);
    assert ab == Entries(a) + Entries(b);
    assert NullFree(a) && NullFree(b) ==> !HasNullValue(ab) by {
      if NullFree(a) && NullFree(b) {
        forall k | k in ab ensures ab[k].Some? {
          if k in Entries(b) { assert Entries(b)[k].Some?; } else { assert Entries(a)[k].Some?; }
        }
      }
    }
    var r := From(Some(ab), c);
    assert r.Ok? ==> r.value == ab + Entries(c);
    r
  }

  /**
   * With three null-free maps, the three-way merge gives every key the value of the
   * last map that holds it: c over b over a.
   */
  lemma From3Precedence<K, V>(a: map<K, Option<V>>, b: map<K, Option<V>>, c: map<K, Option<V>>)
    requires !HasNullValue(a) && !HasNullValue(b) && !HasNullValue(c)
    ensures From3(Some(a), Some(b), Some(c)).Ok?
    ensures From3(Some(a), Some(b), Some(c)).value.Keys == a.Keys + b.Keys + c.Keys
    ensures forall k :: k in From3(Some(a), Some(b), Some(c)).value ==>
      From3(Some(a), Some(b), Some(c)).value[k] ==
        if k in c then c[k] else if k in b then b[k] else a[k]
  {
    var ab := From(Some(a), Some(b)).value;
    assert !HasNullValue(ab) by {
      forall k | k in ab ensures ab[k].Some? {
        if k in b { assert b[k].Some?; } else { assert a[k].Some?; }
      }
    }
  }

  /**
   * With null-free maps, merging is associative: the left-nested three-way merge equals
   * merging `a` into the merge of `b` and `c`.
   */
  lemma FromAssociative<K, V>(a: map<K, Option<V>>, b: map<K, Option<V>>, c: map<K, Option<V>>)
    requires !HasNullValue(a) && !HasNullValue(b) && !HasNullValue(c)
    ensures From(Some(b), Some(c)).Ok?
    ensures From3(Some(a), Some(b), Some(c)) == From(Some(a), Some(From(Some(b), Some(c)).value))
  {
    From3Precedence(a, b, c);
    var bc := From(Some(b), Some(c)).value;
    assert !HasNullValue(bc) by {
      forall k | k in bc ensures bc[k].Some? {
        if k in c { assert c[k].Some?; } else { assert b[k].Some?; }
      }
    }
    assert From(Some(a), Some(bc)).Ok?;
    var left := From3(Some(a), Some(b), Some(c)).value;
    var right := From(Some(a), Some(bc)).value;
    assert left.Keys == right.Keys;
    assert forall k :: k in left ==> left[k] == right[k];
    assert left == right;
  }

  // ---------------------------------------------------------------------------
  // id(target), after the digest and Base32 steps
  // ---------------------------------------------------------------------------

  const Alphabet: string := "abcdefghijklmnopqrstuvwxyz"

  /** Length of the id: `StringUtils.substring(encoded, 0, 15)`. */
  const IdLength: nat := 15

  const TwoTo31: int := 0x8000_0000
  const TwoTo32: int := 0x1_0000_0000

  predicate IsInt32(x: int) { -TwoTo31 <= x < TwoTo31 }

  /** Two's-complement wrap-around of a Java `int` operation. */
  function Wrap32(x: int): (r: int)
    ensures IsInt32(r)
    ensures (x - r) % TwoTo32 == 0
  {
    (x + TwoTo31) % TwoTo32 - TwoTo31
  }

  /** `String.hashCode()`: `h = 31 * h + c` over the characters, in 32-bit arithmetic. */
  function HashCode(s: string): (h: int)
    ensures IsInt32(h)
  {
    if s == [] then 0 else Wrap32(31 * HashCode(s[..|s| - 1]) + s[|s| - 1] as int)
  }

  function Pow31(n: nat): (r: int)
    ensures r >= 1
  {
    if n == 0 then 1 else 31 * Pow31(n - 1)
  }

  /** The documented value of `String.hashCode()` before overflow: `s[0]*31^(n-1) + ... + s[n-1]`. */
  function PolyHash(s: string): int
  {
    if s == [] then 0 else s[0] as int * Pow31(|s| - 1) + PolyHash(s[1..])
  }

  /** Appending a character multiplies the polynomial by 31 and adds the character. */
  lemma {:induction false} PolyHashSnoc(s: string, c: char)
    ensures PolyHash(s + [c]) == 31 * PolyHash(s) + c as int
    decreases |s|
  {
    if s == [] {
      assert [c][1..] == [];
    } else {
      assert (s + [c])[1..] == s[1..] + [c];
      PolyHashSnoc(s[1..], c);
      assert s[0] as int * Pow31(|s|) == 31 * (s[0] as int * Pow31(|s| - 1));
    }
  }

  /** One Horner step keeps two values congruent modulo 2^32, through a wrap-around. */
  lemma HornerStepCongruent(h: int, p: int, c: int, w: int)
    requires (h - p) % TwoTo32 == 0
    requires (31 * h + c - w) % TwoTo32 == 0
    ensures (w - (31 * p + c)) % TwoTo32 == 0
  {
    var k := (h - p) / TwoTo32;
    var j := (31 * h + c - w) / TwoTo32;
    assert h - p == k * TwoTo32;
    assert 31 * h + c - w == j * TwoTo32;
    assert w - (31 * p + c) == (31 * k - j) * TwoTo32;
  }

  /** `String.hashCode()` is the documented polynomial reduced to a 32-bit `int`. */
  lemma {:induction false} HashCodePoly(s: string)
    ensures (HashCode(s) - PolyHash(s)) % TwoTo32 == 0
    decreases |s|
  {
    if s != [] {
      var init, c := s[..|s| - 1], s[|s| - 1];
      assert init + [c] == s;
      HashCodePoly(init);
      PolyHashSnoc(init, c);
      HornerStepCongruent(HashCode(init), PolyHash(init), c as int, HashCode(s));
    }
  }

  /** Java's `%` on `int`: truncates toward zero, so the remainder takes the dividend's sign. */
  function JavaRem(a: int, b: int): (r: int)
    requires b > 0
    ensures -b < r < b
    ensures a >= 0 ==> r >= 0 && r == a % b
    ensures a < 0 ==> r <= 0
  {
    if a >= 0 then a % b else -((-a) % b)
  }

  /** `Math.abs`; the arguments here are remainders, so the `Integer.MIN_VALUE` case cannot arise. */
  function Abs(x: int): (r: int)
    ensures r >= 0 && (r == x || r == -x)
  {
    if x < 0 then -x else x
  }

  /** `replace(s)`: `ALPHABET.charAt(Math.abs(s.hashCode() % 26))`. */
  function ReplaceIndex(s: string): (i: int)
    ensures 0 <= i < |Alphabet|
  {
    Abs(JavaRem(HashCode(s), |Alphabet|))
  }

  function Replacement(s: string): (c: char)
    ensures Text.IsAsciiLower(c)
  {
    Alphabet[ReplaceIndex(s)]
  }

  /** A character of an id: a lower-case letter or a digit 2-7. */
  predicate IsIdChar(c: char) { 'a' <= c <= 'z' || '2' <= c <= '7' }

  /**
   * `id(target)` from the point where the digest has been Base32-encoded: keep the first
   * 15 characters, replace a leading non-letter by a letter picked with the hash code of
   * those 15 characters, and lower-case the result. An empty encoding fails at `charAt(0)`.
   */
  method Id(encoded: string) returns (r: Result<string>)
    ensures encoded == [] ==> r == Err(IndexOutOfBounds)
    ensures encoded != [] ==> r.Ok?
    ensures r.Ok? ==>
      var n := if |encoded| < IdLength then |encoded| else IdLength;
      && |r.value| == n
      && Text.IsAsciiLower(r.value[0])
      && (Text.IsAsciiLetter(encoded[0]) ==> r.value[0] == Text.LowerChar(encoded[0]))
      && (!Text.IsAsciiLetter(encoded[0]) ==> r.value[0] == Replacement(encoded[..n]))
      && r.value[1..] == Text.Lower(encoded[1..n])
    ensures r.Ok? && |encoded| >= IdLength && (forall i :: 0 <= i < IdLength ==> Base32.IsBase32Char(encoded[i])) ==>
      |r.value| == IdLength && forall i :: 0 <= i < IdLength ==> IsIdChar(r.value[i])
  {
    var encodedString := encoded[..if |encoded| < IdLength then |encoded| else IdLength];
    if |encodedString| == 0 {
      return Err(IndexOutOfBounds);
    }
    if !Text.IsAsciiLetter(encodedString[0]) {
      var replacement := Replacement(encodedString);
      encodedString := [replacement] + encodedString[1..];
    }
    r := Ok(Text.Lower(encodedString));
    assert encodedString[1..] == encoded[1..|encodedString|];
    Text.LowerDrop(encodedString, 1);
    assert Text.IsAsciiLetter(encodedString[0]);
    forall i | 0 <= i < |encodedString| && (i == 0 || Base32.IsBase32Char(encodedString[i]))
      ensures IsIdChar(r.value[i])
    {
      LowerIdChar(encodedString[i]);
    }
  }

  /** Lower-casing a letter or a Base32 character gives an id character. */
  lemma LowerIdChar(c: char)
    requires Text.IsAsciiLetter(c) || Base32.IsBase32Char(c)
    ensures IsIdChar(Text.LowerChar(c))
  {
  }
}

=== FILE: context.dfy ===
/**
 * The CDK construct context the modelled code reads with `tryGetContext` and `getContext`:
 * a map from key to a JSON-shaped value, as it is supplied by the host process.
 */
module Context {
  import opened Wrappers
  import Text

  /**
   * A context value. `Str` is a `java.lang.String`; `Scalar` is any other leaf (number, boolean)
   * together with the text its `toString` gives; `ListV` is a `java.util.List`; `MapV` is a
   * `java.util.Map` held as its entries in iteration order (keys are unique).
   */
  datatype Value =
    | Str(s: string)
    | Scalar(shown: string)
    | ListV(items: seq<Value>)
    | MapV(entries: seq<(string, Value)>)

  type Ctx = map<string, Value>

  /** `Object.toString()`: the text of a string, `[a, b]` for a list, `{k=v, k2=v2}` for a map. */
  function Show(v: Value): (r: string)
    ensures v.Str? ==> r == v.s
    ensures v.Scalar? ==> r == v.shown
    ensures v.ListV? ==> |r| >= 2 && r[0] == '[' && r[|r| - 1] == ']'
    ensures v.MapV? ==> |r| >= 2 && r[0] == '{' && r[|r| - 1] == '}'
    ensures v == ListV([]) ==> r == "[]"
    ensures v == MapV([]) ==> r == "{}"
    decreases v, 1
  {
    match v
    case Str(s) => s
    case Scalar(shown) => shown
    case ListV(items) => "[" + Text.Join(", ", ShowItems(v, items)) + "]"
    case MapV(entries) => "{" + Text.Join(", ", ShowEntries(v, entries)) + "}"
  }

  function ShowItems(ghost parent: Value, items: seq<Value>): (r: seq<string>)
    requires forall i :: 0 <= i < |items| ==> items[i] < parent
    ensures |r| == |items|
    decreases parent, 0, |items|
  {
    if items == [] then [] else [Show(items[0])] + ShowItems(parent, items[1..])
  }

  function ShowEntries(ghost parent: Value, entries: seq<(string, Value)>): (r: seq<string>)
    requires forall i :: 0 <= i < |entries| ==> entries[i].1 < parent
    ensures |r| == |entries|
    decreases parent, 0, |entries|
  {
    if entries == [] then [] else [entries[0].0 + "=" + Show(entries[0].1)] + ShowEntries(parent, entries[1..])
  }

  /** A one-element list prints as `[x]`, a one-entry map as `{k=x}`, a two-element list as `[x, y]`. */
  lemma ShowSmall(k: string, x: Value, y: Value)
    ensures Show(ListV([x])) == "[" + Show(x) + "]"
    ensures Show(MapV([(k, x)])) == "{" + k + "=" + Show(x) + "}"
    ensures Show(ListV([x, y])) == "[" + Show(x) + ", " + Show(y) + "]"
  {
    var l := ListV([x, y]);
    assert [x, y][1..] == [y];
    assert ShowItems(l, [x, y]) == [Show(x), Show(y)];
    assert ShowItems(l, [x, y])[1..] == [Show(y)];
  }

  /** `Node.tryGetContext(key)`: the value, or null when the key is not set. */
  function TryGet(ctx: Ctx, key: string): (r: Option<Value>)
    ensures r.Some? <==> key in ctx
    ensures r.Some? ==> r.value == ctx[key]
  {
    if key in ctx then Some(ctx[key]) else None
  }

  /** `Node.getContext(key)`: the value, or an error naming the key when it is not set. */
  function Get(ctx: Ctx, key: string): (r: Result<Value>)
    ensures r.Ok? <==> key in ctx
    ensures r.Ok? ==> r.value == ctx[key]
    ensures r.Err? ==> r.error == MissingContext(key)
  {
    if key in ctx then Ok(ctx[key]) else Err(MissingContext(key))
  }

  /** `Map.get(key)` on a map value: the first entry under `key`, or null. */
  function Lookup(entries: seq<(string, Value)>, key: string): (r: Option<Value>)
    ensures r.None? <==> forall i :: 0 <= i < |entries| ==> entries[i].0 != key
    ensures r.Some? ==> exists i :: 0 <= i < |entries| && entries[i] == (key, r.value)
  {
    if entries == [] then None
    else if entries[0].0 == key then Some(entries[0].1)
    else
      var r := Lookup(entries[1..], key);
      assert r.Some? ==> exists i :: 0 <= i < |entries[1..]| && entries[1..][i] == (key, r.value);
      r
  }
}

=== FILE: dynamodb.dfy ===
/**
 * `DynamoDbConstruct` (DynamoDbConstruct.java): the decisions that configure a DynamoDB
 * table. The construct fills one shared table builder: the constructor's builder chain sets
 * the name, keys, indexes and tags, and then `sortKey`, `encryption`, `billing` and `streams`
 * call setters on the same builder in that order, a later call overwriting an earlier one.
 *
 * `TableBuilder` is that builder, with a field per setting the modelled steps touch; each
 * step is a method that calls its setters and is proved against a function from the old
 * settings to the new ones.
 */
module DynamoDb {
  import opened Wrappers
  import Common
  import Owners
  import JavaEnum
  import Text

  // ---------------------------------------------------------------------------
  // Configuration records
  // ---------------------------------------------------------------------------

  datatype AttributeType = STRING | NUMBER | BINARY
  /** CDK `ProjectionType`: ALL, KEYS_ONLY, INCLUDE. */
  datatype ProjectionType = All | KeysOnly | Include

  /** `SortKey(name, type)`; either component may be null. */
  datatype SortKey = SortKey(name: Option<string>, kind: Option<AttributeType>)

  /** `Index(name, sortKey, projectionType, nonKeyAttributes)`. */
  datatype Index = Index(name: string, sortKey: Option<SortKey>, projection: ProjectionType, nonKeyAttributes: seq<string>)

  /** `Provisioned(min, max, seed, targetUtilizationPercent)`: one autoscaled capacity. */
  datatype Provisioned = Provisioned(min: int, max: int, seed: int, targetUtilizationPercent: int)

  datatype FixedCapacity = FixedCapacity(read: int, write: int)
  datatype ProvisionedCapacity = ProvisionedCapacity(read: Provisioned, write: Provisioned)

  /** The billing options: on-demand, fixed capacity, autoscaled (provisioned) capacity. */
  datatype BillingConf = BillingConf(onDemand: bool, fixed: Option<FixedCapacity>, provisioned: Option<ProvisionedCapacity>)

  /** The KMS key configuration a customer-managed key is created from. */
  datatype Kms = Kms(alias: string)

  /** `Encryption(enabled, owner, kms)`; the owner text may be null. */
  datatype EncryptionConf = EncryptionConf(enabled: bool, owner: Option<string>, kms: Option<Kms>)

  datatype KinesisConf = KinesisConf(enabled: bool, name: string)
  datatype DynamoDbStreamConf = DynamoDbStreamConf(enabled: bool, kind: string)
  datatype StreamsConf = StreamsConf(kinesis: Option<KinesisConf>, dynamoDb: Option<DynamoDbStreamConf>)

  /** The parts of the `Table` record the modelled steps read. */
  datatype Table = Table(
    name: string,
    partitionKey: SortKey,
    sortKey: Option<SortKey>,
    localSecondaryIndexes: seq<Index>,
    globalSecondaryIndexes: seq<Index>,
    encryption: EncryptionConf,
    billing: BillingConf,
    streams: StreamsConf,
    tags: Common.JavaMap<string, string>)

  // ---------------------------------------------------------------------------
  // What the builder is given
  // ---------------------------------------------------------------------------

  datatype Capacity = Autoscaled(min: int, max: int, seed: int, targetUtilizationPercent: int) | Fixed(units: int)
  datatype Billing = OnDemand | ProvisionedBilling(read: Capacity, write: Capacity)
  /** CDK `Attribute`: a key attribute whose name and type are both required. */
  datatype Attribute = Attribute(name: string, kind: AttributeType)

  datatype TableEncryption = AwsManagedKey | DynamoOwnedKey | CustomerManagedKey(key: Kms)
  datatype StreamViewType = NEW_IMAGE | OLD_IMAGE | NEW_AND_OLD_IMAGES | KEYS_ONLY

  /** The index properties handed to CDK: a sort key and non-key attributes only when given. */
  datatype IndexProps = IndexProps(
    name: string,
    projection: ProjectionType,
    sortKey: Option<Attribute>,
    nonKeyAttributes: Option<seq<string>>)

  /** The settings the four steps write. */
  datatype Settings = Settings(
    sortKey: Option<Attribute>,
    encryption: Option<TableEncryption>,
    billing: Option<Billing>,
    kinesisStream: Option<string>,
    dynamoStream: Option<StreamViewType>)

  const Unset := Settings(None, None, None, None, None)

  /** `TableV2.Builder`: the one builder every step of the construct writes to. */
  class TableBuilder {
    var tableName: string
    var partitionKey: Attribute
    var localSecondaryIndexes: seq<IndexProps>
    var globalSecondaryIndexes: seq<IndexProps>
    /** The `CfnTag` list, as the key-value pairs it holds. */
    var tags: map<string, string>
    var sortKey: Option<Attribute>
    var encryption: Option<TableEncryption>
    var billing: Option<Billing>
    var kinesisStream: Option<string>
    var dynamoStream: Option<StreamViewType>

    function Current(): Settings
      reads this
    {
      Settings(sortKey, encryption, billing, kinesisStream, dynamoStream)
    }

    /** `Builder.create(...)` with the constructor's chained settings; nothing else is set yet. */
    constructor (name: string, partitionKey: Attribute, lsis: seq<IndexProps>, gsis: seq<IndexProps>,
                 tags: map<string, string>)
      ensures tableName == name && this.partitionKey == partitionKey
      ensures localSecondaryIndexes == lsis && globalSecondaryIndexes == gsis && this.tags == tags
      ensures Current() == Unset
    {
      tableName := name;
      this.partitionKey := partitionKey;
      localSecondaryIndexes := lsis;
      globalSecondaryIndexes := gsis;
      this.tags := tags;
      sortKey, encryption, billing, kinesisStream, dynamoStream := None, None, None, None, None;
    }

    method SetSortKey(k: Attribute)
      modifies this`sortKey
      ensures Current() == old(Current()).(sortKey := Some(k))
    {
      sortKey := Some(k);
    }

    method SetEncryption(e: TableEncryption)
      modifies this`encryption
      ensures Current() == old(Current()).(encryption := Some(e))
    {
      encryption := Some(e);
    }

    method SetBilling(b: Billing)
      modifies this`billing
      ensures Current() == old(Current()).(billing := Some(b))
    {
      billing := Some(b);
    }

    method SetKinesisStream(name: string)
      modifies this`kinesisStream
      ensures Current() == old(Current()).(kinesisStream := Some(name))
    {
      kinesisStream := Some(name);
    }

    method SetDynamoStream(t: StreamViewType)
      modifies this`dynamoStream
      ensures Current() == old(Current()).(dynamoStream := Some(t))
    {
      dynamoStream := Some(t);
    }
  }

  // ---------------------------------------------------------------------------
  // Key attributes and secondary indexes
  // ---------------------------------------------------------------------------

  /** Both the name and the type of a key are non-null. */
  predicate CompleteKey(k: SortKey)
  {
    k.name.Some? && k.kind.Some?
  }

  /**
   * `Attribute.builder().name(...).type(...).build()`: the attribute with the key's name and
   * type; a null name or type is a NullPointerException, both being required.
   */
  function KeyAttribute(k: SortKey): (r: Result<Attribute>)
    ensures r.Ok? <==> CompleteKey(k)
    ensures r.Ok? ==> Some(r.value.name) == k.name && Some(r.value.kind) == k.kind
    ensures r.Err? ==> r.error == NullPointer
  {
    if k.name.None? || k.kind.None? then Err(NullPointer)
    else Ok(Attribute(k.name.value, k.kind.value))
  }

  /** An index builds unless it has a sort key with a null name or type. */
  predicate IndexBuilds(index: Index)
  {
    index.sortKey.None? || CompleteKey(index.sortKey.value)
  }

  /**
   * The properties carry the index's name and projection, its sort key exactly when it has
   * one, and its non-key attributes exactly when the list is not empty.
   */
  predicate Mirrors(props: IndexProps, index: Index)
  {
    && props.name == index.name
    && props.projection == index.projection
    && (props.sortKey.Some? <==> index.sortKey.Some?)
    && (props.sortKey.Some? ==>
          Some(props.sortKey.value.name) == index.sortKey.value.name
          && Some(props.sortKey.value.kind) == index.sortKey.value.kind)
    && props.nonKeyAttributes == if index.nonKeyAttributes == [] then None else Some(index.nonKeyAttributes)
  }

  /**
   * `globalSecondaryIndex` and `localSecondaryIndex` (the two are the same code): the
   * name and projection always; the sort key only when the index has one; the non-key
   * attributes only when the list is not empty.
   */
  method SecondaryIndex(index: Index) returns (r: Result<IndexProps>)
    ensures r.Ok? <==> IndexBuilds(index)
    ensures r.Ok? ==> Mirrors(r.value, index)
    ensures r.Err? ==> r.error == NullPointer
  {
    var props := IndexProps(index.name, index.projection, None, None);
    if index.sortKey.Some? {
      var key := KeyAttribute(index.sortKey.value);
      if key.Err? {
        return Err(key.error);
      }
      props := props.(sortKey := Some(key.value));
    }
    if index.nonKeyAttributes != [] {
      props := props.(nonKeyAttributes := Some(index.nonKeyAttributes));
    }
    r := Ok(props);
  }

  /**
   * The `stream().map(...).toList()` over an index list: same length, same order, and the
   * first index that does not build ends it with its exception.
   */
  method SecondaryIndexes(indexes: seq<Index>) returns (r: Result<seq<IndexProps>>)
    ensures r.Ok? <==> forall i :: 0 <= i < |indexes| ==> IndexBuilds(indexes[i])
    ensures r.Ok? ==> |r.value| == |indexes| && forall i :: 0 <= i < |indexes| ==> Mirrors(r.value[i], indexes[i])
    ensures r.Err? ==> r.error == NullPointer
  {
    var props := [];
    var i := 0;
    while i < |indexes|
      invariant 0 <= i <= |indexes| && |props| == i
      invariant forall j :: 0 <= j < i ==> IndexBuilds(indexes[j]) && Mirrors(props[j], indexes[j])
    {
      var p := SecondaryIndex(indexes[i]);
      if p.Err? {
        return Err(p.error);
      }
      props := props + [p.value];
      i := i + 1;
    }
    r := Ok(props);
  }

  // ---------------------------------------------------------------------------
  // sortKey
  // ---------------------------------------------------------------------------

  /** The sort key is set only when the key, its name and its type are all non-null. */
  predicate HasCompleteSortKey(conf: Table)
  {
    conf.sortKey.Some? && CompleteKey(conf.sortKey.value)
  }

  function SortKeyStep(conf: Table, s: Settings): (r: Settings)
    ensures r.sortKey.Some? && r.sortKey != s.sortKey ==> HasCompleteSortKey(conf)
    ensures HasCompleteSortKey(conf) ==>
      && r.sortKey.Some?
      && Some(r.sortKey.value.name) == conf.sortKey.value.name
      && Some(r.sortKey.value.kind) == conf.sortKey.value.kind
    ensures !HasCompleteSortKey(conf) ==> r.sortKey == s.sortKey
    ensures r.(sortKey := s.sortKey) == s
  {
    if HasCompleteSortKey(conf) then s.(sortKey := Some(KeyAttribute(conf.sortKey.value).value)) else s
  }

  method ApplySortKey(conf: Table, table: TableBuilder)
    modifies table
    ensures table.Current() == SortKeyStep(conf, old(table.Current()))
    ensures unchanged(table`tableName, table`partitionKey, table`localSecondaryIndexes, table`globalSecondaryIndexes, table`tags)
  {
    var k := conf.sortKey;
    if k.Some? && k.value.name.Some? && k.value.kind.Some? {
      table.SetSortKey(Attribute(k.value.name.value, k.value.kind.value));
    }
  }

  // ---------------------------------------------------------------------------
  // encryption
  // ---------------------------------------------------------------------------

  /**
   * The key for an owner: AWS-managed, DynamoDB-owned, or a customer-managed key when the
   * owner is SELF and a KMS configuration is given; SELF without one gives no key.
   */
  function KeyFor(owner: Owners.Owner, kms: Option<Kms>): (r: Option<TableEncryption>)
    ensures r.None? <==> owner == Owners.SELF && kms.None?
    ensures r == Some(AwsManagedKey) <==> owner == Owners.AWS
    ensures r == Some(DynamoOwnedKey) <==> owner == Owners.DYNAMODB
    ensures r.Some? && r.value.CustomerManagedKey? <==> owner == Owners.SELF && kms.Some?
    ensures r.Some? && r.value.CustomerManagedKey? ==> r.value.key == kms.value
  {
    match owner
    case AWS => Some(AwsManagedKey)
    case DYNAMODB => Some(DynamoOwnedKey)
    case SELF => if kms.Some? then Some(CustomerManagedKey(kms.value)) else None
  }

  /**
   * `encryption`: nothing when disabled; otherwise the owner text is upper-cased (a null
   * owner is a NullPointerException there) and parsed with `Owner.of` (which throws on an
   * unknown owner), and the key for that owner is set, if there is one.
   */
  function EncryptionStep(conf: Table, s: Settings): (r: Result<Settings>)
    ensures !conf.encryption.enabled ==> r == Ok(s)
    ensures conf.encryption.enabled && conf.encryption.owner.None? ==> r == Err(NullPointer)
    ensures conf.encryption.enabled && conf.encryption.owner.Some? ==>
      var owner := conf.encryption.owner.value;
      && (r.Err? <==> Owners.Of(owner).Err?)
      && (r.Err? ==> r.error == JavaEnum.NoEnumConstant(Owners.ClassName, Text.Upper(owner)))
      && (r.Ok? ==>
            var key := KeyFor(Owners.Of(owner).value, conf.encryption.kms);
            r.value.encryption == if key.Some? then key else s.encryption)
    ensures r.Ok? ==> r.value.(encryption := s.encryption) == s
  {
    if !conf.encryption.enabled then Ok(s)
    else if conf.encryption.owner.None? then Err(NullPointer)
    else
      Text.UpperIdempotent(conf.encryption.owner.value);
      var owner :- Owners.Of(Text.Upper(conf.encryption.owner.value));
      match KeyFor(owner, conf.encryption.kms)
      case Some(key) => Ok(s.(encryption := Some(key)))
      case None => Ok(s)
  }

  method ApplyEncryption(conf: Table, table: TableBuilder) returns (r: Result<()>)
    modifies table
    ensures EncryptionStep(conf, old(table.Current())).Err? ==>
      r == Err(EncryptionStep(conf, old(table.Current())).error) && table.Current() == old(table.Current())
    ensures EncryptionStep(conf, old(table.Current())).Ok? ==>
      r.Ok? && table.Current() == EncryptionStep(conf, old(table.Current())).value
    ensures unchanged(table`tableName, table`partitionKey, table`localSecondaryIndexes, table`globalSecondaryIndexes, table`tags)
  {
    if conf.encryption.enabled {
      if conf.encryption.owner.None? {
        return Err(NullPointer);
      }
      Text.UpperIdempotent(conf.encryption.owner.value);
      var parsed := Owners.Of(Text.Upper(conf.encryption.owner.value));
      if parsed.Err? {
        return Err(parsed.error);
      }
      var owner := parsed.value;
      if owner == Owners.AWS {
        table.SetEncryption(AwsManagedKey);
      } else if owner == Owners.DYNAMODB {
        table.SetEncryption(DynamoOwnedKey);
      } else if owner == Owners.SELF && conf.encryption.kms.Some? {
        table.SetEncryption(CustomerManagedKey(conf.encryption.kms.value));
      }
    }
    r := Ok(());
  }

  /** The owner is read case-insensitively: texts equal up to case configure the same key. */
  lemma EncryptionIgnoresCase(conf: Table, s: Settings, owner: string)
    requires conf.encryption.owner.Some? && Text.EqualsIgnoreCase(owner, conf.encryption.owner.value)
    ensures EncryptionStep(conf.(encryption := conf.encryption.(owner := Some(owner))), s) == EncryptionStep(conf, s)
  {
  }

  /** An owner given as its own text (`aws`, `dynamodb`, `self`) selects that owner's key. */
  lemma EncryptionOfOwner(conf: Table, s: Settings, o: Owners.Owner)
    requires conf.encryption.enabled && conf.encryption.owner == Some(Owners.ToString(o))
    ensures EncryptionStep(conf, s) == Ok(
      var key := KeyFor(o, conf.encryption.kms);
      if key.Some? then s.(encryption := key) else s)
  {
    Owners.OfToString(o);
  }

  // ---------------------------------------------------------------------------
  // billing
  // ---------------------------------------------------------------------------

  function CountTrue(bs: seq<bool>): (n: nat)
    ensures n <= |bs|
  {
    if bs == [] then 0 else (if bs[0] then 1 else 0) + CountTrue(bs[1..])
  }

  /** `BooleanUtils.oneHot`: exactly one of the flags is true. */
  predicate OneHot(bs: seq<bool>)
  {
    CountTrue(bs) == 1
  }

  function Selected(b: BillingConf): seq<bool>
  {
    [b.onDemand, b.fixed.Some?, b.provisioned.Some?]
  }

  /** `Capacity.autoscaled` with the four options of one provisioned direction. */
  function AutoscaledOf(p: Provisioned): (r: Capacity)
    ensures r.Autoscaled?
    ensures (r.min, r.max, r.seed, r.targetUtilizationPercent) == (p.min, p.max, p.seed, p.targetUtilizationPercent)
  {
    Autoscaled(p.min, p.max, p.seed, p.targetUtilizationPercent)
  }

  /** Exactly one option selected, by which option it is. */
  lemma OneHotCases(b: BillingConf)
    ensures OneHot(Selected(b)) <==>
      || (b.onDemand && b.fixed.None? && b.provisioned.None?)
      || (!b.onDemand && b.fixed.Some? && b.provisioned.None?)
      || (!b.onDemand && b.fixed.None? && b.provisioned.Some?)
  {
    var s := Selected(b);
    assert s[1..][1..][1..] == [];
    assert CountTrue(s[1..][1..]) == if b.provisioned.Some? then 1 else 0;
    assert CountTrue(s[1..]) == (if b.fixed.Some? then 1 else 0) + CountTrue(s[1..][1..]);
  }

  /**
   * `billing` as written: with exactly one option, on-demand when selected; autoscaled
   * capacity when provisioned is selected, and then fixed capacity if fixed is also set,
   * which the one-option check has already ruled out. Nothing at all is set when only fixed
   * is selected. With zero or several options, on-demand.
   */
  function BillingAsWritten(b: BillingConf, previous: Option<Billing>): (r: Option<Billing>)
    ensures !OneHot(Selected(b)) ==> r == Some(OnDemand)
    ensures b.onDemand && b.fixed.None? && b.provisioned.None? ==> r == Some(OnDemand)
    ensures !b.onDemand && b.fixed.None? && b.provisioned.Some? ==>
      r == Some(ProvisionedBilling(AutoscaledOf(b.provisioned.value.read), AutoscaledOf(b.provisioned.value.write)))
    ensures !b.onDemand && b.fixed.Some? && b.provisioned.None? ==> r == previous
  {
    if OneHot(Selected(b)) then
      var afterOnDemand := if b.onDemand then Some(OnDemand) else previous;
      if b.provisioned.Some? then
        var autoscaled := Some(ProvisionedBilling(AutoscaledOf(b.provisioned.value.read), AutoscaledOf(b.provisioned.value.write)));
        if b.fixed.Some? then Some(ProvisionedBilling(Fixed(b.fixed.value.read), Fixed(b.fixed.value.write)))
        else OneHotCases(b); autoscaled
      else OneHotCases(b); afterOnDemand
    else OneHotCases(b); Some(OnDemand)
  }

  /** The fixed-capacity assignment can never run: no configuration yields fixed capacity through it. */
  lemma FixedBranchUnreachable(b: BillingConf, previous: Option<Billing>)
    requires previous.None?
    ensures var w := BillingAsWritten(b, previous);
      w.Some? && w.value.ProvisionedBilling? ==> !w.value.read.Fixed? && !w.value.write.Fixed?
  {
    OneHotCases(b);
  }

  /** A fixed-only configuration sets no billing at all: the table falls back to on-demand silently. */
  lemma FixedOnlyIgnored()
    ensures BillingAsWritten(BillingConf(false, Some(FixedCapacity(5, 5)), None), None) == None
  {
    OneHotCases(BillingConf(false, Some(FixedCapacity(5, 5)), None));
  }

  /**
   * The billing decision as intended: the selected option when exactly one is selected
   * (fixed capacity included), otherwise on-demand.
   */
  function BillingFor(b: BillingConf): (r: Billing)
    ensures !OneHot(Selected(b)) ==> r == OnDemand
    ensures OneHot(Selected(b)) && b.onDemand ==> r == OnDemand
    ensures OneHot(Selected(b)) && b.fixed.Some? ==>
      r == ProvisionedBilling(Fixed(b.fixed.value.read), Fixed(b.fixed.value.write))
    ensures OneHot(Selected(b)) && b.provisioned.Some? ==>
      && r.ProvisionedBilling?
      && r.read == Autoscaled(b.provisioned.value.read.min, b.provisioned.value.read.max,
                              b.provisioned.value.read.seed, b.provisioned.value.read.targetUtilizationPercent)
      && r.write == Autoscaled(b.provisioned.value.write.min, b.provisioned.value.write.max,
                               b.provisioned.value.write.seed, b.provisioned.value.write.targetUtilizationPercent)
  {
    OneHotCases(b);
    if !OneHot(Selected(b)) || b.onDemand then OnDemand
    else if b.fixed.Some? then ProvisionedBilling(Fixed(b.fixed.value.read), Fixed(b.fixed.value.write))
    else ProvisionedBilling(AutoscaledOf(b.provisioned.value.read), AutoscaledOf(b.provisioned.value.write))
  }

  /** Outside the fixed-only case, the code as written and the intended decision agree. */
  lemma BillingAgrees(b: BillingConf, previous: Option<Billing>)
    ensures !(OneHot(Selected(b)) && b.fixed.Some?) ==> BillingAsWritten(b, previous) == Some(BillingFor(b))
  {
    OneHotCases(b);
  }

  /** The `billing` step as written, on the builder. */
  method ApplyBillingAsWritten(conf: Table, table: TableBuilder)
    modifies table
    ensures table.Current() == old(table.Current()).(billing := BillingAsWritten(conf.billing, old(table.billing)))
    ensures unchanged(table`tableName, table`partitionKey, table`localSecondaryIndexes, table`globalSecondaryIndexes, table`tags)
  {
    var b := conf.billing;
    if OneHot(Selected(b)) {
      if b.onDemand {
        table.SetBilling(OnDemand);
      }
      if b.provisioned.Some? {
        table.SetBilling(ProvisionedBilling(AutoscaledOf(b.provisioned.value.read), AutoscaledOf(b.provisioned.value.write)));
        if b.fixed.Some? {
          table.SetBilling(ProvisionedBilling(Fixed(b.fixed.value.read), Fixed(b.fixed.value.write)));
        }
      }
    } else {
      table.SetBilling(OnDemand);
    }
  }

  /** The `billing` step with the fixed-capacity branch where it was meant to be. */
  method ApplyBilling(conf: Table, table: TableBuilder)
    modifies table
    ensures table.Current() == old(table.Current()).(billing := Some(BillingFor(conf.billing)))
    ensures unchanged(table`tableName, table`partitionKey, table`localSecondaryIndexes, table`globalSecondaryIndexes, table`tags)
  {
    var b := conf.billing;
    OneHotCases(b);
    if OneHot(Selected(b)) {
      if b.onDemand {
        table.SetBilling(OnDemand);
      }
      if b.provisioned.Some? {
        table.SetBilling(ProvisionedBilling(AutoscaledOf(b.provisioned.value.read), AutoscaledOf(b.provisioned.value.write)));
      }
      if b.fixed.Some? {
        table.SetBilling(ProvisionedBilling(Fixed(b.fixed.value.read), Fixed(b.fixed.value.write)));
      }
    } else {
      table.SetBilling(OnDemand);
    }
  }

  // ---------------------------------------------------------------------------
  // streams
  // ---------------------------------------------------------------------------

  const StreamViewTypeClass := "software.amazon.awscdk.services.dynamodb.StreamViewType"
  const StreamViewTypes: seq<StreamViewType> := [NEW_IMAGE, OLD_IMAGE, NEW_AND_OLD_IMAGES, KEYS_ONLY]

  function StreamViewTypeName(t: StreamViewType): string
  {
    match t
    case NEW_IMAGE => "NEW_IMAGE"
    case OLD_IMAGE => "OLD_IMAGE"
    case NEW_AND_OLD_IMAGES => "NEW_AND_OLD_IMAGES"
    case KEYS_ONLY => "KEYS_ONLY"
  }

  /** Where a view type sits in the declaration order. */
  function Position(t: StreamViewType): (i: nat)
    ensures i < |StreamViewTypes| && StreamViewTypes[i] == t
  {
    match t
    case NEW_IMAGE => 0
    case OLD_IMAGE => 1
    case NEW_AND_OLD_IMAGES => 2
    case KEYS_ONLY => 3
  }

  /** `StreamViewType.valueOf(type.toUpperCase())`. */
  function ParseStreamViewType(s: string): (r: Result<StreamViewType>)
    ensures r.Ok? ==> StreamViewTypeName(r.value) == Text.Upper(s)
    ensures r.Err? <==> forall t :: StreamViewTypeName(t) != Text.Upper(s)
    ensures r.Err? ==> r.error == JavaEnum.NoEnumConstant(StreamViewTypeClass, Text.Upper(s))
  {
    var r := JavaEnum.ValueOf(StreamViewTypes, StreamViewTypeName, StreamViewTypeClass, Text.Upper(s));
    assert r.Err? ==> forall t :: StreamViewTypeName(t) != Text.Upper(s) by {
      if r.Err? {
        forall t ensures StreamViewTypeName(t) != Text.Upper(s) {
          assert StreamViewTypes[Position(t)] == t;
        }
      }
    }
    r
  }

  /** The view type names are distinct and upper case, as enum constants are. */
  lemma StreamViewTypeNames()
    ensures JavaEnum.DistinctNames(StreamViewTypes, StreamViewTypeName)
    ensures JavaEnum.UpperCaseNames(StreamViewTypes, StreamViewTypeName)
  {
    forall i | 0 <= i < |StreamViewTypes|
      ensures Text.Upper(StreamViewTypeName(StreamViewTypes[i])) == StreamViewTypeName(StreamViewTypes[i])
    {
      Text.UpperUnchanged(StreamViewTypeName(StreamViewTypes[i]));
    }
  }

  /** Every view type is found by its own name. */
  lemma ParseStreamViewTypeName(t: StreamViewType)
    ensures ParseStreamViewType(StreamViewTypeName(t)) == Ok(t)
  {
    Text.UpperUnchanged(StreamViewTypeName(t));
    StreamViewTypeNames();
    JavaEnum.ValueOfName(StreamViewTypes, StreamViewTypeName, StreamViewTypeClass, t);
  }

  /** The view type is read case-insensitively: `t` is found exactly for the texts equal to its name up to case. */
  lemma ParseStreamViewTypeIgnoresCase(s: string, t: StreamViewType)
    ensures ParseStreamViewType(s) == Ok(t) <==> Text.EqualsIgnoreCase(s, StreamViewTypeName(t))
  {
    StreamViewTypeNames();
    assert StreamViewTypes[Position(t)] == t;
    JavaEnum.UpperCaseLookup(StreamViewTypes, StreamViewTypeName, StreamViewTypeClass, s, t);
  }

  /**
   * `streams`: a Kinesis stream when its configuration is present and enabled, then a
   * DynamoDB stream of the parsed view type when that configuration is present and enabled.
   */
  function StreamsStep(conf: Table, s: Settings): (r: Result<Settings>)
    ensures r.Ok? ==> r.value.(kinesisStream := s.kinesisStream, dynamoStream := s.dynamoStream) == s
    ensures r.Ok? ==>
      r.value.kinesisStream == (if conf.streams.kinesis.Some? && conf.streams.kinesis.value.enabled
                                then Some(conf.streams.kinesis.value.name) else s.kinesisStream)
    ensures var d := conf.streams.dynamoDb;
      && (r.Err? <==> d.Some? && d.value.enabled && ParseStreamViewType(d.value.kind).Err?)
      && (r.Err? ==> r.error == ParseStreamViewType(d.value.kind).error)
      && (r.Ok? ==>
           r.value.dynamoStream == (if d.Some? && d.value.enabled then Some(ParseStreamViewType(d.value.kind).value) else s.dynamoStream))
  {
    var k := conf.streams.kinesis;
    var s1 := if k.Some? && k.value.enabled then s.(kinesisStream := Some(k.value.name)) else s;
    var d := conf.streams.dynamoDb;
    if d.Some? && d.value.enabled then
      var t :- ParseStreamViewType(d.value.kind);
      Ok(s1.(dynamoStream := Some(t)))
    else Ok(s1)
  }

  method ApplyStreams(conf: Table, table: TableBuilder) returns (r: Result<()>)
    modifies table
    ensures StreamsStep(conf, old(table.Current())).Ok? ==>
      r.Ok? && table.Current() == StreamsStep(conf, old(table.Current())).value
    ensures StreamsStep(conf, old(table.Current())).Err? ==>
      r == Err(StreamsStep(conf, old(table.Current())).error)
    ensures unchanged(table`tableName, table`partitionKey, table`localSecondaryIndexes, table`globalSecondaryIndexes, table`tags)
  {
    var k := conf.streams.kinesis;
    if k.Some? && k.value.enabled {
      table.SetKinesisStream(k.value.name);
    }
    var d := conf.streams.dynamoDb;
    if d.Some? && d.value.enabled {
      var t := ParseStreamViewType(d.value.kind);
      if t.Err? {
        return Err(t.error);
      }
      table.SetDynamoStream(t.value);
    }
    r := Ok(());
  }

  // ---------------------------------------------------------------------------
  // The constructor
  // ---------------------------------------------------------------------------

  /**
   * The four steps in the constructor's order, from the settings the builder chain leaves.
   * Billing is the step as written: a fixed-only configuration leaves it unset.
   */
  function Configured(conf: Table): (r: Result<Settings>)
    ensures r.Ok? ==> r.value.sortKey == SortKeyStep(conf, Unset).sortKey
    ensures r.Ok? && !conf.encryption.enabled ==> r.value.encryption == None
    ensures r.Ok? ==>
      && EncryptionStep(conf, SortKeyStep(conf, Unset)).Ok?
      && r.value.encryption == EncryptionStep(conf, SortKeyStep(conf, Unset)).value.encryption
    ensures r.Ok? ==> r.value.billing == BillingAsWritten(conf.billing, None)
    ensures r.Ok? && !(OneHot(Selected(conf.billing)) && conf.billing.fixed.Some?) ==>
      r.value.billing == Some(BillingFor(conf.billing))
    ensures r.Ok? && OneHot(Selected(conf.billing)) && conf.billing.fixed.Some? ==> r.value.billing == None
    ensures r.Ok? ==>
      r.value.kinesisStream == (var k := conf.streams.kinesis; if k.Some? && k.value.enabled then Some(k.value.name) else None)
    ensures r.Ok? ==>
      var d := conf.streams.dynamoDb;
      && (d.Some? && d.value.enabled ==> ParseStreamViewType(d.value.kind).Ok?)
      && r.value.dynamoStream == if d.Some? && d.value.enabled then Some(ParseStreamViewType(d.value.kind).value) else None
    ensures r.Err? <==>
      (|| EncryptionStep(conf, SortKeyStep(conf, Unset)).Err?
       || (var d := conf.streams.dynamoDb; d.Some? && d.value.enabled && ParseStreamViewType(d.value.kind).Err?))
    ensures r.Err? && EncryptionStep(conf, SortKeyStep(conf, Unset)).Ok? ==>
      r.error == ParseStreamViewType(conf.streams.dynamoDb.value.kind).error
  {
    var s1 := SortKeyStep(conf, Unset);
    var s2 :- EncryptionStep(conf, s1);
    BillingAgrees(conf.billing, None);
    OneHotCases(conf.billing);
    var s3 := s2.(billing := BillingAsWritten(conf.billing, s2.billing));
    StreamsStep(conf, s3)
  }

  /** The tags handed to the builder: `Maps.from(common.tags(), conf.tags())`. */
  function MergedTags(commonTags: Common.JavaMap<string, string>, conf: Table): (r: Result<map<string, Option<string>>>)
    ensures r.Ok? <==> commonTags.None? || conf.tags.None? || (Common.NullFree(commonTags) && Common.NullFree(conf.tags))
    ensures r.Err? ==> r.error == NullPointer
    ensures r.Ok? ==> r.value.Keys == Common.Entries(commonTags).Keys + Common.Entries(conf.tags).Keys
    ensures r.Ok? ==> forall k :: k in Common.Entries(conf.tags) ==> r.value[k] == conf.tags.value[k]
    ensures r.Ok? ==> forall k :: k in Common.Entries(commonTags) && k !in Common.Entries(conf.tags) ==>
      r.value[k] == commonTags.value[k]
  {
    Common.From(commonTags, conf.tags)
  }

  /**
   * One `CfnTag` per entry of the merged map; the tag's value is required, so a null value
   * is a NullPointerException.
   */
  function CfnTags(m: map<string, Option<string>>): (r: Result<map<string, string>>)
    ensures r.Ok? <==> !Common.HasNullValue(m)
    ensures r.Ok? ==> r.value.Keys == m.Keys && forall k :: k in r.value ==> m[k] == Some(r.value[k])
    ensures r.Err? ==> r.error == NullPointer
  {
    if Common.HasNullValue(m) then Err(NullPointer)
    else Ok(map k | k in m :: m[k].value)
  }

  /**
   * The builder chain of the constructor completes: the partition key is complete, every
   * index builds, and the tags merge without a null value.
   */
  predicate ChainBuilds(commonTags: Common.JavaMap<string, string>, conf: Table)
  {
    && CompleteKey(conf.partitionKey)
    && (forall i :: 0 <= i < |conf.localSecondaryIndexes| ==> IndexBuilds(conf.localSecondaryIndexes[i]))
    && (forall i :: 0 <= i < |conf.globalSecondaryIndexes| ==> IndexBuilds(conf.globalSecondaryIndexes[i]))
    && MergedTags(commonTags, conf).Ok?
    && !Common.HasNullValue(MergedTags(commonTags, conf).value)
  }

  /**
   * The constructor: the builder chain (partition key, indexes mapped in order, tags merged
   * with `Maps.from` and turned into `CfnTag`s), then sort key, encryption, billing and
   * streams on the same builder. An exception leaves no table.
   */
  method Create(commonTags: Common.JavaMap<string, string>, conf: Table) returns (r: Result<TableBuilder>)
    ensures !ChainBuilds(commonTags, conf) ==> r == Err(NullPointer)
    ensures ChainBuilds(commonTags, conf) ==> (r.Ok? <==> Configured(conf).Ok?)
    ensures ChainBuilds(commonTags, conf) && r.Err? ==> r.error == Configured(conf).error
    ensures r.Ok? ==> fresh(r.value)
    ensures r.Ok? ==> r.value.Current() == Configured(conf).value
    ensures r.Ok? ==> r.value.tableName == conf.name
    ensures r.Ok? ==>
      Some(r.value.partitionKey.name) == conf.partitionKey.name && Some(r.value.partitionKey.kind) == conf.partitionKey.kind
    ensures r.Ok? ==>
      var merged := MergedTags(commonTags, conf).value;
      r.value.tags.Keys == merged.Keys && forall k :: k in r.value.tags ==> merged[k] == Some(r.value.tags[k])
    ensures r.Ok? ==>
      && |r.value.localSecondaryIndexes| == |conf.localSecondaryIndexes|
      && (forall i :: 0 <= i < |conf.localSecondaryIndexes| ==>
            Mirrors(r.value.localSecondaryIndexes[i], conf.localSecondaryIndexes[i]))
    ensures r.Ok? ==>
      && |r.value.globalSecondaryIndexes| == |conf.globalSecondaryIndexes|
      && (forall i :: 0 <= i < |conf.globalSecondaryIndexes| ==>
            Mirrors(r.value.globalSecondaryIndexes[i], conf.globalSecondaryIndexes[i]))
  {
    var partitionKey := KeyAttribute(conf.partitionKey);
    if partitionKey.Err? {
      return Err(partitionKey.error);
    }
    var lsis := SecondaryIndexes(conf.localSecondaryIndexes);
    if lsis.Err? {
      return Err(lsis.error);
    }
    var gsis := SecondaryIndexes(conf.globalSecondaryIndexes);
    if gsis.Err? {
      return Err(gsis.error);
    }
    var merged := Common.From(commonTags, conf.tags);
    if merged.Err? {
      assert commonTags.Some? && conf.tags.Some?;
      return Err(merged.error);
    }
    var tags := CfnTags(merged.value);
    if tags.Err? {
      return Err(tags.error);
    }
    var table := new TableBuilder(conf.name, partitionKey.value, lsis.value, gsis.value, tags.value);
    ApplySortKey(conf, table);
    var encrypted := ApplyEncryption(conf, table);
    if encrypted.Err? {
      return Err(encrypted.error);
    }
    ApplyBillingAsWritten(conf, table);
    var streamed := ApplyStreams(conf, table);
    if streamed.Err? {
      return Err(streamed.error);
    }
    r := Ok(table);
  }
}

=== FILE: eks.dfy ===
/**
 * `EksNestedStack` (EksNestedStack.java): the endpoint-access selector, the tenant lists
 * read from the context for the aws-auth mapping, and the order in which the nested stack
 * creates its constructs and declares the dependencies between them.
 */
module Eks {
  import opened Wrappers
  import Text
  import Context

  // ---------------------------------------------------------------------------
  // type(endpointAccess)
  // ---------------------------------------------------------------------------

  /** CDK `EndpointAccess`. */
  datatype EndpointAccess = PUBLIC_AND_PRIVATE | PRIVATE | PUBLIC

  const EndpointAccessError := InvalidParameter("error deciding endpoint access type for cluster")

  /**
   * `type(endpointAccess)`: "public_and_private" and "private" both select public-and-private
   * access, "public" selects public access, in any letter case; anything else is rejected.
   */
  function EndpointAccessOf(s: string): (r: Result<EndpointAccess>)
    ensures r.Ok? <==> (|| Text.EqualsIgnoreCase(s, "PUBLIC_AND_PRIVATE")
                        || Text.EqualsIgnoreCase(s, "PRIVATE")
                        || Text.EqualsIgnoreCase(s, "PUBLIC"))
    ensures r.Err? ==> r.error == EndpointAccessError
    ensures r == Ok(PUBLIC) <==> Text.EqualsIgnoreCase(s, "PUBLIC")
  {
    if Text.EqualsIgnoreCase(s, "PUBLIC_AND_PRIVATE") then Ok(PUBLIC_AND_PRIVATE)
    else if Text.EqualsIgnoreCase(s, "PRIVATE") then Ok(PUBLIC_AND_PRIVATE)
    else if Text.EqualsIgnoreCase(s, "PUBLIC") then Ok(PUBLIC)
    else Err(EndpointAccessError)
  }

  /** No text selects private-only access: "private" gives public-and-private. */
  lemma NeverPrivateOnly(s: string)
    ensures EndpointAccessOf(s) != Ok(PRIVATE)
    ensures Text.EqualsIgnoreCase(s, "private") ==> EndpointAccessOf(s) == Ok(PUBLIC_AND_PRIVATE)
  {
    assert Text.Upper("private") == "PRIVATE";
    if Text.EqualsIgnoreCase(s, "private") {
      assert Text.Upper(s) == "PRIVATE";
      assert Text.Upper(s) != Text.Upper("PUBLIC_AND_PRIVATE") by {
        assert |Text.Upper("PUBLIC_AND_PRIVATE")| == 18;
      }
    }
  }

  // ---------------------------------------------------------------------------
  // tenant(type)
  // ---------------------------------------------------------------------------

  /** `Tenant(email, role, username)`; each may be null. */
  datatype Tenant = Tenant(email: Option<string>, role: Option<string>, username: Option<string>)

  /** `(String) o.get(key)`: null stays null, a string is kept, anything else fails the cast. */
  function CastToString(v: Option<Context.Value>): (r: Result<Option<string>>)
    ensures r.Ok? <==> v.None? || v.value.Str?
    ensures r.Ok? ==> r.value == if v.None? then None else Some(v.value.s)
    ensures r.Err? ==> r.error == ClassCast("java.lang.String")
  {
    match v
    case None => Ok(None)
    case Some(Str(s)) => Ok(Some(s))
    case Some(_) => Err(ClassCast("java.lang.String"))
  }

  /**
   * One list element: a map gives the tenant made of its "email", "role" and "username"
   * entries (cast in that order); any other element is skipped (`None`).
   */
  function TenantOf(v: Context.Value): (r: Result<Option<Tenant>>)
    ensures !v.MapV? ==> r == Ok(None)
    ensures v.MapV? ==>
      (r.Ok? <==> (&& CastToString(Context.Lookup(v.entries, "email")).Ok?
                   && CastToString(Context.Lookup(v.entries, "role")).Ok?
                   && CastToString(Context.Lookup(v.entries, "username")).Ok?))
    ensures v.MapV? && r.Ok? ==>
      && r.value.Some?
      && CastToString(Context.Lookup(v.entries, "email")) == Ok(r.value.value.email)
      && CastToString(Context.Lookup(v.entries, "role")) == Ok(r.value.value.role)
      && CastToString(Context.Lookup(v.entries, "username")) == Ok(r.value.value.username)
  {
    match v
    case MapV(entries) =>
      var email :- CastToString(Context.Lookup(entries, "email"));
      var role :- CastToString(Context.Lookup(entries, "role"));
      var username :- CastToString(Context.Lookup(entries, "username"));
      Ok(Some(Tenant(email, role, username)))
    case _ => Ok(None)
  }

  /** The map elements of a list, in order: the ones `tenant` does not skip. */
  function Maps(items: seq<Context.Value>): (r: seq<Context.Value>)
    ensures |r| <= |items|
    ensures forall i :: 0 <= i < |r| ==> r[i].MapV?
  {
    if items == [] then []
    else Maps(items[..|items| - 1]) + (if items[|items| - 1].MapV? then [items[|items| - 1]] else [])
  }

  /**
   * The tenants of a list value, element by element: the first element that fails a cast
   * fails the whole list; otherwise one tenant per map element, in list order.
   */
  function TenantsOf(items: seq<Context.Value>): (r: Result<seq<Tenant>>)
    ensures r.Ok? <==> forall i :: 0 <= i < |items| ==> TenantOf(items[i]).Ok?
    ensures r.Ok? ==> |r.value| == |Maps(items)| <= |items|
    ensures r.Ok? ==> forall i :: 0 <= i < |r.value| ==> TenantOf(Maps(items)[i]) == Ok(Some(r.value[i]))
    ensures r.Err? ==> exists i :: 0 <= i < |items| && TenantOf(items[i]) == Err(r.error)
  {
    if items == [] then Ok([])
    else
      var init := items[..|items| - 1];
      assert forall i :: 0 <= i < |init| ==> init[i] == items[i];
      var previous :- TenantsOf(init);
      var t :- TenantOf(items[|items| - 1]);
      Ok(previous + (if t.Some? then [t.value] else []))
  }

  /** One more element: the tenants so far, then that element's tenant if it has one. */
  lemma TenantsOfStep(items: seq<Context.Value>, i: nat)
    requires i < |items| && TenantsOf(items[..i]).Ok? && TenantOf(items[i]).Ok?
    ensures TenantsOf(items[..i + 1]) ==
      Ok(TenantsOf(items[..i]).value + if TenantOf(items[i]).value.Some? then [TenantOf(items[i]).value.value] else [])
  {
    assert items[..i + 1][..i] == items[..i];
    assert items[..i + 1][i] == items[i];
  }

  /** An element that fails after a prefix that succeeds fails the whole list with its error. */
  lemma TenantsOfFailure(items: seq<Context.Value>, i: nat)
    requires i < |items| && TenantsOf(items[..i]).Ok? && TenantOf(items[i]).Err?
    ensures TenantsOf(items) == Err(TenantOf(items[i]).error)
  {
    assert items[..i + 1][..i] == items[..i];
    assert items[..i + 1][i] == items[i];
    TenantsOfFailurePersists(items, i + 1, TenantOf(items[i]).error);
  }

  /** Once a prefix of the list fails, the whole list fails with the same error. */
  lemma {:induction false} TenantsOfFailurePersists(items: seq<Context.Value>, j: nat, e: Exception)
    requires j <= |items| && TenantsOf(items[..j]) == Err(e)
    ensures TenantsOf(items) == Err(e)
    decreases |items| - j
  {
    if j < |items| {
      assert items[..j + 1][..j] == items[..j];
      TenantsOfFailurePersists(items, j + 1, e);
    } else {
      assert items[..j] == items;
    }
  }

  /**
   * `tenant(type)`: the context value under `key`; not a list (or not set) gives no
   * tenants; otherwise the loop over the list, appending one tenant per map element.
   */
  method Tenants(ctx: Context.Ctx, key: string) returns (r: Result<seq<Tenant>>)
    ensures key !in ctx || !ctx[key].ListV? ==> r == Ok([])
    ensures key in ctx && ctx[key].ListV? ==> r == TenantsOf(ctx[key].items)
  {
    var tenants := Context.TryGet(ctx, key);
    var results: seq<Tenant> := [];
    if tenants.Some? && tenants.value.ListV? {
      var t := tenants.value.items;
      var i := 0;
      while i < |t|
        invariant 0 <= i <= |t|
        invariant TenantsOf(t[..i]) == Ok(results)
      {
        var admin := t[i];
        ghost var before := results;
        if admin.MapV? {
          var email := CastToString(Context.Lookup(admin.entries, "email"));
          if email.Err? {
            assert TenantOf(admin) == Err(email.error);
            TenantsOfFailure(t, i);
            return Err(email.error);
          }
          var role := CastToString(Context.Lookup(admin.entries, "role"));
          if role.Err? {
            assert TenantOf(admin) == Err(role.error);
            TenantsOfFailure(t, i);
            return Err(role.error);
          }
          var username := CastToString(Context.Lookup(admin.entries, "username"));
          if username.Err? {
            assert TenantOf(admin) == Err(username.error);
            TenantsOfFailure(t, i);
            return Err(username.error);
          }
          assert TenantOf(admin) == Ok(Some(Tenant(email.value, role.value, username.value)));
          results := results + [Tenant(email.value, role.value, username.value)];
        } else {
          assert TenantOf(admin) == Ok(None);
        }
        TenantsOfStep(t, i);
        assert TenantsOf(t[..i]).value == before;
        assert results == before + if TenantOf(t[i]).value.Some? then [TenantOf(t[i]).value.value] else [];
        i := i + 1;
      }
      assert t[..|t|] == t;
    }
    r := Ok(results);
  }

  /** The tenants keep the order of the map elements and never outnumber the list. */
  lemma TenantsBound(items: seq<Context.Value>)
    requires TenantsOf(items).Ok?
    ensures |TenantsOf(items).value| <= |items|
    ensures forall i :: 0 <= i < |items| && !items[i].MapV? ==> TenantOf(items[i]) == Ok(None)
  {
  }

  // ---------------------------------------------------------------------------
  // The constructor's creation order and dependencies
  // ---------------------------------------------------------------------------

  /** The constructs of the nested stack. */
  datatype Part = Cluster | InterruptQueue | ManagedAddons | NodeGroups | Addons | Observability

  /** The position of a construct in the creation order. */
  function Position(order: seq<Part>, p: Part): (i: nat)
    requires p in order
    ensures i < |order| && order[i] == p
    ensures forall j :: 0 <= j < i ==> order[j] != p
  {
    if order[0] == p then 0 else 1 + Position(order[1..], p)
  }

  /** The stack as it is built: the constructs created so far and the dependencies declared. */
  class EksStack {
    var created: seq<Part>
    var dependencies: seq<(Part, Part)>

    /** Every dependency names two constructs already created, the dependency created first. */
    predicate PointsBackward()
      reads this
    {
      forall k :: 0 <= k < |dependencies| ==>
        && dependencies[k].0 in created && dependencies[k].1 in created
        && Position(created, dependencies[k].1) < Position(created, dependencies[k].0)
    }

    method Create(p: Part)
      modifies this`created
      ensures created == old(created) + [p]
    {
      created := created + [p];
    }

    /** `getNode().addDependency(to)` on `from`. */
    method AddDependency(from: Part, to: Part)
      modifies this`dependencies
      ensures dependencies == old(dependencies) + [(from, to)]
    {
      dependencies := dependencies + [(from, to)];
    }

    /**
     * The constructor: cluster, interrupt queue, managed addons, node groups (depending on
     * the queue), addons (depending on managed addons and node groups), observability
     * (depending on all three). Every dependency points to a construct created earlier.
     */
    constructor ()
      ensures created == [Cluster, InterruptQueue, ManagedAddons, NodeGroups, Addons, Observability]
      ensures dependencies == [(NodeGroups, InterruptQueue),
                               (Addons, ManagedAddons), (Addons, NodeGroups),
                               (Observability, ManagedAddons), (Observability, NodeGroups), (Observability, Addons)]
      ensures PointsBackward()
    {
      created := [];
      dependencies := [];
      new;
      Create(Cluster);
      Create(InterruptQueue);
      Create(ManagedAddons);
      Create(NodeGroups);
      AddDependency(NodeGroups, InterruptQueue);
      Create(Addons);
      AddDependency(Addons, ManagedAddons);
      AddDependency(Addons, NodeGroups);
      Create(Observability);
      AddDependency(Observability, ManagedAddons);
      AddDependency(Observability, NodeGroups);
      AddDependency(Observability, Addons);
      DeclaredDependenciesPointBackward(created, dependencies);
    }
  }

  /** The dependencies the constructor declares all point to constructs created before. */
  lemma DeclaredDependenciesPointBackward(created: seq<Part>, dependencies: seq<(Part, Part)>)
    requires created == [Cluster, InterruptQueue, ManagedAddons, NodeGroups, Addons, Observability]
    requires dependencies == [(NodeGroups, InterruptQueue),
                              (Addons, ManagedAddons), (Addons, NodeGroups),
                              (Observability, ManagedAddons), (Observability, NodeGroups), (Observability, Addons)]
    ensures forall k :: 0 <= k < |dependencies| ==>
      && dependencies[k].0 in created && dependencies[k].1 in created
      && Position(created, dependencies[k].1) < Position(created, dependencies[k].0)
  {
    assert Position(created, InterruptQueue) == 1;
    assert Position(created, ManagedAddons) == 2;
    assert Position(created, NodeGroups) == 3;
    assert Position(created, Addons) == 4;
    assert Position(created, Observability) == 5;
  }

  /**
   * Dependencies that point backward cannot form a cycle: along any chain of dependencies
   * the creation position strictly falls, so no construct depends on itself through it.
   */
  lemma {:induction false} NoCycle(created: seq<Part>, dependencies: seq<(Part, Part)>, chain: seq<Part>)
    requires forall k :: 0 <= k < |dependencies| ==>
      && dependencies[k].0 in created && dependencies[k].1 in created
      && Position(created, dependencies[k].1) < Position(created, dependencies[k].0)
    requires |chain| >= 2
    requires forall i :: 0 <= i < |chain| - 1 ==> (chain[i], chain[i + 1]) in dependencies
    ensures chain[0] in created && chain[|chain| - 1] in created
    ensures Position(created, chain[|chain| - 1]) < Position(created, chain[0])
    decreases |chain|
  {
    assert (chain[0], chain[1]) in dependencies;
    if |chain| > 2 {
      NoCycle(created, dependencies, chain[1..]);
    }
  }
}

=== FILE: environment.dfy ===
/** The `Environment` enum (Environment.java): the deployment environment a template is resolved for. */
module Environments {
  import opened Wrappers
  import Text
  import JavaEnum

  datatype Environment = BOOTSTRAP | PROTOTYPE | PRODUCTION

  const ClassName := "io.stxkxs.model._main.Environment"

  const Members: seq<Environment> := [BOOTSTRAP, PROTOTYPE, PRODUCTION]

  /** `Enum.name()`: the constant's declared name. */
  function Name(e: Environment): string
  {
    match e
    case BOOTSTRAP => "BOOTSTRAP"
    case PROTOTYPE => "PROTOTYPE"
    case PRODUCTION => "PRODUCTION"
  }

  /** `toString()`: the lower-case constant name. */
  function ToString(e: Environment): (r: string)
    ensures r == Text.Lower(Name(e))
  {
    match e
    case BOOTSTRAP => "bootstrap"
    case PROTOTYPE => "prototype"
    case PRODUCTION => "production"
  }

  /** `of(o)`: `valueOf(o.toString().toUpperCase())`; `s` is the text of `o.toString()`. */
  function Of(s: string): (r: Result<Environment>)
    ensures r.Err? ==> r.error == JavaEnum.NoEnumConstant(ClassName, Text.Upper(s))
  {
    JavaEnum.ValueOf(Members, Name, ClassName, Text.Upper(s))
  }

  lemma NamesAreUpperAndDistinct()
    ensures forall e: Environment :: e in Members && Text.Upper(Name(e)) == Name(e)
    ensures JavaEnum.DistinctNames(Members, Name) && JavaEnum.UpperCaseNames(Members, Name)
  {
    forall e: Environment ensures e in Members && Text.Upper(Name(e)) == Name(e) {
      Text.UpperUnchanged(Name(e));
    }
  }

  /** Reading back a member's own text gives that member. */
  lemma OfToString(e: Environment)
    ensures Of(ToString(e)) == Ok(e)
  {
    NamesAreUpperAndDistinct();
    Text.UpperOfLower(Name(e));
    JavaEnum.ValueOfName(Members, Name, ClassName, e);
  }

  /** `of` accepts exactly the members' texts, in any letter case, and fails on everything else. */
  lemma OfIgnoresCase(s: string, e: Environment)
    ensures Of(s) == Ok(e) <==> Text.EqualsIgnoreCase(s, ToString(e))
  {
    NamesAreUpperAndDistinct();
    Text.UpperOfLower(Name(e));
    JavaEnum.UpperCaseLookup(Members, Name, ClassName, s, e);
  }

  lemma OfRejects(s: string)
    requires forall e: Environment :: !Text.EqualsIgnoreCase(s, ToString(e))
    ensures Of(s) == Err(JavaEnum.NoEnumConstant(ClassName, Text.Upper(s)))
  {
    NamesAreUpperAndDistinct();
    forall i | 0 <= i < |Members| ensures !Text.EqualsIgnoreCase(s, Name(Members[i])) {
      assert !Text.EqualsIgnoreCase(s, ToString(Members[i]));
      Text.UpperOfLower(Name(Members[i]));
    }
    JavaEnum.UpperCaseRejects(Members, Name, ClassName, s);
  }

  /** Distinct members print differently. */
  lemma ToStringInjective(a: Environment, b: Environment)
    requires ToString(a) == ToString(b)
    ensures a == b
  {
    OfToString(a);
    OfToString(b);
  }
}

=== FILE: format.dfy ===
/**
 * `Format` (Format.java): construct ids joined with dots, resource names joined with
 * hyphens, descriptions, and export/resource-name prefixes read from the construct context.
 */
module Format {
  import opened Wrappers
  import opened Text
  import Context

  /** `String.format("%s", x)` on a possibly-null string: null prints as "null". */
  function Arg(x: Option<string>): string
  {
    if x.Some? then x.value else "null"
  }

  lemma ReplaceAbsent(s: string, from: char, to: char)
    requires from !in s
    ensures ReplaceChar(s, from, to) == s
  {
  }

  /** `Format.id(s...)`: the segments joined with "." and every "-" turned into ".". */
  function Id(segments: seq<string>): (r: string)
    ensures '-' !in r
    ensures |segments| >= 1 ==> |r| == TotalLength(segments) + |segments| - 1
    ensures |segments| == 0 ==> r == ""
  {
    var joined := Join(".", segments);
    assert |segments| >= 1 ==> |joined| == TotalLength(segments) + |segments| - 1 by {
      if |segments| >= 1 { JoinLength(".", segments); }
    }
    ReplaceChar(joined, '-', '.')
  }

  /** `Format.name(s...)`: `id(s...)` with every "." turned into "-". */
  function Name(segments: seq<string>): (r: string)
    ensures '.' !in r && '-' !in Id(segments) && |r| == |Id(segments)|
    ensures forall i :: 0 <= i < |r| ==> (r[i] == '-' <==> Id(segments)[i] == '.')
    ensures forall i :: 0 <= i < |r| && r[i] != '-' ==> r[i] == Id(segments)[i]
  {
    ReplaceChar(Id(segments), '.', '-')
  }

  /** Applying `name`'s replacement to its own output changes nothing. */
  lemma NameIdempotent(segments: seq<string>)
    ensures ReplaceChar(Name(segments), '.', '-') == Name(segments)
  {
    ReplaceAbsent(Name(segments), '.', '-');
  }

  /** Segments free of "." and "-" are recovered by splitting their id on ".". */
  lemma IdSplit(segments: seq<string>)
    requires |segments| >= 1
    requires forall i :: 0 <= i < |segments| ==> '.' !in segments[i] && '-' !in segments[i]
    ensures Split(Id(segments), '.') == segments
  {
    JoinExcludes(".", segments, '-');
    ReplaceAbsent(Join(".", segments), '-', '.');
    SplitJoin(segments, '.');
  }

  /** Segments free of "." and "-" are recovered by splitting their name on "-". */
  lemma NameSplit(segments: seq<string>)
    requires |segments| >= 1
    requires forall i :: 0 <= i < |segments| ==> '.' !in segments[i] && '-' !in segments[i]
    ensures Split(Name(segments), '-') == segments
  {
    JoinExcludes(".", segments, '-');
    ReplaceAbsent(Join(".", segments), '-', '.');
    assert Name(segments) == Join("-", segments) by {
      JoinReplace(segments);
    }
    SplitJoin(segments, '-');
  }

  /** Re-joining with "-" is the same as joining with "." and replacing, when no segment holds a ".". */
  lemma {:induction false} JoinReplace(segments: seq<string>)
    requires forall i :: 0 <= i < |segments| ==> '.' !in segments[i]
    ensures ReplaceChar(Join(".", segments), '.', '-') == Join("-", segments)
    decreases |segments|
  {
    if |segments| == 1 {
      ReplaceAbsent(segments[0], '.', '-');
    } else if |segments| > 1 {
      JoinReplace(segments[1..]);
      var tail := Join(".", segments[1..]);
      ReplaceAbsent(segments[0], '.', '-');
      assert ReplaceChar(segments[0] + "." + tail, '.', '-')
          == ReplaceChar(segments[0], '.', '-') + "-" + ReplaceChar(tail, '.', '-');
    }
  }

  /**
   * `Format.describe(common, s...)`: `"<organization> <environment> <segments joined by ' '>"`;
   * a null organization or environment prints as "null".
   */
  function Describe(organization: Option<string>, environment: Option<string>, segments: seq<string>): (r: string)
    ensures segments != [] ==> r == Join(" ", [Arg(organization), Arg(environment)] + segments)
    ensures segments == [] ==> r == Arg(organization) + " " + Arg(environment) + " "
  {
    var all := [Arg(organization), Arg(environment)] + segments;
    assert all[1..] == [Arg(environment)] + segments && all[1..][1..] == segments;
    Arg(organization) + " " + Arg(environment) + " " + Join(" ", segments)
  }

  /** Space-free parts are recovered from a description by splitting on " ". */
  lemma DescribeSplit(organization: string, environment: string, segments: seq<string>)
    requires |segments| >= 1
    requires ' ' !in organization && ' ' !in environment
    requires forall i :: 0 <= i < |segments| ==> ' ' !in segments[i]
    ensures Split(Describe(Some(organization), Some(environment), segments), ' ')
      == [organization, environment] + segments
  {
    var all := [organization, environment] + segments;
    assert forall i :: 0 <= i < |all| ==> ' ' !in all[i] by {
      forall i | 0 <= i < |all| ensures ' ' !in all[i] {
        if i >= 2 { assert all[i] == segments[i - 2]; }
      }
    }
    SplitJoin(all, ' ');
  }

  const SynthesizerNameKey := "hosted:synthesizer:name"
  const HostIdKey := "host:id"
  const HostedIdKey := "hosted:id"

  /**
   * The prefix of `exported` and `named`: the synthesizer name when the context sets it,
   * otherwise the host id, which must then be set.
   */
  function Prefix(ctx: Context.Ctx): (r: Result<string>)
    ensures SynthesizerNameKey in ctx ==> r == Ok(Context.Show(ctx[SynthesizerNameKey]))
    ensures SynthesizerNameKey !in ctx && HostIdKey in ctx ==> r == Ok(Context.Show(ctx[HostIdKey]))
    ensures SynthesizerNameKey !in ctx && HostIdKey !in ctx ==> r == Err(MissingContext(HostIdKey))
  {
    match Context.TryGet(ctx, SynthesizerNameKey)
    case Some(v) => Ok(Context.Show(v))
    case None =>
      var id :- Context.Get(ctx, HostIdKey);
      Ok(Context.Show(id))
  }

  /** `Format.exported(scope, suffix)`: prefix, hosted id and suffix with no separator. */
  function Exported(ctx: Context.Ctx, suffix: string): (r: Result<string>)
    ensures r.Ok? <==> Prefix(ctx).Ok? && HostedIdKey in ctx
    ensures r.Ok? ==> r.value == Prefix(ctx).value + Context.Show(ctx[HostedIdKey]) + suffix
    ensures Prefix(ctx).Err? ==> r == Err(MissingContext(HostIdKey))
    ensures Prefix(ctx).Ok? && HostedIdKey !in ctx ==> r == Err(MissingContext(HostedIdKey))
  {
    var prefix :- Prefix(ctx);
    var hostedId :- Context.Get(ctx, HostedIdKey);
    Ok(prefix + Context.Show(hostedId) + suffix)
  }

  /** `Format.named(scope, suffix)`: prefix, hosted id and suffix joined with "-". */
  function Named(ctx: Context.Ctx, suffix: string): (r: Result<string>)
    ensures r.Ok? <==> Prefix(ctx).Ok? && HostedIdKey in ctx
    ensures r.Ok? ==> r.value == Join("-", [Prefix(ctx).value, Context.Show(ctx[HostedIdKey]), suffix])
    ensures Prefix(ctx).Err? ==> r == Err(MissingContext(HostIdKey))
    ensures Prefix(ctx).Ok? && HostedIdKey !in ctx ==> r == Err(MissingContext(HostedIdKey))
  {
    var prefix :- Prefix(ctx);
    var hostedId :- Context.Get(ctx, HostedIdKey);
    Ok(prefix + "-" + Context.Show(hostedId) + "-" + suffix)
  }

  /**
   * `named` and `exported` fail alike, and when the three parts hold no "-", the name
   * splits back into the parts that `exported` concatenates.
   */
  lemma NamedMatchesExported(ctx: Context.Ctx, suffix: string)
    ensures Named(ctx, suffix).Err? <==> Exported(ctx, suffix).Err?
    ensures Named(ctx, suffix).Err? ==> Named(ctx, suffix) == Exported(ctx, suffix)
    ensures (Named(ctx, suffix).Ok? && '-' !in Prefix(ctx).value
             && '-' !in Context.Show(ctx[HostedIdKey]) && '-' !in suffix) ==>
      var parts := Split(Named(ctx, suffix).value, '-');
      |parts| == 3 && parts[0] + parts[1] + parts[2] == Exported(ctx, suffix).value
  {
    if Named(ctx, suffix).Ok? {
      var parts := [Prefix(ctx).value, Context.Show(ctx[HostedIdKey]), suffix];
      if '-' !in parts[0] && '-' !in parts[1] && '-' !in parts[2] {
        SplitJoin(parts, '-');
      }
    }
  }
}

=== FILE: grafana.dfy ===
/**
 * `GrafanaBaseConstruct` (GrafanaBaseConstruct.java): the all-or-nothing reading of the
 * Grafana Cloud settings from the context, which lets the Grafana-related constructs skip
 * themselves when any setting is missing.
 */
module Grafana {
  import opened Wrappers
  import Context

  const KeyKey := "hosted:eks:grafana:key"
  const InstanceIdKey := "hosted:eks:grafana:instanceId"
  const LokiHostKey := "hosted:eks:grafana:lokiHost"
  const LokiUsernameKey := "hosted:eks:grafana:lokiUsername"
  const PrometheusHostKey := "hosted:eks:grafana:prometheusHost"
  const PrometheusUsernameKey := "hosted:eks:grafana:prometheusUsername"
  const TempoHostKey := "hosted:eks:grafana:tempoHost"
  const TempoUsernameKey := "hosted:eks:grafana:tempoUsername"
  const PyroscopeHostKey := "hosted:eks:grafana:pyroscopeHost"

  /** The nine context keys, in the order they are read. */
  const SettingKeys: seq<string> := [KeyKey, InstanceIdKey, LokiHostKey, LokiUsernameKey, PrometheusHostKey,
                                     PrometheusUsernameKey, TempoHostKey, TempoUsernameKey, PyroscopeHostKey]

  /**
   * The nine values handed to the secret's constructor, in argument order: key, loki host
   * and username, prometheus host and username, tempo host and username, instance id,
   * pyroscope host.
   */
  datatype SecretArguments = SecretArguments(
    key: string, lokiHost: string, lokiUsername: string, prometheusHost: string,
    prometheusUsername: string, tempoHost: string, tempoUsername: string,
    instanceId: string, pyroscopeHost: string)

  /** A setting is usable when the context holds a non-empty string under its key. */
  predicate Usable(ctx: Context.Ctx, key: string)
  {
    key in ctx && ctx[key].Str? && ctx[key].s != ""
  }

  /**
   * `getContextValue(scope, key)`: the context value when it is a non-empty string;
   * null (`None`) for a missing key, an empty string or a value of another type.
   */
  function GetContextValue(ctx: Context.Ctx, key: string): (r: Option<string>)
    ensures r.Some? <==> Usable(ctx, key)
    ensures r.Some? ==> ctx[key] == Context.Str(r.value) && r.value != ""
  {
    match Context.TryGet(ctx, key)
    case Some(Str(s)) => if s != "" then Some(s) else None
    case _ => None
  }

  /**
   * `createSecretFromContext(scope)`: the secret's arguments when all nine settings are
   * usable, and null (`None`) as soon as one is not. Every argument is the string the
   * context holds under the matching key.
   */
  function CreateSecretFromContext(ctx: Context.Ctx): (r: Option<SecretArguments>)
    ensures r.Some? <==> forall i :: 0 <= i < |SettingKeys| ==> Usable(ctx, SettingKeys[i])
    ensures r.Some? ==>
      && KeyKey in ctx && ctx[KeyKey] == Context.Str(r.value.key)
      && LokiHostKey in ctx && ctx[LokiHostKey] == Context.Str(r.value.lokiHost)
      && LokiUsernameKey in ctx && ctx[LokiUsernameKey] == Context.Str(r.value.lokiUsername)
      && PrometheusHostKey in ctx && ctx[PrometheusHostKey] == Context.Str(r.value.prometheusHost)
      && PrometheusUsernameKey in ctx && ctx[PrometheusUsernameKey] == Context.Str(r.value.prometheusUsername)
      && TempoHostKey in ctx && ctx[TempoHostKey] == Context.Str(r.value.tempoHost)
      && TempoUsernameKey in ctx && ctx[TempoUsernameKey] == Context.Str(r.value.tempoUsername)
      && InstanceIdKey in ctx && ctx[InstanceIdKey] == Context.Str(r.value.instanceId)
      && PyroscopeHostKey in ctx && ctx[PyroscopeHostKey] == Context.Str(r.value.pyroscopeHost)
  {
    assert SettingKeys[0] == KeyKey && SettingKeys[1] == InstanceIdKey && SettingKeys[2] == LokiHostKey;
    assert SettingKeys[3] == LokiUsernameKey && SettingKeys[4] == PrometheusHostKey;
    assert SettingKeys[5] == PrometheusUsernameKey && SettingKeys[6] == TempoHostKey;
    assert SettingKeys[7] == TempoUsernameKey && SettingKeys[8] == PyroscopeHostKey;
    var key := GetContextValue(ctx, KeyKey);
    var instanceId := GetContextValue(ctx, InstanceIdKey);
    var lokiHost := GetContextValue(ctx, LokiHostKey);
    var lokiUsername := GetContextValue(ctx, LokiUsernameKey);
    var prometheusHost := GetContextValue(ctx, PrometheusHostKey);
    var prometheusUsername := GetContextValue(ctx, PrometheusUsernameKey);
    var tempoHost := GetContextValue(ctx, TempoHostKey);
    var tempoUsername := GetContextValue(ctx, TempoUsernameKey);
    var pyroscopeHost := GetContextValue(ctx, PyroscopeHostKey);
    if key.None? || instanceId.None? || lokiHost.None? || lokiUsername.None?
       || prometheusHost.None? || prometheusUsername.None? || tempoHost.None?
       || tempoUsername.None? || pyroscopeHost.None?
    then None
    else
      Some(SecretArguments(key.value, lokiHost.value, lokiUsername.value, prometheusHost.value,
                           prometheusUsername.value, tempoHost.value, tempoUsername.value,
                           instanceId.value, pyroscopeHost.value))
  }

  /** Removing any one of the nine settings turns the secret off. */
  lemma MissingSettingSkips(ctx: Context.Ctx, key: string)
    requires key in SettingKeys
    ensures CreateSecretFromContext(ctx - {key}).None?
  {
    var i :| 0 <= i < |SettingKeys| && SettingKeys[i] == key;
    assert !Usable(ctx - {key}, SettingKeys[i]);
  }

  /** So does setting any one of them to the empty string. */
  lemma EmptySettingSkips(ctx: Context.Ctx, key: string)
    requires key in SettingKeys
    ensures CreateSecretFromContext(ctx[key := Context.Str("")]).None?
  {
    var i :| 0 <= i < |SettingKeys| && SettingKeys[i] == key;
    assert !Usable(ctx[key := Context.Str("")], SettingKeys[i]);
  }

  /** Only the nine settings matter: contexts that agree on them give the same secret. */
  lemma OnlySettingsMatter(ctx1: Context.Ctx, ctx2: Context.Ctx)
    requires forall i :: 0 <= i < |SettingKeys| ==>
      (SettingKeys[i] in ctx1 <==> SettingKeys[i] in ctx2)
      && (SettingKeys[i] in ctx1 ==> ctx1[SettingKeys[i]] == ctx2[SettingKeys[i]])
    ensures CreateSecretFromContext(ctx1) == CreateSecretFromContext(ctx2)
  {
    assert SettingKeys[0] == KeyKey && SettingKeys[1] == InstanceIdKey && SettingKeys[2] == LokiHostKey;
    assert SettingKeys[3] == LokiUsernameKey && SettingKeys[4] == PrometheusHostKey;
    assert SettingKeys[5] == PrometheusUsernameKey && SettingKeys[6] == TempoHostKey;
    assert SettingKeys[7] == TempoUsernameKey && SettingKeys[8] == PyroscopeHostKey;
  }

  /** A context holding nine non-empty strings under the nine keys gives exactly those strings back. */
  lemma SecretFromSettings(ctx: Context.Ctx, a: SecretArguments)
    requires a.key != "" && a.lokiHost != "" && a.lokiUsername != "" && a.prometheusHost != ""
    requires a.prometheusUsername != "" && a.tempoHost != "" && a.tempoUsername != ""
    requires a.instanceId != "" && a.pyroscopeHost != ""
    ensures CreateSecretFromContext(ctx[KeyKey := Context.Str(a.key)]
                                       [InstanceIdKey := Context.Str(a.instanceId)]
                                       [LokiHostKey := Context.Str(a.lokiHost)]
                                       [LokiUsernameKey := Context.Str(a.lokiUsername)]
                                       [PrometheusHostKey := Context.Str(a.prometheusHost)]
                                       [PrometheusUsernameKey := Context.Str(a.prometheusUsername)]
                                       [TempoHostKey := Context.Str(a.tempoHost)]
                                       [TempoUsernameKey := Context.Str(a.tempoUsername)]
                                       [PyroscopeHostKey := Context.Str(a.pyroscopeHost)]) == Some(a)
  {
  }
}

=== FILE: java_enum.dfy ===
/** `Enum.valueOf`: the lookup of an enum constant by its exact name. */
module JavaEnum {
  import opened Wrappers
  import Text

  /** Names are pairwise distinct, as Java requires of the constants of one enum. */
  ghost predicate DistinctNames<E>(members: seq<E>, name: E -> string)
  {
    forall i, j :: 0 <= i < j < |members| ==> name(members[i]) != name(members[j])
  }

  /** The message of the exception `Enum.valueOf` throws for an unknown name. */
  function NoEnumConstant(className: string, s: string): Exception
  {
    IllegalArgument("No enum constant " + className + "." + s)
  }

  /**
   * `Enum.valueOf(cls, s)`: the member whose name is exactly `s`; otherwise an
   * IllegalArgumentException "No enum constant <class>.<s>".
   */
  function ValueOf<E>(members: seq<E>, name: E -> string, className: string, s: string): (r: Result<E>)
    ensures r.Ok? ==> r.value in members && name(r.value) == s
    ensures r.Err? ==> r.error == NoEnumConstant(className, s)
    ensures r.Err? <==> forall i :: 0 <= i < |members| ==> name(members[i]) != s
  {
    if members == [] then Err(NoEnumConstant(className, s))
    else if name(members[0]) == s then Ok(members[0])
    else
      var r := ValueOf(members[1..], name, className, s);
      assert forall i :: 1 <= i < |members| ==> members[i] == members[1..][i - 1];
      r
  }

  /** With distinct names, looking a member up by its own name finds that member. */
  lemma {:induction false} ValueOfName<E>(members: seq<E>, name: E -> string, className: string, e: E)
    requires e in members
    requires DistinctNames(members, name)
    ensures ValueOf(members, name, className, name(e)) == Ok(e)
  {
    if members[0] != e {
      var k :| 0 <= k < |members| && members[k] == e;
      assert name(members[0]) != name(e);
      assert members[1..][k - 1] == e;
      assert DistinctNames(members[1..], name) by {
        forall i, j | 0 <= i < j < |members| - 1
          ensures name(members[1..][i]) != name(members[1..][j])
        {
          assert members[1..][i] == members[i + 1] && members[1..][j] == members[j + 1];
        }
      }
      ValueOfName(members[1..], name, className, e);
    }
  }

  /** Every constant name is its own upper case, as for enums whose constants are upper case. */
  ghost predicate UpperCaseNames<E>(members: seq<E>, name: E -> string)
  {
    forall i :: 0 <= i < |members| ==> Text.Upper(name(members[i])) == name(members[i])
  }

  /**
   * `valueOf(s.toUpperCase())` over upper-case names reads `s` case-insensitively: it finds
   * a member exactly when `s` equals that member's name up to case.
   */
  lemma UpperCaseLookup<E>(members: seq<E>, name: E -> string, className: string, s: string, e: E)
    requires e in members
    requires DistinctNames(members, name) && UpperCaseNames(members, name)
    ensures ValueOf(members, name, className, Text.Upper(s)) == Ok(e) <==> Text.EqualsIgnoreCase(s, name(e))
  {
    var k :| 0 <= k < |members| && members[k] == e;
    assert Text.Upper(name(e)) == name(e);
    if Text.EqualsIgnoreCase(s, name(e)) {
      ValueOfName(members, name, className, e);
    }
  }

  /** ... and fails exactly when `s` equals no member's name up to case. */
  lemma UpperCaseRejects<E>(members: seq<E>, name: E -> string, className: string, s: string)
    requires UpperCaseNames(members, name)
    ensures ValueOf(members, name, className, Text.Upper(s)).Err? <==>
      forall i :: 0 <= i < |members| ==> !Text.EqualsIgnoreCase(s, name(members[i]))
  {
  }
}

=== FILE: owner.dfy ===
/** The `Owner` enum (Owner.java): who owns a DynamoDB table's encryption key. */
module Owners {
  import opened Wrappers
  import Text
  import JavaEnum

  datatype Owner = AWS | DYNAMODB | SELF

  const ClassName := "io.stxkxs.model.aws.dynamodb.Owner"

  const Members: seq<Owner> := [AWS, DYNAMODB, SELF]

  /** `Enum.name()`: the constant's declared name. */
  function Name(e: Owner): string
  {
    match e
    case AWS => "AWS"
    case DYNAMODB => "DYNAMODB"
    case SELF => "SELF"
  }

  /** `toString()`: the lower-case constant name. */
  function ToString(e: Owner): (r: string)
    ensures r == Text.Lower(Name(e))
  {
    match e
    case AWS => "aws"
    case DYNAMODB => "dynamodb"
    case SELF => "self"
  }

  /** `of(o)`: `valueOf(o.toString().toUpperCase())`; `s` is the text of `o.toString()`. */
  function Of(s: string): (r: Result<Owner>)
    ensures r.Err? ==> r.error == JavaEnum.NoEnumConstant(ClassName, Text.Upper(s))
  {
    JavaEnum.ValueOf(Members, Name, ClassName, Text.Upper(s))
  }

  lemma NamesAreUpperAndDistinct()
    ensures forall e: Owner :: e in Members && Text.Upper(Name(e)) == Name(e)
    ensures JavaEnum.DistinctNames(Members, Name) && JavaEnum.UpperCaseNames(Members, Name)
  {
    forall e: Owner ensures e in Members && Text.Upper(Name(e)) == Name(e) {
      Text.UpperUnchanged(Name(e));
    }
  }

  /** Reading back a member's own text gives that member. */
  lemma OfToString(e: Owner)
    ensures Of(ToString(e)) == Ok(e)
  {
    NamesAreUpperAndDistinct();
    Text.UpperOfLower(Name(e));
    JavaEnum.ValueOfName(Members, Name, ClassName, e);
  }

  /** `of` accepts exactly the members' texts, in any letter case, and fails on everything else. */
  lemma OfIgnoresCase(s: string, e: Owner)
    ensures Of(s) == Ok(e) <==> Text.EqualsIgnoreCase(s, ToString(e))
  {
    NamesAreUpperAndDistinct();
    Text.UpperOfLower(Name(e));
    JavaEnum.UpperCaseLookup(Members, Name, ClassName, s, e);
  }

  lemma OfRejects(s: string)
    requires forall e: Owner :: !Text.EqualsIgnoreCase(s, ToString(e))
    ensures Of(s) == Err(JavaEnum.NoEnumConstant(ClassName, Text.Upper(s)))
  {
    NamesAreUpperAndDistinct();
    forall i | 0 <= i < |Members| ensures !Text.EqualsIgnoreCase(s, Name(Members[i])) {
      assert !Text.EqualsIgnoreCase(s, ToString(Members[i]));
      Text.UpperOfLower(Name(Members[i]));
    }
    JavaEnum.UpperCaseRejects(Members, Name, ClassName, s);
  }

  /** Distinct members print differently. */
  lemma ToStringInjective(a: Owner, b: Owner)
    requires ToString(a) == ToString(b)
    ensures a == b
  {
    OfToString(a);
    OfToString(b);
  }
}

=== FILE: pipeline.dfy ===
/**
 * `PipelineConstruct` (PipelineConstruct.java): the pipeline variables handed to CodePipeline,
 * obtained by sorting the configured variables, turning each into a CDK variable and keeping,
 * for every name, the first variable in sorted order (a `LinkedHashMap` that keeps the
 * existing entry on a collision, so names stay in first-occurrence order).
 */
module Pipelines {
  import opened Wrappers

  /** A configured pipeline variable: its name and its default value (possibly null). */
  datatype Variable = Variable(name: string, defaults: Option<string>)

  /** CDK codepipeline `Variable`, as built from a configured variable. */
  datatype PipelineVariable = PipelineVariable(variableName: string, defaultValue: Option<string>)

  /** The natural order of configured variables (`compareTo`), given as a parameter. */
  type Order = (Variable, Variable) -> bool

  /** `compareTo` is a total preorder: any two variables compare, and comparison is transitive. */
  ghost predicate TotalPreorder(le: Order)
  {
    && (forall a, b :: le(a, b) || le(b, a))
    && (forall a, b, c :: le(a, b) && le(b, c) ==> le(a, c))
  }

  ghost predicate Sorted(le: Order, s: seq<Variable>)
  {
    forall i, j :: 0 <= i < j < |s| ==> le(s[i], s[j])
  }

  // ---------------------------------------------------------------------------
  // sorted()
  // ---------------------------------------------------------------------------

  /** Inserts `x` after every element not greater than it, so equal elements keep their order. */
  function Insert(le: Order, x: Variable, s: seq<Variable>): (r: seq<Variable>)
    ensures multiset(r) == multiset(s) + multiset{x}
  {
    if s == [] then [x]
    else if le(x, s[0]) && !le(s[0], x) then [x] + s
    else
      assert s == [s[0]] + s[1..];
      [s[0]] + Insert(le, x, s[1..])
  }

  /** `stream().sorted()`: a stable sort, inserting the variables one by one in list order. */
  function Sort(le: Order, s: seq<Variable>): (r: seq<Variable>)
    ensures multiset(r) == multiset(s)
  {
    if s == [] then []
    else
      assert s == s[..|s| - 1] + [s[|s| - 1]];
      Insert(le, s[|s| - 1], Sort(le, s[..|s| - 1]))
  }

  lemma {:induction false} InsertSorted(le: Order, x: Variable, s: seq<Variable>)
    requires TotalPreorder(le) && Sorted(le, s)
    ensures Sorted(le, Insert(le, x, s))
  {
    if s != [] && !(le(x, s[0]) && !le(s[0], x)) {
      InsertSorted(le, x, s[1..]);
      var rest := Insert(le, x, s[1..]);
      forall j | 0 <= j < |rest| ensures le(s[0], rest[j]) {
        assert rest[j] in multiset(rest);
        if rest[j] != x {
          assert rest[j] in multiset(s[1..]);
          var k :| 0 <= k < |s[1..]| && s[1..][k] == rest[j];
          assert s[k + 1] == rest[j];
        }
      }
    }
  }

  /** The sort orders the variables and keeps every one of them (the `ensures` of `Sort`). */
  lemma {:induction false} SortSorted(le: Order, s: seq<Variable>)
    requires TotalPreorder(le)
    ensures Sorted(le, Sort(le, s))
  {
    if s != [] {
      SortSorted(le, s[..|s| - 1]);
      InsertSorted(le, s[|s| - 1], Sort(le, s[..|s| - 1]));
    }
  }

  /** Neither variable is ordered before the other. */
  predicate Equivalent(le: Order, a: Variable, b: Variable)
  {
    le(a, b) && le(b, a)
  }

  /** The variables of `s` equivalent to `v` under the order, in the order `s` has them. */
  function Equivalents(le: Order, v: Variable, s: seq<Variable>): (r: seq<Variable>)
    ensures forall i :: 0 <= i < |r| ==> r[i] in s && Equivalent(le, r[i], v)
  {
    if s == [] then []
    else (if Equivalent(le, s[0], v) then [s[0]] else []) + Equivalents(le, v, s[1..])
  }

  lemma {:induction false} EquivalentsAppend(le: Order, v: Variable, s: seq<Variable>, x: Variable)
    ensures Equivalents(le, v, s + [x]) == Equivalents(le, v, s) + if Equivalent(le, x, v) then [x] else []
  {
    if s != [] {
      assert (s + [x])[1..] == s[1..] + [x];
      EquivalentsAppend(le, v, s[1..], x);
    }
  }

  /**
   * Inserting into a sorted list places `x` after every variable equivalent to it, so among
   * the variables equivalent to any `v`, `x` comes last.
   */
  lemma {:induction false} InsertEquivalents(le: Order, v: Variable, x: Variable, s: seq<Variable>)
    requires TotalPreorder(le) && Sorted(le, s)
    ensures Equivalents(le, v, Insert(le, x, s)) == Equivalents(le, v, s) + if Equivalent(le, x, v) then [x] else []
  {
    if s == [] {
    } else if le(x, s[0]) && !le(s[0], x) {
      InsertFrontEquivalents(le, v, x, s);
    } else {
      var rest := Insert(le, x, s[1..]);
      SortedTail(le, s);
      InsertEquivalents(le, v, x, s[1..]);
      EquivalentsCons(le, v, s[0], rest);
      var head := if Equivalent(le, s[0], v) then [s[0]] else [];
      var tail := if Equivalent(le, x, v) then [x] else [];
      calc {
        Equivalents(le, v, Insert(le, x, s));
        Equivalents(le, v, [s[0]] + rest);
        head + Equivalents(le, v, rest);
        head + (Equivalents(le, v, s[1..]) + tail);
        (head + Equivalents(le, v, s[1..])) + tail;
        Equivalents(le, v, s) + tail;
      }
    }
  }

  /** Inserting in front of a sorted list that starts above `x`. */
  lemma InsertFrontEquivalents(le: Order, v: Variable, x: Variable, s: seq<Variable>)
    requires TotalPreorder(le) && Sorted(le, s)
    requires s != [] && le(x, s[0]) && !le(s[0], x)
    ensures Equivalents(le, v, Insert(le, x, s)) == Equivalents(le, v, s) + if Equivalent(le, x, v) then [x] else []
  {
    assert Insert(le, x, s) == [x] + s;
    EquivalentsCons(le, v, x, s);
    if Equivalent(le, x, v) {
      AboveNotEquivalent(le, v, x, s);
    }
  }

  lemma EquivalentsCons(le: Order, v: Variable, y: Variable, s: seq<Variable>)
    ensures Equivalents(le, v, [y] + s) == (if Equivalent(le, y, v) then [y] else []) + Equivalents(le, v, s)
  {
    assert ([y] + s)[1..] == s;
  }

  lemma SortedTail(le: Order, s: seq<Variable>)
    requires Sorted(le, s) && s != []
    ensures Sorted(le, s[1..])
  {
    forall i, j | 0 <= i < j < |s| - 1 ensures le(s[1..][i], s[1..][j]) {
      assert s[1..][i] == s[i + 1] && s[1..][j] == s[j + 1];
    }
  }

  /** A sorted list whose first variable is above `x` holds nothing equivalent to `x`'s class. */
  lemma AboveNotEquivalent(le: Order, v: Variable, x: Variable, s: seq<Variable>)
    requires TotalPreorder(le) && Sorted(le, s)
    requires s != [] && !le(s[0], x) && Equivalent(le, x, v)
    ensures Equivalents(le, v, s) == []
  {
    forall k | 0 <= k < |s| ensures !Equivalent(le, s[k], v) {
      assert k == 0 || le(s[0], s[k]);
    }
  }

  /**
   * The sort is stable: for every variable `v`, the variables equivalent to it appear in
   * the sorted list in the same order as in the configured one.
   */
  lemma {:induction false} SortStable(le: Order, v: Variable, s: seq<Variable>)
    requires TotalPreorder(le)
    ensures Equivalents(le, v, Sort(le, s)) == Equivalents(le, v, s)
  {
    if s != [] {
      var init, x := s[..|s| - 1], s[|s| - 1];
      var tail := if Equivalent(le, x, v) then [x] else [];
      SortStable(le, v, init);
      SortSorted(le, init);
      InsertEquivalents(le, v, x, Sort(le, init));
      EquivalentsAppend(le, v, init, x);
      assert s == init + [x];
      calc {
        Equivalents(le, v, Sort(le, s));
        Equivalents(le, v, Insert(le, x, Sort(le, init)));
        Equivalents(le, v, Sort(le, init)) + tail;
        Equivalents(le, v, init) + tail;
        Equivalents(le, v, s);
      }
    }
  }

  // ---------------------------------------------------------------------------
  // collect(toMap(name, variable, keep existing, LinkedHashMap::new))
  // ---------------------------------------------------------------------------

  /** The names of a list of variables. */
  function Names(s: seq<Variable>): set<string>
  {
    set v | v in s :: v.name
  }

  /** The names of a non-empty list: the head's name and the names of the tail. */
  lemma NamesCons(s: seq<Variable>)
    requires s != []
    ensures Names(s) == {s[0].name} + Names(s[1..])
  {
    assert s == [s[0]] + s[1..];
  }

  /**
   * The position of the first variable with a given name, or the length of the list when
   * no variable has that name.
   */
  function FirstIndex(s: seq<Variable>, n: string): (k: nat)
    ensures k <= |s|
    ensures k < |s| ==> s[k].name == n
    ensures forall j :: 0 <= j < k ==> s[j].name != n
  {
    if s == [] then 0
    else if s[0].name == n then 0
    else 1 + FirstIndex(s[1..], n)
  }

  /**
   * The map collection, visiting the variables in order: a variable whose name is already
   * a key (`seen`) is dropped, any other one is appended and its name becomes a key.
   */
  function KeepFirst(s: seq<Variable>, seen: set<string>): (r: seq<Variable>)
    ensures |r| <= |s|
    ensures forall i :: 0 <= i < |r| ==> r[i].name !in seen
    ensures forall i, j :: 0 <= i < j < |r| ==> r[i].name != r[j].name
  {
    if s == [] then []
    else if s[0].name in seen then KeepFirst(s[1..], seen)
    else [s[0]] + KeepFirst(s[1..], seen + {s[0].name})
  }

  /** Every name not yet a key ends up as one: the kept names are those of the list minus `seen`. */
  lemma {:induction false} KeepFirstNames(s: seq<Variable>, seen: set<string>)
    ensures Names(KeepFirst(s, seen)) == Names(s) - seen
  {
    if s != [] {
      assert s == [s[0]] + s[1..];
      assert Names(s) == {s[0].name} + Names(s[1..]);
      if s[0].name in seen {
        KeepFirstNames(s[1..], seen);
      } else {
        var rest := KeepFirst(s[1..], seen + {s[0].name});
        KeepFirstNames(s[1..], seen + {s[0].name});
        assert Names([s[0]] + rest) == {s[0].name} + Names(rest);
      }
    }
  }

  /** Positions in the tail of a list whose head has another name shift by one. */
  lemma FirstIndexTail(s: seq<Variable>, n: string)
    requires s != [] && s[0].name != n
    ensures FirstIndex(s, n) == 1 + FirstIndex(s[1..], n)
  {
  }

  /** The variable kept at position `i` is the first one in the list with its name. */
  lemma {:induction false} KeepFirstIsFirst(s: seq<Variable>, seen: set<string>, i: nat)
    requires i < |KeepFirst(s, seen)|
    ensures var r := KeepFirst(s, seen);
      FirstIndex(s, r[i].name) < |s| && r[i] == s[FirstIndex(s, r[i].name)]
  {
    var r := KeepFirst(s, seen);
    if s[0].name in seen {
      KeepFirstIsFirst(s[1..], seen, i);
      FirstIndexTail(s, r[i].name);
    } else if i > 0 {
      KeepFirstCons(s, seen, i);
      KeepFirstIsFirst(s[1..], seen + {s[0].name}, i - 1);
      FirstIndexTail(s, r[i].name);
    }
  }

  /**
   * When the head is kept, it is followed by what the tail keeps with its name added to the
   * keys: position `i` of the result is position `i - 1` of the tail's.
   */
  lemma KeepFirstCons(s: seq<Variable>, seen: set<string>, i: nat)
    requires 0 < i < |KeepFirst(s, seen)| && s != [] && s[0].name !in seen
    ensures i - 1 < |KeepFirst(s[1..], seen + {s[0].name})|
    ensures KeepFirst(s, seen)[i] == KeepFirst(s[1..], seen + {s[0].name})[i - 1]
  {
    var rest := KeepFirst(s[1..], seen + {s[0].name});
    assert KeepFirst(s, seen) == [s[0]] + rest;
  }

  /** The kept variables come in the order in which their names first appear in the list. */
  lemma {:induction false} KeepFirstOrder(s: seq<Variable>, seen: set<string>, i: nat, j: nat)
    requires i < j < |KeepFirst(s, seen)|
    ensures FirstIndex(s, KeepFirst(s, seen)[i].name) < FirstIndex(s, KeepFirst(s, seen)[j].name)
    decreases |s|, 2
  {
    if s[0].name in seen {
      KeepFirstOrderSkipped(s, seen, i, j);
    } else {
      KeepFirstOrderKept(s, seen, i, j);
    }
  }

  /** `KeepFirstOrder` when the head's name is already a key. */
  lemma {:induction false} KeepFirstOrderSkipped(s: seq<Variable>, seen: set<string>, i: nat, j: nat)
    requires i < j < |KeepFirst(s, seen)| && s[0].name in seen
    ensures FirstIndex(s, KeepFirst(s, seen)[i].name) < FirstIndex(s, KeepFirst(s, seen)[j].name)
    decreases |s|, 0
  {
    var rest := KeepFirst(s[1..], seen);
    assert KeepFirst(s, seen) == rest;
    KeepFirstOrder(s[1..], seen, i, j);
    FirstIndexTail(s, rest[i].name);
    FirstIndexTail(s, rest[j].name);
  }

  /** `KeepFirstOrder` when the head is kept. */
  lemma {:induction false} KeepFirstOrderKept(s: seq<Variable>, seen: set<string>, i: nat, j: nat)
    requires i < j < |KeepFirst(s, seen)| && s[0].name !in seen
    ensures FirstIndex(s, KeepFirst(s, seen)[i].name) < FirstIndex(s, KeepFirst(s, seen)[j].name)
    decreases |s|, 1
  {
    var r := KeepFirst(s, seen);
    KeepFirstCons(s, seen, j);
    if i == 0 {
      assert r[0] == s[0];
      FirstIndexTail(s, r[j].name);
    } else {
      KeepFirstCons(s, seen, i);
      KeepFirstOrder(s[1..], seen + {s[0].name}, i - 1, j - 1);
      FirstIndexTail(s, r[i].name);
      FirstIndexTail(s, r[j].name);
    }
  }

  /** With pairwise distinct names, a list has as many names as elements. */
  lemma {:induction false} DistinctNamesCount(s: seq<Variable>)
    requires forall i, j :: 0 <= i < j < |s| ==> s[i].name != s[j].name
    ensures |Names(s)| == |s|
  {
    if s != [] {
      var t := s[1..];
      NamesCons(s);
      forall v | v in t ensures v.name != s[0].name {
        var k :| 0 <= k < |t| && t[k] == v;
        assert s[k + 1] == v;
      }
      assert s[0].name !in Names(t);
      assert forall i, j :: 0 <= i < j < |t| ==> t[i].name != t[j].name by {
        forall i, j | 0 <= i < j < |t| ensures t[i].name != t[j].name {
          assert t[i] == s[i + 1] && t[j] == s[j + 1];
        }
      }
      DistinctNamesCount(t);
    }
  }

  // ---------------------------------------------------------------------------
  // The whole pipeline
  // ---------------------------------------------------------------------------

  function Build(v: Variable): (r: PipelineVariable)
    ensures r.variableName == v.name && r.defaultValue == v.defaults
  {
    PipelineVariable(v.name, v.defaults)
  }

  /** The configured variables, sorted, one per name. */
  function Kept(le: Order, vs: seq<Variable>): (r: seq<Variable>)
    ensures |r| <= |vs|
    ensures forall i :: 0 <= i < |r| ==> r[i] in vs
    ensures forall i, j :: 0 <= i < j < |r| ==> r[i].name != r[j].name
  {
    var kept := KeepFirst(Sort(le, vs), {});
    assert forall i :: 0 <= i < |kept| ==> kept[i] in vs by {
      forall i | 0 <= i < |kept| ensures kept[i] in vs {
        var sorted := Sort(le, vs);
        KeepFirstIsFirst(sorted, {}, i);
        assert kept[i] in sorted;
        assert kept[i] in multiset(sorted);
      }
    }
    kept
  }

  /**
   * The variables handed to the pipeline builder: sorted, turned into CDK variables, one per
   * name. There is at most one variable per name, each built unchanged from a configured
   * variable, and never more than were configured.
   */
  function PipelineVariables(le: Order, vs: seq<Variable>): (r: seq<PipelineVariable>)
    ensures |r| <= |vs|
    ensures forall i, j :: 0 <= i < j < |r| ==> r[i].variableName != r[j].variableName
    ensures forall i :: 0 <= i < |r| ==> Variable(r[i].variableName, r[i].defaultValue) in vs
  {
    var kept := Kept(le, vs);
    var r := seq(|kept|, i requires 0 <= i < |kept| => Build(kept[i]));
    forall i, j | 0 <= i < j < |r| ensures r[i].variableName != r[j].variableName {
      assert r[i].variableName == kept[i].name && r[j].variableName == kept[j].name;
    }
    forall i | 0 <= i < |r| ensures Variable(r[i].variableName, r[i].defaultValue) in vs {
      assert Variable(r[i].variableName, r[i].defaultValue) == kept[i];
    }
    r
  }

  /** Sorting keeps the names: the sorted list has the same names as the configured one. */
  lemma SortNames(le: Order, vs: seq<Variable>)
    ensures Names(Sort(le, vs)) == Names(vs)
  {
    var sorted := Sort(le, vs);
    forall v ensures v in sorted <==> v in vs {
      assert v in sorted <==> v in multiset(sorted);
      assert v in vs <==> v in multiset(vs);
    }
  }

  /** Every configured name is handed to the pipeline, and no other. */
  lemma VariablesCoverNames(le: Order, vs: seq<Variable>)
    ensures forall n :: n in Names(vs) <==>
      exists i :: 0 <= i < |PipelineVariables(le, vs)| && PipelineVariables(le, vs)[i].variableName == n
  {
    var kept := Kept(le, vs);
    var r := PipelineVariables(le, vs);
    KeepFirstNames(Sort(le, vs), {});
    SortNames(le, vs);
    assert Names(kept) == Names(vs);
    forall n ensures n in Names(vs) <==> exists i :: 0 <= i < |r| && r[i].variableName == n {
      if n in Names(vs) {
        var v :| v in kept && v.name == n;
        var i :| 0 <= i < |kept| && kept[i] == v;
        assert r[i].variableName == n;
      }
      if exists i :: 0 <= i < |r| && r[i].variableName == n {
        var i :| 0 <= i < |r| && r[i].variableName == n;
        assert kept[i] in kept;
      }
    }
  }

  /**
   * The variable kept for a name is the first of that name in sorted order, and the names
   * come in their first-occurrence order in the sorted list.
   */
  lemma VariablesKeepFirst(le: Order, vs: seq<Variable>)
    ensures var sorted, r := Sort(le, vs), PipelineVariables(le, vs);
      && (forall i :: 0 <= i < |r| ==>
            FirstIndex(sorted, r[i].variableName) < |sorted| && r[i] == Build(sorted[FirstIndex(sorted, r[i].variableName)]))
      && (forall i, j :: 0 <= i < j < |r| ==>
            FirstIndex(sorted, r[i].variableName) < FirstIndex(sorted, r[j].variableName))
  {
    var sorted, r := Sort(le, vs), PipelineVariables(le, vs);
    forall i | 0 <= i < |r|
      ensures FirstIndex(sorted, r[i].variableName) < |sorted|
      ensures r[i] == Build(sorted[FirstIndex(sorted, r[i].variableName)])
    {
      BuiltFromKept(le, vs, i);
      KeepFirstIsFirst(sorted, {}, i);
    }
    forall i, j | 0 <= i < j < |r|
      ensures FirstIndex(sorted, r[i].variableName) < FirstIndex(sorted, r[j].variableName)
    {
      BuiltFromKept(le, vs, i);
      BuiltFromKept(le, vs, j);
      KeepFirstOrder(sorted, {}, i, j);
    }
  }

  /** Position `i` of the pipeline's variables is built from position `i` of the kept ones. */
  lemma BuiltFromKept(le: Order, vs: seq<Variable>, i: nat)
    requires i < |PipelineVariables(le, vs)|
    ensures |Kept(le, vs)| == |PipelineVariables(le, vs)|
    ensures Kept(le, vs) == KeepFirst(Sort(le, vs), {})
    ensures PipelineVariables(le, vs)[i] == Build(Kept(le, vs)[i])
  {
  }

  /** The sorted list the variables are taken from is ordered by `compareTo`. */
  lemma VariablesSorted(le: Order, vs: seq<Variable>)
    requires TotalPreorder(le)
    ensures Sorted(le, Sort(le, vs)) && multiset(Sort(le, vs)) == multiset(vs)
  {
    SortSorted(le, vs);
  }

  /** With pairwise distinct names, every configured variable is kept. */
  lemma VariablesDistinct(le: Order, vs: seq<Variable>)
    requires forall i, j :: 0 <= i < j < |vs| ==> vs[i].name != vs[j].name
    ensures |PipelineVariables(le, vs)| == |vs|
  {
    var kept := Kept(le, vs);
    KeepFirstNames(Sort(le, vs), {});
    SortNames(le, vs);
    DistinctNamesCount(vs);
    DistinctNamesCount(kept);
  }
}

=== FILE: principal.dfy ===
/**
 * `Principal` (Principal.java): the translation of a principal record, and of the principals
 * nested in its `composite` list, into the IAM principal a trust policy names, plus the
 * web-identity principal with the OIDC conditions that bind an EKS workload to a role.
 */
module Principals {
  import opened Wrappers
  import Context
  import Text

  /** The principal types the translation dispatches on; `Other` stands for any further member. */
  datatype PrincipalType = AWS | ACCOUNT | FEDERATED | ARN | SERVICE | STAR | Other(name: string)

  /** IAM policy conditions (`Map<String, Object>`), possibly null. */
  type Conditions = Option<map<string, Context.Value>>

  /**
   * The principal record: type, identifier, federated action, nested principals, conditions.
   * A null `composite` list behaves exactly as an empty one, so both are the empty sequence.
   */
  datatype Principal = Principal(
    kind: PrincipalType,
    value: string,
    action: Option<string>,
    composite: seq<Principal>,
    conditions: Conditions)

  /** The OIDC condition block: one `StringEquals` whose claim map is registered under `id`. */
  datatype WebIdentityCondition = StringEquals(id: string, claims: map<string, string>)

  /** The CDK principals the translation produces. A composite carries no conditions. */
  datatype IamPrincipal =
    | AccountPrincipal(account: string, conditions: Conditions)
    | FederatedPrincipal(federated: string, conditions: Conditions, assumeRoleAction: Option<string>, sessionTags: bool)
    | ArnPrincipal(arn: string, conditions: Conditions)
    | ServicePrincipal(service: string, conditions: Conditions)
    | StarPrincipal(conditions: Conditions)
    | CompositePrincipal(members: seq<IamPrincipal>)
    | WebIdentityPrincipal(provider: string, condition: WebIdentityCondition)

  function UnknownType(value: string): Exception
  {
    IllegalState("unknown principal type " + value)
  }

  /**
   * The principal for the record's own type, before any composite is formed. `withConditions`
   * requires its map, so a null conditions map fails for every type but FEDERATED, whose
   * constructor takes the map as it is.
   */
  function Base(p: Principal): (r: Result<IamPrincipal>)
    ensures r.Err? <==> p.kind.Other? || (p.kind != FEDERATED && p.conditions.None?)
    ensures r.Err? && p.kind.Other? ==> r.error == UnknownType(p.value)
    ensures r.Err? && !p.kind.Other? ==> r.error == NullPointer
    ensures (p.kind == AWS || p.kind == ACCOUNT) && p.conditions.Some? <==> r.Ok? && r.value.AccountPrincipal?
    ensures p.kind == FEDERATED <==> r.Ok? && r.value.FederatedPrincipal?
    ensures p.kind == ARN && p.conditions.Some? <==> r.Ok? && r.value.ArnPrincipal?
    ensures p.kind == SERVICE && p.conditions.Some? <==> r.Ok? && r.value.ServicePrincipal?
    ensures p.kind == STAR && p.conditions.Some? <==> r.Ok? && r.value.StarPrincipal?
    ensures r.Ok? ==> !r.value.CompositePrincipal? && !r.value.WebIdentityPrincipal? && r.value.conditions == p.conditions
    ensures r.Ok? && r.value.FederatedPrincipal? ==>
      r.value.federated == p.value && r.value.assumeRoleAction == p.action && r.value.sessionTags
    ensures r.Ok? && r.value.AccountPrincipal? ==> r.value.account == p.value
    ensures r.Ok? && r.value.ArnPrincipal? ==> r.value.arn == p.value
    ensures r.Ok? && r.value.ServicePrincipal? ==> r.value.service == p.value
  {
    match p.kind
    case FEDERATED => Ok(FederatedPrincipal(p.value, p.conditions, p.action, true))
    case Other(_) => Err(UnknownType(p.value))
    case _ =>
      if p.conditions.None? then Err(NullPointer)
      else if p.kind == ARN then Ok(ArnPrincipal(p.value, p.conditions))
      else if p.kind == SERVICE then Ok(ServicePrincipal(p.value, p.conditions))
      else if p.kind == STAR then Ok(StarPrincipal(p.conditions))
      else Ok(AccountPrincipal(p.value, p.conditions))
  }

  /** The principals of a tree in the order the translation visits them: the record, then each nested tree. */
  function Flatten(p: Principal): seq<Principal>
    decreases p, 1
  {
    [p] + FlattenAll(p, p.composite)
  }

  function FlattenAll(ghost parent: Principal, ps: seq<Principal>): seq<Principal>
    requires forall i :: 0 <= i < |ps| ==> ps[i] < parent
    decreases parent, 0, |ps|
  {
    if ps == [] then [] else Flatten(ps[0]) + FlattenAll(parent, ps[1..])
  }

  /** The error of the first principal whose own translation fails, if any. */
  function FirstFailure(ps: seq<Principal>): (r: Option<Exception>)
    ensures r.None? <==> forall i :: 0 <= i < |ps| ==> Base(ps[i]).Ok?
    ensures r.Some? ==> exists i :: 0 <= i < |ps| && Base(ps[i]).Err? && r.value == Base(ps[i]).error
  {
    if ps == [] then None
    else if Base(ps[0]).Err? then Some(Base(ps[0]).error)
    else
      var r := FirstFailure(ps[1..]);
      assert forall i :: 1 <= i < |ps| ==> ps[i] == ps[1..][i - 1];
      r
  }

  lemma {:induction false} FirstFailureAppend(a: seq<Principal>, b: seq<Principal>)
    ensures FirstFailure(a + b) == if FirstFailure(a).Some? then FirstFailure(a) else FirstFailure(b)
  {
    if a != [] {
      assert (a + b)[0] == a[0];
      assert (a + b)[1..] == a[1..] + b;
      FirstFailureAppend(a[1..], b);
    } else {
      assert a + b == b;
    }
  }

  /**
   * `iamPrincipal()` followed by `maybeComposite`: the base principal when there are no
   * nested principals, otherwise a composite of the base and the translation of each nested
   * principal in order. The translation fails exactly when some principal of the tree has an
   * unknown type or, unless federated, a null conditions map; the error is that of the first
   * one visited.
   */
  function Translate(p: Principal): (r: Result<IamPrincipal>)
    ensures r.Ok? <==> FirstFailure(Flatten(p)).None?
    ensures r.Err? ==> r.error == FirstFailure(Flatten(p)).value
    ensures r.Ok? && p.composite == [] ==> r == Base(p)
    ensures r.Ok? && p.composite != [] ==>
      && Base(p).Ok?
      && r.value.CompositePrincipal?
      && |r.value.members| == 1 + |p.composite|
      && r.value.members[0] == Base(p).value
      && TranslateAll(p, p.composite) == Ok(r.value.members[1..])
    decreases p, 1
  {
    FirstFailureFlatten(p);
    var base :- Base(p);
    if p.composite == [] then Ok(base)
    else
      var members :- TranslateAll(p, p.composite);
      var all := [base] + members;
      assert all[1..] == members;
      Ok(CompositePrincipal(all))
  }

  /** The first unknown type of a tree is the record's own, else the first among the nested trees. */
  lemma FirstFailureFlatten(p: Principal)
    ensures FirstFailure(Flatten(p)) == if Base(p).Err? then Some(Base(p).error) else FirstFailure(FlattenAll(p, p.composite))
  {
    FirstFailureAppend([p], FlattenAll(p, p.composite));
    assert FirstFailure([p]) == if Base(p).Err? then Some(Base(p).error) else FirstFailure([p][1..]);
    assert [p][1..] == [];
  }

  /** `composite.stream().map(Principal::iamPrincipal).toList()`: the first failure propagates. */
  function TranslateAll(ghost parent: Principal, ps: seq<Principal>): (r: Result<seq<IamPrincipal>>)
    requires forall i :: 0 <= i < |ps| ==> ps[i] < parent
    ensures r.Ok? <==> FirstFailure(FlattenAll(parent, ps)).None?
    ensures r.Err? ==> r.error == FirstFailure(FlattenAll(parent, ps)).value
    ensures r.Ok? ==> |r.value| == |ps|
    decreases parent, 0, |ps|
  {
    if ps == [] then Ok([])
    else
      FirstFailureFlattenAll(parent, ps);
      var head :- Translate(ps[0]);
      var tail :- TranslateAll(parent, ps[1..]);
      Ok([head] + tail)
  }

  /** The first unknown type of a list of trees is the first tree's, else the first among the rest. */
  lemma FirstFailureFlattenAll(parent: Principal, ps: seq<Principal>)
    requires ps != [] && forall i :: 0 <= i < |ps| ==> ps[i] < parent
    ensures FirstFailure(FlattenAll(parent, ps)) ==
      if FirstFailure(Flatten(ps[0])).Some? then FirstFailure(Flatten(ps[0])) else FirstFailure(FlattenAll(parent, ps[1..]))
  {
    FirstFailureAppend(Flatten(ps[0]), FlattenAll(parent, ps[1..]));
  }

  /** A translated list is the translation of its head followed by that of its tail. */
  lemma TranslateAllCons(parent: Principal, ps: seq<Principal>)
    requires forall k :: 0 <= k < |ps| ==> ps[k] < parent
    requires ps != [] && TranslateAll(parent, ps).Ok?
    ensures forall k :: 0 <= k < |ps| - 1 ==> ps[1..][k] < parent
    ensures Translate(ps[0]).Ok? && TranslateAll(parent, ps[1..]).Ok?
    ensures TranslateAll(parent, ps).value == [Translate(ps[0]).value] + TranslateAll(parent, ps[1..]).value
  {
  }

  /** Each nested principal translates on its own into the member at the same position. */
  lemma {:induction false} TranslateAllPointwise(parent: Principal, ps: seq<Principal>, i: nat)
    requires forall k :: 0 <= k < |ps| ==> ps[k] < parent
    requires i < |ps| && TranslateAll(parent, ps).Ok?
    ensures Translate(ps[i]) == Ok(TranslateAll(parent, ps).value[i])
    decreases i
  {
    TranslateAllCons(parent, ps);
    if i > 0 {
      TranslateAllPointwise(parent, ps[1..], i - 1);
    }
  }

  /**
   * A composite lists the record's own principal first and then, position by position, the
   * translation of each nested principal on its own.
   */
  lemma TranslateComposite(p: Principal, i: nat)
    requires Translate(p).Ok? && i < |p.composite|
    ensures Translate(p).value.CompositePrincipal?
    ensures Translate(p.composite[i]) == Ok(Translate(p).value.members[i + 1])
  {
    TranslateAllPointwise(p, p.composite, i);
  }

  /**
   * A null conditions map on a nested principal of known type other than FEDERATED fails the
   * whole tree, whatever the record's own type and conditions.
   */
  lemma NestedNullConditionsFail(p: Principal, i: nat)
    requires i < |p.composite|
    requires var q := p.composite[i]; !q.kind.Other? && q.kind != FEDERATED && q.conditions.None?
    ensures Translate(p).Err?
  {
    if Translate(p).Ok? {
      TranslateComposite(p, i);
      FirstFailureFlatten(p.composite[i]);
    }
  }

  /** AWS and ACCOUNT are two names for the same translation. */
  lemma AwsIsAccount(p: Principal)
    requires p.kind == AWS
    ensures Translate(p) == Translate(p.(kind := ACCOUNT))
  {
    var q := p.(kind := ACCOUNT);
    assert q.composite == p.composite;
    assert Base(q) == Base(p);
    if p.composite != [] {
      assert TranslateAll(q, q.composite) == TranslateAll(p, p.composite) by {
        TranslateAllParent(p, q, p.composite);
      }
    }
  }

  /** The ghost parent only bounds the recursion: it does not change the translation. */
  lemma {:induction false} TranslateAllParent(parent1: Principal, parent2: Principal, ps: seq<Principal>)
    requires forall i :: 0 <= i < |ps| ==> ps[i] < parent1 && ps[i] < parent2
    ensures TranslateAll(parent1, ps) == TranslateAll(parent2, ps)
    decreases |ps|
  {
    if ps != [] {
      TranslateAllParent(parent1, parent2, ps[1..]);
    }
  }

  /** The workload an OIDC principal is for: a service account or a pod identity. */
  datatype Workload = Workload(roleName: string, namespace: string, name: string)

  const StsAudience := "sts.amazonaws.com"

  /** The subject claim of a Kubernetes service account. */
  function Subject(namespace: string, name: string): string
  {
    "system:serviceaccount:" + namespace + ":" + name
  }

  /**
   * Both `oidcPrincipal` overloads: a web-identity principal for the provider's ARN whose
   * single `StringEquals` condition (registered as `oidc-principal-<role>`) requires the
   * STS audience and the workload's service-account subject.
   */
  function OidcPrincipal(providerArn: string, issuer: string, w: Workload): (r: IamPrincipal)
    ensures r.WebIdentityPrincipal? && r.provider == providerArn
    ensures |r.condition.claims| == 2
    ensures r.condition.claims.Keys == {issuer + ":aud", issuer + ":sub"}
  {
    var aud, sub := issuer + ":aud", issuer + ":sub";
    assert aud[|issuer| + 1] != sub[|issuer| + 1];
    WebIdentityPrincipal(providerArn,
      StringEquals("oidc-principal-" + w.roleName, map[aud := StsAudience, sub := Subject(w.namespace, w.name)]))
  }

  /**
   * The subject claim names exactly the workload: split on ":" it gives back "system",
   * "serviceaccount", the namespace and the name, when neither holds a ":".
   */
  lemma OidcSubject(providerArn: string, issuer: string, w: Workload)
    requires ':' !in w.namespace && ':' !in w.name
    ensures var claims := OidcPrincipal(providerArn, issuer, w).condition.claims;
      && claims[issuer + ":aud"] == StsAudience
      && Text.Split(claims[issuer + ":sub"], ':') == ["system", "serviceaccount", w.namespace, w.name]
  {
    var parts := ["system", "serviceaccount", w.namespace, w.name];
    assert parts[1..][1..][1..] == [w.name];
    assert Text.Join([':'], parts[1..][1..]) == w.namespace + ":" + w.name;
    assert Subject(w.namespace, w.name) == Text.Join([':'], parts);
    Text.SplitJoin(parts, ':');
  }
}

=== FILE: template.dfy ===
/**
 * `Template` (Template.java), the front half of template resolution: pick the environment
 * and version from the context, compute the resource path `<environment>/<version>/<file>`,
 * fail when no resource lives there, build the default variables from the context and
 * merge the caller's variables over them.
 *
 * The classpath is a map from resource path to text (`Loader`), Mustache rendering is a
 * function parameter (`Renderer`), and the random id that `Common.id_()` would draw when the
 * synthesizer name is unset is the parameter `freshId`.
 */
module Template {
  import opened Wrappers
  import Context
  import Common
  import Environments
  import Versions
  import Text
  import JavaEnum

  /** `Map<String, Object>` of template variables; a `None` value is a Java null. */
  type Values = map<string, Option<Context.Value>>

  /** The classpath resources: path to contents. */
  type Loader = map<string, string>

  /** Mustache: compile the text under the template name, execute it against the variables. */
  type Renderer = (string, string, Values) -> string

  const HomeKey := "home"
  const SynthesizerKey := "synthesizer:name"
  const HostedSynthesizerKey := "hosted:synthesizer:name"
  const VersionKey := "host:version"
  const EnvironmentKey := "host:environment"

  /** The context keys `defaults` reads with `getContext`, in the order it reads them. */
  const RequiredKeys: seq<string> := [
    "host:id", "host:organization", "host:account", "host:region", "host:name",
    "host:alias", "host:environment", "host:version", "host:domain",
    "hosted:id", "hosted:organization", "hosted:account", "hosted:region", "hosted:name",
    "hosted:alias", "hosted:environment", "hosted:version", "hosted:domain"]

  /** The 20 keys of the default variables. */
  const DefaultKeys: set<string> := {HomeKey, SynthesizerKey} + set k | k in RequiredKeys

  /** `String.format("%s/%s/%s", environment, version, file)`. */
  function ResourcePath(environment: Environments.Environment, version: Versions.Version, file: string): (r: string)
    ensures '/' !in file ==>
      Text.Split(r, '/') == [Environments.ToString(environment), Versions.ToString(version), file]
  {
    var e, v := Environments.ToString(environment), Versions.ToString(version);
    var r := e + "/" + v + "/" + file;
    if '/' in file then r
    else
      var parts := [e, v, file];
      assert parts[1..][1..] == [file];
      assert Text.Join("/", parts) == r;
      Text.SplitJoin(parts, '/');
      r
  }

  function NotFound(path: string): Exception
  {
    RuntimeError("error parsing template! can not find " + path + ".")
  }

  /**
   * `execute`: load the resource at the computed path and render it against `values`;
   * a missing resource fails with a message naming the full path.
   */
  function Execute(environment: Environments.Environment, version: Versions.Version, file: string,
                   values: Values, loader: Loader, render: Renderer): (r: Result<string>)
    ensures var path := ResourcePath(environment, version, file);
      && (r.Ok? <==> path in loader)
      && (r.Ok? ==> r.value == render(loader[path], path, values))
      && (r.Err? ==> r.error == NotFound(path))
  {
    var path := ResourcePath(environment, version, file);
    if path in loader then Ok(render(loader[path], path, values)) else Err(NotFound(path))
  }

  /** The index of the first key of `keys` the context lacks, when there is one. */
  ghost predicate FirstMissing(ctx: Context.Ctx, keys: seq<string>, i: int)
  {
    0 <= i < |keys| && keys[i] !in ctx && forall j :: 0 <= j < i ==> keys[j] in ctx
  }

  /**
   * The `getContext(k).toString()` entries of `defaults`, read in order: the first key
   * that is not set fails.
   */
  function Required(ctx: Context.Ctx, keys: seq<string>): (r: Result<Values>)
    ensures r.Ok? <==> forall j :: 0 <= j < |keys| ==> keys[j] in ctx
    ensures r.Ok? ==> r.value.Keys == set k | k in keys
    ensures r.Ok? ==> forall k :: k in r.value ==> k in ctx && r.value[k] == Some(Context.Str(Context.Show(ctx[k])))
    ensures r.Err? ==> exists i :: FirstMissing(ctx, keys, i) && r.error == MissingContext(keys[i])
  {
    if keys == [] then Ok(map[])
    else
      match Context.Get(ctx, keys[0])
      case Err(e) =>
        assert FirstMissing(ctx, keys, 0);
        Err(e)
      case Ok(v) =>
        match Required(ctx, keys[1..])
        case Err(e) =>
          assert exists i :: FirstMissing(ctx, keys, i) && e == MissingContext(keys[i]) by {
            var i :| FirstMissing(ctx, keys[1..], i) && e == MissingContext(keys[1..][i]);
            assert FirstMissing(ctx, keys, i + 1);
          }
          Err(e)
        case Ok(rest) =>
          assert forall j :: 1 <= j < |keys| ==> keys[j] == keys[1..][j - 1];
          Ok(rest[keys[0] := Some(Context.Str(Context.Show(v)))])
  }

  /** `tryGetContext(key)` rendered with `toString`, or a fallback when it is not set. */
  function OrElse(ctx: Context.Ctx, key: string, fallback: string): string
  {
    match Context.TryGet(ctx, key)
    case Some(v) => Context.Show(v)
    case None => fallback
  }

  /** Every required key starts with "h" and has "s" third: none is "home" or "synthesizer:name". */
  lemma RequiredKeysShape()
    ensures forall j :: 0 <= j < |RequiredKeys| ==>
      |RequiredKeys[j]| > 2 && RequiredKeys[j][0] == 'h' && RequiredKeys[j][2] == 's'
  {
  }

  lemma RequiredKeysDistinct()
    ensures forall i, j :: 0 <= i < j < |RequiredKeys| ==> RequiredKeys[i] != RequiredKeys[j]
  {
  }

  lemma RequiredKeysExclude()
    ensures HomeKey !in RequiredKeys && SynthesizerKey !in RequiredKeys && HomeKey != SynthesizerKey
  {
    RequiredKeysShape();
    assert HomeKey[2] == 'm' && SynthesizerKey[0] == 's';
  }

  /** The default variables around the required entries: "home" and "synthesizer:name" added. */
  function WithDefaults(required: Values, keys: seq<string>, home: string, synthesizer: string): (r: Values)
    requires required.Keys == set k | k in keys
    requires HomeKey !in keys && SynthesizerKey !in keys && HomeKey != SynthesizerKey
    ensures r.Keys == {HomeKey, SynthesizerKey} + set k | k in keys
    ensures r[HomeKey] == Some(Context.Str(home)) && r[SynthesizerKey] == Some(Context.Str(synthesizer))
    ensures forall k :: k in keys ==> r[k] == required[k]
    ensures !Common.HasNullValue(required) ==> !Common.HasNullValue(r)
  {
    required[HomeKey := Some(Context.Str(home))][SynthesizerKey := Some(Context.Str(synthesizer))]
  }

  /**
   * `defaults(scope)`: "home" (the context value, else "/"), "synthesizer:name" (the
   * hosted synthesizer name, else a fresh random id) and the 18 host and hosted keys.
   */
  function Defaults(ctx: Context.Ctx, freshId: string): (r: Result<Values>)
    ensures r.Ok? <==> forall j :: 0 <= j < |RequiredKeys| ==> RequiredKeys[j] in ctx
    ensures r.Err? ==> exists i :: FirstMissing(ctx, RequiredKeys, i) && r.error == MissingContext(RequiredKeys[i])
    ensures r.Ok? ==> r.value.Keys == DefaultKeys
    ensures r.Ok? ==> r.value[HomeKey] == Some(Context.Str(if HomeKey in ctx then Context.Show(ctx[HomeKey]) else "/"))
    ensures r.Ok? ==>
      r.value[SynthesizerKey] == Some(Context.Str(if HostedSynthesizerKey in ctx then Context.Show(ctx[HostedSynthesizerKey]) else freshId))
    ensures r.Ok? ==> forall k :: k in RequiredKeys ==> r.value[k] == Some(Context.Str(Context.Show(ctx[k])))
    ensures r.Ok? ==> !Common.HasNullValue(r.value)
  {
    var home := OrElse(ctx, HomeKey, "/");
    var synthesizer := OrElse(ctx, HostedSynthesizerKey, freshId);
    var required :- Required(ctx, RequiredKeys);
    RequiredKeysExclude();
    Ok(WithDefaults(required, RequiredKeys, home, synthesizer))
  }

  /** A sequence without repeated elements has as many distinct elements as positions. */
  lemma {:induction false} DistinctCount<T>(s: seq<T>)
    requires forall i, j :: 0 <= i < j < |s| ==> s[i] != s[j]
    ensures |set x | x in s| == |s|
  {
    if s != [] {
      DistinctCount(s[1..]);
      assert (set x | x in s) == {s[0]} + set x | x in s[1..];
    }
  }

  /** The default variables hold exactly 20 keys. */
  lemma DefaultKeyCount()
    ensures |DefaultKeys| == 20
  {
    RequiredKeysDistinct();
    DistinctCount(RequiredKeys);
    RequiredKeysExclude();
    var required := set k | k in RequiredKeys;
    assert DefaultKeys == {HomeKey} + ({SynthesizerKey} + required);
  }

  /** Reads `host:version` and `host:environment` (in that order) and parses them case-insensitively. */
  function Target(ctx: Context.Ctx): (r: Result<(Environments.Environment, Versions.Version)>)
    ensures r.Ok? ==> VersionKey in ctx && EnvironmentKey in ctx
    ensures r.Ok? ==> Versions.Of(Context.Show(ctx[VersionKey])) == Ok(r.value.1)
    ensures r.Ok? ==> Environments.Of(Context.Show(ctx[EnvironmentKey])) == Ok(r.value.0)
  {
    var v :- Context.Get(ctx, VersionKey);
    var version :- Versions.Of(Context.Show(v));
    var e :- Context.Get(ctx, EnvironmentKey);
    var environment :- Environments.Of(Context.Show(e));
    Ok((environment, version))
  }

  /** `parse(scope, file)`: render the file against exactly the default variables. */
  function Parse(ctx: Context.Ctx, file: string, loader: Loader, render: Renderer, freshId: string): (r: Result<string>)
    ensures r.Ok? ==> Target(ctx).Ok? && Defaults(ctx, freshId).Ok?
    ensures Target(ctx).Ok? && Defaults(ctx, freshId).Ok? ==>
      r == Execute(Target(ctx).value.0, Target(ctx).value.1, file, Defaults(ctx, freshId).value, loader, render)
  {
    var (environment, version) :- Target(ctx);
    var defaults :- Defaults(ctx, freshId);
    Execute(environment, version, file, defaults, loader, render)
  }

  /** `parse(scope, file, values)`: render against the defaults with the caller's values merged over them. */
  function ParseWith(ctx: Context.Ctx, file: string, values: Common.JavaMap<string, Context.Value>,
                     loader: Loader, render: Renderer, freshId: string): (r: Result<string>)
    ensures r.Ok? ==> Target(ctx).Ok? && Defaults(ctx, freshId).Ok?
  {
    var (environment, version) :- Target(ctx);
    var defaults :- Defaults(ctx, freshId);
    var merged :- Common.From(Some(defaults), values);
    Execute(environment, version, file, merged, loader, render)
  }

  /**
   * Caller values win on a shared key and the defaults they do not override survive:
   * with a null-free caller map, `parse` with values renders the resolved file against
   * the right-biased union of the defaults and the caller's values.
   */
  lemma ParseWithOverrides(ctx: Context.Ctx, file: string, values: Values,
                           loader: Loader, render: Renderer, freshId: string)
    requires Target(ctx).Ok? && Defaults(ctx, freshId).Ok?
    requires !Common.HasNullValue(values)
    ensures ParseWith(ctx, file, Some(values), loader, render, freshId)
      == Execute(Target(ctx).value.0, Target(ctx).value.1, file, Defaults(ctx, freshId).value + values, loader, render)
  {
    var t := Target(ctx).value;
    var d := Defaults(ctx, freshId).value;
    assert Common.From(Some(d), Some(values)) == Ok(d + values);
    assert ParseWith(ctx, file, Some(values), loader, render, freshId) == Execute(t.0, t.1, file, d + values, loader, render);
  }

  /** Without caller values (a null map), `parse` with values is `parse`. */
  lemma ParseWithNull(ctx: Context.Ctx, file: string, loader: Loader, render: Renderer, freshId: string)
    ensures ParseWith(ctx, file, None, loader, render, freshId) == Parse(ctx, file, loader, render, freshId)
  {
    if Target(ctx).Ok? && Defaults(ctx, freshId).Ok? {
      var d := Defaults(ctx, freshId).value;
      assert Common.From(Some(d), None) == Ok(d);
    }
  }

  /**
   * An unknown environment or version, or a missing one, fails before any resource is
   * looked up: the outcome is the same error whatever the classpath and the renderer.
   */
  lemma TargetFailsFirst(ctx: Context.Ctx, file: string, values: Common.JavaMap<string, Context.Value>,
                         loader1: Loader, render1: Renderer, loader2: Loader, render2: Renderer, freshId: string)
    requires Target(ctx).Err?
    ensures Parse(ctx, file, loader1, render1, freshId) == Err(Target(ctx).error)
    ensures Parse(ctx, file, loader1, render1, freshId) == Parse(ctx, file, loader2, render2, freshId)
    ensures ParseWith(ctx, file, values, loader1, render1, freshId) == Err(Target(ctx).error)
  {
  }

  /** A version text that is not v1, v2 or v3 in any letter case fails as `Version.of` does. */
  lemma UnknownVersion(ctx: Context.Ctx)
    requires VersionKey in ctx
    requires forall v: Versions.Version :: !Text.EqualsIgnoreCase(Context.Show(ctx[VersionKey]), Versions.ToString(v))
    ensures Target(ctx) == Err(JavaEnum.NoEnumConstant(Versions.ClassName, Text.Upper(Context.Show(ctx[VersionKey]))))
  {
    Versions.OfRejects(Context.Show(ctx[VersionKey]));
  }

  /** When the synthesizer name is set, resolution does not depend on the random id. */
  lemma ParseDeterministic(ctx: Context.Ctx, file: string, loader: Loader, render: Renderer, id1: string, id2: string)
    requires HostedSynthesizerKey in ctx
    ensures Parse(ctx, file, loader, render, id1) == Parse(ctx, file, loader, render, id2)
  {
    assert OrElse(ctx, HostedSynthesizerKey, id1) == OrElse(ctx, HostedSynthesizerKey, id2);
    assert Defaults(ctx, id1) == Defaults(ctx, id2);
  }

  lemma ProductionV2Path()
    ensures ResourcePath(Environments.PRODUCTION, Versions.V2, "network.yaml") == "production/v2/network.yaml"
  {
  }

  /** A missing `production/v2/network.yaml` fails with an error naming exactly that path. */
  lemma MissingResourceNamesPath(ctx: Context.Ctx, loader: Loader, render: Renderer, freshId: string)
    requires Target(ctx) == Ok((Environments.PRODUCTION, Versions.V2)) && Defaults(ctx, freshId).Ok?
    requires "production/v2/network.yaml" !in loader
    ensures Parse(ctx, "network.yaml", loader, render, freshId) == Err(NotFound("production/v2/network.yaml"))
  {
    ProductionV2Path();
  }
}

=== FILE: text.dfy ===
/**
 * String helpers standing in for the JDK and commons-lang calls the modelled code makes:
 * ASCII case mapping (`toUpperCase`, `toLowerCase`, `equalsIgnoreCase`), `String.join`,
 * single-character `replace`, and a `split` on one character that keeps empty fields.
 * Case mapping is ASCII-only: the locale-dependent mappings of non-ASCII letters are
 * not part of this model.
 */
module Text {

  predicate IsAsciiUpper(c: char) { 'A' <= c <= 'Z' }
  predicate IsAsciiLower(c: char) { 'a' <= c <= 'z' }
  predicate IsAsciiLetter(c: char) { IsAsciiUpper(c) || IsAsciiLower(c) }

  function UpperChar(c: char): (r: char)
    ensures IsAsciiLower(c) ==> IsAsciiUpper(r) && r as int == c as int - 32
    ensures !IsAsciiLower(c) ==> r == c
  {
    if IsAsciiLower(c) then (c as int - 32) as char else c
  }

  function LowerChar(c: char): (r: char)
    ensures IsAsciiUpper(c) ==> IsAsciiLower(r) && r as int == c as int + 32
    ensures !IsAsciiUpper(c) ==> r == c
  {
    if IsAsciiUpper(c) then (c as int + 32) as char else c
  }

  /** `String.toUpperCase()` on ASCII text. */
  function Upper(s: string): (r: string)
    ensures |r| == |s|
    ensures forall i :: 0 <= i < |s| ==> r[i] == UpperChar(s[i])
  {
    seq(|s|, i requires 0 <= i < |s| => UpperChar(s[i]))
  }

  /** `String.toLowerCase()` on ASCII text. */
  function Lower(s: string): (r: string)
    ensures |r| == |s|
    ensures forall i :: 0 <= i < |s| ==> r[i] == LowerChar(s[i])
  {
    seq(|s|, i requires 0 <= i < |s| => LowerChar(s[i]))
  }

  /** `String.equalsIgnoreCase` on ASCII text. */
  predicate EqualsIgnoreCase(a: string, b: string)
  {
    Upper(a) == Upper(b)
  }

  lemma UpperUnchanged(s: string)
    requires forall i :: 0 <= i < |s| ==> !IsAsciiLower(s[i])
    ensures Upper(s) == s
  {
  }

  lemma UpperOfLower(s: string)
    ensures Upper(Lower(s)) == Upper(s)
  {
    assert forall i :: 0 <= i < |s| ==> UpperChar(LowerChar(s[i])) == UpperChar(s[i]);
  }

  /** Lower-casing commutes with dropping a prefix. */
  lemma LowerDrop(s: string, k: nat)
    requires k <= |s|
    ensures Lower(s)[k..] == Lower(s[k..])
  {
    assert forall i :: 0 <= i < |s| - k ==> Lower(s)[k..][i] == LowerChar(s[k..][i]);
  }

  lemma UpperIdempotent(s: string)
    ensures Upper(Upper(s)) == Upper(s)
  {
    assert forall i :: 0 <= i < |s| ==> UpperChar(UpperChar(s[i])) == UpperChar(s[i]);
  }

  /** `String.join(sep, segments)`. */
  function Join(sep: string, segments: seq<string>): (r: string)
    ensures segments == [] ==> r == ""
    ensures |segments| == 1 ==> r == segments[0]
  {
    if |segments| == 0 then ""
    else if |segments| == 1 then segments[0]
    else segments[0] + sep + Join(sep, segments[1..])
  }

  function TotalLength(segments: seq<string>): nat
  {
    if segments == [] then 0 else |segments[0]| + TotalLength(segments[1..])
  }

  /** `String.replace(from, to)` with single-character arguments. */
  function ReplaceChar(s: string, from: char, to: char): (r: string)
    ensures |r| == |s|
    ensures forall i :: 0 <= i < |s| ==> r[i] == (if s[i] == from then to else s[i])
  {
    seq(|s|, i requires 0 <= i < |s| => if s[i] == from then to else s[i])
  }

  /** Splits on every occurrence of `c`, keeping empty fields (the exact inverse of `Join`). */
  function Split(s: string, c: char): (r: seq<string>)
    ensures |r| >= 1
    decreases |s|
  {
    if |s| == 0 then [""]
    else if s[0] == c then [""] + Split(s[1..], c)
    else
      var rest := Split(s[1..], c);
      [[s[0]] + rest[0]] + rest[1..]
  }

  lemma {:induction false} SplitNoSeparator(s: string, c: char)
    requires c !in s
    ensures Split(s, c) == [s]
    decreases |s|
  {
    if |s| > 0 {
      SplitNoSeparator(s[1..], c);
      assert [s[0]] + s[1..] == s;
    }
  }

  lemma {:induction false} SplitAfterField(a: string, c: char, rest: string)
    requires c !in a
    ensures Split(a + [c] + rest, c) == [a] + Split(rest, c)
    decreases |a|
  {
    var s := a + [c] + rest;
    if |a| == 0 {
      assert s == [c] + rest;
      assert s[1..] == rest;
    } else {
      assert s[1..] == a[1..] + [c] + rest;
      SplitAfterField(a[1..], c, rest);
      assert [a[0]] + a[1..] == a;
    }
  }

  /** Joining fields that do not contain the separator and splitting again gives the fields back. */
  lemma {:induction false} SplitJoin(segments: seq<string>, c: char)
    requires |segments| >= 1
    requires forall i :: 0 <= i < |segments| ==> c !in segments[i]
    ensures Split(Join([c], segments), c) == segments
    decreases |segments|
  {
    if |segments| == 1 {
      SplitNoSeparator(segments[0], c);
    } else {
      SplitJoin(segments[1..], c);
      SplitAfterField(segments[0], c, Join([c], segments[1..]));
      assert [segments[0]] + segments[1..] == segments;
    }
  }

  /** The joined text is as long as its segments plus one separator between each pair. */
  lemma {:induction false} JoinLength(sep: string, segments: seq<string>)
    requires |segments| >= 1
    ensures |Join(sep, segments)| == TotalLength(segments) + (|segments| - 1) * |sep|
    decreases |segments|
  {
    if |segments| > 1 {
      JoinLength(sep, segments[1..]);
    } else {
      assert segments[1..] == [];
    }
  }

  /** A character that occurs neither in the separator nor in any segment does not occur in the join. */
  lemma {:induction false} JoinExcludes(sep: string, segments: seq<string>, c: char)
    requires c !in sep
    requires forall i :: 0 <= i < |segments| ==> c !in segments[i]
    ensures c !in Join(sep, segments)
    decreases |segments|
  {
    if |segments| > 1 {
      JoinExcludes(sep, segments[1..], c);
    }
  }
}

=== FILE: version.dfy ===
/** The `Version` enum (Version.java): the configuration version a template is resolved for. */
module Versions {
  import opened Wrappers
  import Text
  import JavaEnum

  datatype Version = V1 | V2 | V3

  const ClassName := "io.stxkxs.model._main.Version"

  const Members: seq<Version> := [V1, V2, V3]

  /** `Enum.name()`: the constant's declared name. */
  function Name(e: Version): string
  {
    match e
    case V1 => "V1"
    case V2 => "V2"
    case V3 => "V3"
  }

  /** `toString()`: the lower-case constant name. */
  function ToString(e: Version): (r: string)
    ensures r == Text.Lower(Name(e))
  {
    match e
    case V1 => "v1"
    case V2 => "v2"
    case V3 => "v3"
  }

  /** `of(o)`: `valueOf(o.toString().toUpperCase())`; `s` is the text of `o.toString()`. */
  function Of(s: string): (r: Result<Version>)
    ensures r.Err? ==> r.error == JavaEnum.NoEnumConstant(ClassName, Text.Upper(s))
  {
    JavaEnum.ValueOf(Members, Name, ClassName, Text.Upper(s))
  }

  lemma NamesAreUpperAndDistinct()
    ensures forall e: Version :: e in Members && Text.Upper(Name(e)) == Name(e)
    ensures JavaEnum.DistinctNames(Members, Name) && JavaEnum.UpperCaseNames(Members, Name)
  {
    forall e: Version ensures e in Members && Text.Upper(Name(e)) == Name(e) {
      Text.UpperUnchanged(Name(e));
    }
  }

  /** Reading back a member's own text gives that member. */
  lemma OfToString(e: Version)
    ensures Of(ToString(e)) == Ok(e)
  {
    NamesAreUpperAndDistinct();
    Text.UpperOfLower(Name(e));
    JavaEnum.ValueOfName(Members, Name, ClassName, e);
  }

  /** `of` accepts exactly the members' texts, in any letter case, and fails on everything else. */
  lemma OfIgnoresCase(s: string, e: Version)
    ensures Of(s) == Ok(e) <==> Text.EqualsIgnoreCase(s, ToString(e))
  {
    NamesAreUpperAndDistinct();
    Text.UpperOfLower(Name(e));
    JavaEnum.UpperCaseLookup(Members, Name, ClassName, s, e);
  }

  lemma OfRejects(s: string)
    requires forall e: Version :: !Text.EqualsIgnoreCase(s, ToString(e))
    ensures Of(s) == Err(JavaEnum.NoEnumConstant(ClassName, Text.Upper(s)))
  {
    NamesAreUpperAndDistinct();
    forall i | 0 <= i < |Members| ensures !Text.EqualsIgnoreCase(s, Name(Members[i])) {
      assert !Text.EqualsIgnoreCase(s, ToString(Members[i]));
      Text.UpperOfLower(Name(Members[i]));
    }
    JavaEnum.UpperCaseRejects(Members, Name, ClassName, s);
  }

  /** Distinct members print differently. */
  lemma ToStringInjective(a: Version, b: Version)
    requires ToString(a) == ToString(b)
    ensures a == b
  {
    OfToString(a);
    OfToString(b);
  }
}

=== FILE: wrappers.dfy ===
/** Option for Java's nullable references and Result for Java's thrown exceptions. */
module Wrappers {

  /** `None` stands for Java's `null` (or an empty `Optional`). */
  datatype Option<+T> = None | Some(value: T)

  /** The exception kinds the modelled code raises, each with the message it carries. */
  datatype Exception =
    | RuntimeError(message: string)          // java.lang.RuntimeException
    | IllegalArgument(message: string)       // java.lang.IllegalArgumentException (Enum.valueOf)
    | IllegalState(message: string)          // java.lang.IllegalStateException
    | InvalidParameter(message: string)      // java.security.InvalidParameterException
    | ClassCast(message: string)             // java.lang.ClassCastException
    | NullPointer                            // java.lang.NullPointerException
    | IndexOutOfBounds                       // java.lang.StringIndexOutOfBoundsException
    | MissingContext(key: string)            // CDK Node.getContext on an undefined key

  /** A value, or the exception that was thrown instead of producing it. */
  datatype Result<+T> = Ok(value: T) | Err(error: Exception) {
    predicate IsFailure() { Err? }
    function PropagateFailure<U>(): Result<U>
      requires Err?
    {
      Err(error)
    }
    function Extract(): T
      requires Ok?
    {
      value
    }
  }
}
